=== FILE: README.md ===
# Pan/tilt mirror tracker — a Dafny model

This project models the arithmetic and state-update core of a set of Python
scripts that aim a pan/tilt mirror at a target seen by a motion-capture system.
Servo drivers are either Dynamixel servos on a serial bus or hobby servos
driven by pulse widths in microseconds. The modelled parts are:

- **Calibration geometry.** The residuals of the mirror-pivot solve. The two
  local-frame constructions. The closest points of two lines and their midpoint.
  The calibration frame. The pan/tilt decomposition of a local point. The
  change from global to local coordinates.
- **The per-cycle tracking step of the four Dynamixel trackers.** A lost
  target sends nothing. Otherwise the geometric angles are remapped to servo
  degrees and exactly one dual-axis `set_sync_pos` goes out.
- **The planar vector helpers.** Difference vectors, the signed angle between
  two vectors (with and without the fold into [-90, 90]) and the heading of a
  vector.
- **Dynamixel unit conversion and encoding.** The 32-bit two's-complement
  reinterpretation. Degree/tick scaling. Little-endian byte splitting with the
  SDK's byte macros, taken as the usual masks and shifts. The readback checks,
  against a bus whose reads may fail.
- **The PID controller and the hobby-servo trackers.** The microsecond range
  guard. The min/max calibration sweep. Yaw accumulation. The data-list
  bookkeeping.
- **The motion-capture pose mailbox and the data loggers.**
- **The offline analysis and the PWM sweeps.** The cross-correlation lag, and
  the bouncing PWM sweeps of the serial tests.

Conventions:

- Numbers are Dafny `real` and `int`, not IEEE floats.
- Python's `int()` of a float is `Numerics.Trunc` (toward zero). Python's
  float `%` is `Numerics.FMod` (floored). `float('inf')` is `Numerics.ExtReal`.
- An exception is a `Failure` carrying the message Python or NumPy gives for
  it, as recent releases word it; NumPy's broadcast error is given only up to
  the shapes it goes on to list. A NaN or `None` is `None`.
- `sqrt`, `atan2`, `arccos`, `sin`, `cos` and `np.linalg.inv` are supplied by
  the caller in a `Maths` bundle. Every lemma that needs a property of one of
  them (`SqrtLaw`, `AcosLaw`, `Atan2Law`, `InvLaw`) names it in its `requires`.
- Hardware becomes data:
  - the serial line and the Dynamixel bus are logs of what was written;
  - a read is a parameter (a `Reply`, or `readings: nat -> real` for the yaw
    sampled at each step);
  - a motion-capture packet is a value.

## Model

| member | source | states |
|---|---|---|
| Remap.NumToRange | dev/vec_math2.py:7-9 | num_to_range maps inMin to outMin and inMax to outMax; division by a zero input interval is excluded, since every caller passes distinct constants |
| Remap.NumToRangeSlope | dev/vec_math2.py:7-9 | the map is the line through (inMin, outMin) with slope (outMax - outMin) / (inMax - inMin) |
| Remap.NumToRangeAffine | dev/vec_math2.py:7-9 | the map is affine: a weighted mean of two inputs goes to the same weighted mean of their images |
| Remap.NumToRangeMonotone | dev/vec_math2.py:7-9 | strictly increasing when both intervals run the same way, strictly decreasing when they run opposite ways |
| Remap.NumToRangeBetween | dev/vec_math2.py:7-9 | inputs inside the input interval land inside the output interval |
| Remap.NumToRangeInverse | dev/vec_math2.py:7-9 | mapping back with the intervals swapped returns the original number |
| Remap.NumToRangeLastAgrees | dev/tracking.py:109-110 | the value-last num_to_range computes the same map as the value-first one |
| Frames.ResidualDefined | dev/vec_math2.py:26-32 | a residual is undefined (NaN) exactly when the candidate pivot coincides with one of its two points |
| Frames.Residual | dev/vec_math2.py:26-32 | a defined residual is zero exactly when the two points are seen from the candidate pivot under the measured angle: the dot product of the rays equals cos(angle) times the product of their norms |
| Frames.Residuals | dev/vec_math2.py:24-34 | the residual list has one entry per angle, and entry i pairs points i and i + 1; at least len(angles) + 1 points are required; likewise in dev/3d_vec_math/vec_math.py (lines 20-30) |
| Frames.ResidualsDefined | dev/vec_math2.py:25-33 | with the pivot away from every point, every entry is defined, and entry i is zero iff points i and i + 1 subtend angles[i] |
| Frames.LocalFrame | dev/vec_math2.py:51-57 | def_local_coor_sys yields a frame exactly when the axis point is non-zero, the two rays are not parallel, and the axis point is not parallel to their normal; then z is normal to both rays from the local origin, y is normal to x and z, all columns are unit vectors, and x points along the raw axis point; likewise in dev/3d_vec_math/vec_math.py (lines 46-52) |
| Frames.LocalFrameXIgnoresOrigin | dev/vec_math2.py:51 | x does not depend on the local origin |
| Frames.LocalFrameSkew | dev/vec_math2.py:51-55 | x and z are orthogonal exactly when the raw axis point is orthogonal to the normal of the rays |
| Frames.LocalFrameNotOrthogonal | dev/vec_math2.py:51-55 | as written, whenever the axis point has a positive component along that normal, the frame exists and x is not orthogonal to z |
| Frames.SkewExample | dev/3d_vec_math/vec_math.py:46-48 | the points (1,1,0), (1,0,1) with origin (1,0,0) meet those conditions |
| Frames.LocalFrameCentred | dev/vec_math2.py:53-57 | with x measured from the local origin, the frame exists exactly for non-parallel rays, and it is orthonormal, with x along the first ray and z normal to both rays |
| Frames.PairsLength | dev/vec_math2.py:76 | itertools.combinations of n vectors gives n (n - 1) / 2 cross products |
| Frames.PairsContains | dev/vec_math2.py:76 | every pair i < j contributes vs[i] x vs[j] |
| Frames.Frame2 | dev/vec_math2.py:73-93 | yields a frame exactly when there are at least two points, the averaged cross product and the first ray are non-zero and not parallel; its columns are then orthonormal, x points from the origin to the first point, and y is normal to the averaged cross product; likewise in dev/3d_vec_math/vec_math.py (lines 68-88) |
| Frames.CalcRotComp | dev/dart_track.py:47-50 | with the square-root and atan2 laws, the tilt lies in [-90, 90] and is positive, negative or zero as local z is; likewise in dev/calibrate.py (lines 86-98) |
| Frames.CalcRotCompXZ | dev/vec_math2.py:137-149 | the x²+z² tilt, as written, keeps the range [-90, 90] and the sign of local z; likewise in dev/3d_vec_math/vec_math.py (lines 142-143) |
| Frames.CalcRotCompPan | dev/vec_math2.py:147 | pan is the same in both variants; for x > 0 it lies in (-90, 90) with the sign of y |
| Frames.CalcRotCompStraightUp | dev/3d_vec_math/vec_math.py:142-143 | a point straight above the pivot gets tilt 90 from the x²+y² version, but less than 90 from the x²+z² one |
| Frames.GlobalToLocal | dev/calibrate.py:73-84 | when inv is a left inverse of R, the result is the local vector that R sends to the point; likewise in dev/vec_math2.py (lines 124-135) |
| Frames.GlobalToLocalKeepsOffset | dev/calibrate.py:84 | applied to a point from local_to_global, global_to_local leaves the origin's image inv(R)·o added to the local vector; likewise in dev/vec_math2.py (line 135) |
| Frames.GlobalToLocalFrom | dev/dart_track.py:42-45 | raises ValueError with the calibration message exactly when there is no rotation; with a left inverse, it returns the local vector that local_to_global sends to the point |
| Frames.GlobalToLocalFromOrigin | dev/dart_track.py:45 | the local origin maps to the zero vector |
| Frames.GlobalToLocalVersions | dev/dart_track.py:45 | the two global_to_local versions differ by inv(R) applied to the origin |
| Numerics.Normalize | dev/calibrate.py:23-24 | v / norm(v) is a unit vector and a positive multiple of v |
| Numerics.Solve3 | dev/calibrate.py:52-54 | the Cramer solution s of a non-singular 3×3 system satisfies s.x·a + s.y·b + s.z·c = r |
| Calibration.FindClosestPoints | dev/calibrate.py:45-50 | find_closest_points raises "Lines are parallel" exactly when d1 × d2 is zero; likewise in dev/archive/calibrate_old.py (lines 12-17) |
| Calibration.ClosestSystemNonSingular | dev/calibrate.py:52-54 | det [d1, -d2, n] = -‖d1 × d2‖², so past the guard the solve cannot fail |
| Calibration.FindClosestPointsOnLines | dev/calibrate.py:52-57 | each result lies on its own line, and their difference is a multiple of d1 × d2, orthogonal to both directions; likewise in dev/archive/calibrate_old.py (lines 19-24) |
| Calibration.FindClosestPointsClosest | dev/calibrate.py:56-57 | no other pair of points on the two lines is nearer |
| Calibration.Midpoint | dev/calibrate.py:61-71 | the midpoint is offset from the first point by exactly what the second is offset from it, so it lies halfway; likewise in dev/archive/calibrate_old.py (lines 29-30) |
| Calibration.MidpointProperties | dev/calibrate.py:71 | calculate_midpoint is symmetric and fixes equal arguments; likewise in dev/archive/calibrate_old.py (lines 29-30) |
| Calibration.CalibrateIntersection | dev/calibrate.py:17-18 | calibrate fails exactly for parallel lines; otherwise the intersection is the midpoint of the closest points |
| Calibration.CalibrateAxes | dev/calibrate.py:20-32 | the frame exists iff both arms have length; y ⟂ x, y ⟂ z, z ⟂ x and the second arm; x is the unit first arm; ‖z‖² = 1 - (x·v2)², so the matrix is a rotation only for perpendicular arms |
| DartTrack.ServoRemaps | dev/dart_track.py:72-73 | pan: 45 → 202.5, -45 → 247.5, 0 → 225; tilt: 45 → 292.5, -45 → 337.5, 0 → 315; 90 lands outside (no clamp); both strictly decreasing |
| DartTrack.Command | dev/dart_track.py:42-50 | under the square-root and atan2 laws, a target above the pivot plane commands a tilt below 315, one below commands above, one on it commands 315 |
| DartTrack.CommandAtPivot | dev/dart_track.py:66-77 | the pivot itself commands the servo centres (225, 315) |
| DartTrack.DartTracker.Track | dev/dart_track.py:55-77 | lost: nothing sent; no rotation: the ValueError and nothing sent; otherwise exactly one (pan, tilt) command is appended |
| Tracking.ServoRemaps | dev/tracking.py:100-103 | yaw 0 → 270, 180 → 180; pitch 90 → 45, 0 → 90; both strictly decreasing |
| Tracking.AbsoluteTracker.constructor | dev/tracking.py:39-69 | mirror centres mapped to global coordinates, reference vectors from the body axes, three set_sync_pos calls (225,45), (230,50), (220,40) |
| Tracking.AbsoluteTracker.Track | dev/tracking.py:75-105 | lost: nothing changes; a None angle raises TypeError; otherwise absolute angles stored and exactly one command sent |
| Tracking.CommandBounds | dev/tracking.py:88-89 | absolute angles mean a commanded yaw never exceeds 270 and a pitch never exceeds 90 |
| Tracking.YawIgnoresYawReference | dev/tracking.py:88 | as written, the yaw angle is measured against the pitch reference, so the yaw reference is unused |
| TrackingBackup.ServoRemaps | dev/alternate/tracking_backup.py:82-86 | yaw -90 → 180, 0 → 225, 90 → 270; pitch -90 → 0, 0 → 45; both strictly increasing |
| TrackingBackup.SignedTracker.constructor | dev/alternate/tracking_backup.py:39-58 | one centring command, global mirror centres, servo centres read back, reference vectors |
| TrackingBackup.SignedTracker.Track | dev/alternate/tracking_backup.py:64-89 | lost: nothing changes; signed angles stored; an undefined one raises before sending; otherwise exactly one command |
| TrackingBackup.CommandRange | dev/alternate/tracking_backup.py:77-89 | signed angles in [-180, 180] give a yaw command in [135, 315] and a pitch in [-45, 135] |
| SyncTracking.SyncAngle | TrackingTests/sync_dyna_tracker.py:85-86 | (centre - angle) % 360 lies in [0, 360) and differs from centre - angle by whole turns |
| SyncTracking.SyncAngleTurns | TrackingTests/sync_dyna_tracker.py:85-86 | exact when centre - angle is in [0, 360), plus 360 when it is in [-360, 0); a zero angle commands the centre |
| SyncTracking.SyncAngleAtCentres | TrackingTests/sync_dyna_tracker.py:57-58 | with centres 225 and 45, folded yaws never wrap, but a pitch above 45 wraps to 405 - angle |
| SyncTracking.SyncTracker.constructor | TrackingTests/sync_dyna_tracker.py:33-62 | one centring command, global mirror centres, servo centres read back, calc_yaw_vec(225) and calc_pitch_vec(45) |
| SyncTracking.SyncTracker.Track | TrackingTests/sync_dyna_tracker.py:68-88 | lost: nothing changes; undefined angles raise at the point Python does; otherwise exactly one command ((yc - yaw) % 360, (pc - pitch) % 360) |
| Planar.LocalToGlobal | dev/alternate/vec_math.py:3-15 | the result minus the origin is the rotated local vector |
| Planar.LocalToGlobalOrigin | dev/alternate/vec_math.py:3-15 | local_to_global sends the zero vector to the origin |
| Planar.LocalToGlobalDifference | dev/alternate/vec_math.py:13 | differences of mapped points are rotated differences |
| Planar.CalcYawVec | dev/alternate/vec_math.py:17-24 | with sin² + cos² = 1, calc_yaw_vec is a unit vector; likewise in TrackingTests/vec_math.py (lines 3-10) |
| Planar.CalcPitchVec | dev/alternate/vec_math.py:26-33 | calc_pitch_vec is calc_yaw_vec with its components swapped, so also a unit vector |
| Planar.CalcAziVec | dev/alternate/vec_math.py:35-43 | b moved by the result, read back in (y, x) order, reaches a in x and y: calc_vec with its components swapped |
| Planar.CalcElvVec | dev/alternate/vec_math.py:45-53 | b moved by the result reaches a in y and z; zero exactly when a and b agree in y and z |
| Planar.CalcVec | TrackingTests/vec_math.py:12-20 | b moved by the result reaches a in x and y; zero exactly when a and b agree in x and y |
| Planar.DifferenceVectors | dev/alternate/vec_math.py:35-53 | calc_azi_vec and calc_elv_vec are zero from a point to itself and antisymmetric, and calc_elv_vec reads (y, z) of a - b; likewise in TrackingTests/vec_math.py (lines 12-20): calc_vec reads (x, y) of a - b, is zero from a point to itself, and is antisymmetric |
| Planar.CalcVecIgnoresZ | TrackingTests/old_versions/vec_math.py:12-20 | calc_vec ignores the third components |
| Planar.VecAngDelta | dev/alternate/vec_math.py:55-83 | None exactly when either magnitude is zero |
| Planar.VecAngDeltaZero | TrackingTests/old_versions/vec_math.py:24-29 | with a true square root, None exactly for a zero vector |
| Planar.VecAngDeltaSign | dev/alternate/vec_math.py:71-78 | with arccos in [0, π]: ≤ 0 when the cross z is negative, ≥ 0 otherwise, and within [-180, 180]; likewise in TrackingTests/old_versions/vec_math.py (lines 35-50) |
| Planar.VecAngDeltaSwap | TrackingTests/old_versions/vec_math.py:41-45 | swapping non-parallel vectors negates the angle |
| Planar.Fold | TrackingTests/vec_math.py:47-51 | angles in [-90, 90] pass unchanged; above 90 become 180 - a; below -90 become -180 - a; [-180, 180] folds into [-90, 90] |
| Planar.VecAngDeltaFolded | TrackingTests/vec_math.py:22-29 | None exactly when the product of magnitudes is zero |
| Planar.VecAngDeltaFoldedAgrees | TrackingTests/vec_math.py:22-53 | the folded version is the unfolded one followed by the fold |
| Planar.VecAngDeltaFoldedRange | TrackingTests/vec_math.py:47-51 | with arccos in [0, π], the folded angle lies in [-90, 90] |
| Planar.VecToAngle | dev/alternate/vec_math.py:85-89 | the heading lies in [0, 360) and differs from the raw atan2 heading by whole turns; likewise in TrackingTests/old_versions/vec_math.py (lines 52-56) |
| Ticks.XorBit31 | dev/dyna_controller.py:448 | on 32 bits, xor with 0x80000000 adds or subtracts 2^31 without wrapping |
| Ticks.ToSigned32 | dev/dyna_controller.py:446-448 | the result lies in [-2^31, 2^31) and is congruent to n modulo 2^32 for every integer n |
| Ticks.ToSigned32Piecewise | dev/dyna_controller.py:446-448 | n below 2^31 is kept; n in [2^31, 2^32) becomes n - 2^32; likewise in TrackingTests/dyna_controller.py (lines 206-209); TrackingTests/DynaController2.py (lines 174-177); TrackingTests/DynaController.py (lines 136-139); TrackingTests/DynamixelTest2.py (lines 86-89) |
| Ticks.ToSigned32Idempotent | TrackingTests/DynamixelTest2.py:87-89 | to_signed32 is idempotent |
| Ticks.ToSigned32AllOnes | TrackingTests/dyna_controller.py:77 | the all-ones register is -1 |
| Ticks.Split2 | dev/dyna_controller.py:109-110 | the 2-byte parameter has two bytes in [0, 256) |
| Ticks.MakeWordSplit2 | dev/dyna_controller.py:109-110 | MAKEWORD undoes the 2-byte split modulo 2^16, so exactly for 0 ≤ v < 65536 |
| Ticks.Split4 | dev/dyna_controller.py:184-185 | the 4-byte parameter has four bytes in [0, 256) |
| Ticks.Join4Split4 | dev/dyna_controller.py:184-185 | recombining the four low-first bytes gives v modulo 2^32, exactly v for 0 ≤ v < 2^32 |
| Ticks.DegToTicks | dev/dyna_controller.py:166 | int(d·4095/360): the whole part toward zero, non-negative and within one tick below d·4095/360 for d ≥ 0, non-positive and within one above for d < 0; likewise in dev/dyna_controller.py (lines 180-181); TrackingTests/DynaController2.py (line 58) |
| Ticks.TicksToDegrees | dev/dyna_controller.py:442-443 | t ticks are t/4095 of a turn, and 0..4095 ticks lie in [0, 360] degrees |
| Ticks.DegToTicksEnds | dev/dyna_controller.py:166 | 0 and 360 degrees are 0 and 4095 ticks; convert_ticks_to_degrees maps them back; likewise in TrackingTests/dyna_controller.py (line 65); TrackingTests/DynaController2.py (line 58) |
| Ticks.DegToTicksMonotone | dev/dyna_controller.py:180-181 | degree to tick is non-decreasing for non-negative angles |
| Ticks.DegToTicksRoundTrip | dev/dyna_controller.py:443 | for d ≥ 0, ticks and back lands in (d - 360/4095, d] |
| Ticks.DegToTicks4096Ends | TrackingTests/DynaController.py:58 | on the 4096 scale, 0, 180 and 360 degrees are 0, 2048 and 4096 ticks |
| Numerics.Trunc | dev/dyna_controller.py:166 | int() truncates toward zero: within one of the argument, never beyond it |
| Numerics.FMod | dev/alternate/vec_math.py:89 | Python's float % with a positive modulus lies in [0, n) and differs from the argument by a whole multiple of n; likewise in TrackingTests/sync_dyna_tracker.py (line 85) |
| Numerics.NormPositive | dev/vec_math2.py:51 | under the square-root law, the norm is non-negative, squares to v·v, and is zero exactly for the zero vector |
| Numerics.ExtMin | TrackingTests/servo_tracker.py:88 | min(min_yaw, yaw) with min_yaw possibly ±inf: the result is -inf exactly when min_yaw is, otherwise it is one of the two and no larger than either |
| Numerics.ExtMax | TrackingTests/servo_tracker.py:89 | max(max_yaw, yaw): +inf exactly when max_yaw is, otherwise one of the two and no smaller than either |
| Ticks.TicsToDegs | TrackingTests/tiny_test.py:53-54 | t ticks are t/8192 of a turn |
| Ticks.TicsToDegsScale | TrackingTests/tiny_test.py:53-54 | 8192 ticks are 360 degrees, 0 is 0, and the scale is strictly increasing |
| Ticks.DegsToTics | TrackingTests/tiny_test.py:57-58 | degs_2_tics truncates toward zero |
| Ticks.DegsToTicsInverse | TrackingTests/tiny_test.py:53-58 | degs_2_tics(tics_2_degs(t)) == t for every integer t |
| Ticks.VelToRaw | dev/dyna_controller.py:263 | int(v·41.7): within one raw unit of v·41.7, toward zero, for both signs; likewise in TrackingTests/DynaController2.py (line 85) |
| Ticks.VelToRawRoundTrip | dev/dyna_controller.py:263-282 | a non-negative velocity whose raw value fits in 31 bits reads back less than one raw unit (1/41.7) low, never high |
| Ticks.RawToVel | TrackingTests/DynaController2.py:92-98 | get_vel's value, the signed 32-bit reading over 41.7, lies in [-2^31/41.7, 2^31/41.7) |
| Ticks.RawToVelSigned | TrackingTests/DynaController.py:90-96 | a raw 0xffffffff is a small negative velocity; raw values below 2^31 are just scaled |
| Ticks.CalibrationTargets | TrackingTests/DynaController2.py:181 | set_pos(180) would be 2047 ticks, while a raw goal of 180 ticks is under 16 degrees |
| Bus.ReadData | TrackingTests/dyna_controller.py:184-204 | the read helpers give None on a communication failure or device error, the data otherwise; likewise in TrackingTests/DynamixelTest2.py (lines 62-83) |
| Bus.ReadbackConfirms | TrackingTests/dyna_controller.py:116-123 | a write is confirmed exactly when the read succeeds with the written value |
| DevController.SyncPosPacket | dev/dyna_controller.py:180-192 | one sync write to the goal-position register, pan then tilt, four bytes each, decoding to each motor's ticks modulo 2^32 |
| DevController.SyncPosPacketDecodes | dev/dyna_controller.py:180-185 | for a pan angle in [0, 360] the decoded value is the tick count itself, whose angle is within one tick below the command |
| DevController.SyncCurrentPacket | dev/dyna_controller.py:109-117 | one sync write to the goal-current register, pan then tilt, two bytes each, decoding through MAKEWORD to each current modulo 2^16 |
| DevController.CurrentOrSentinel | dev/dyna_controller.py:149-150 | MAKEWORD of the two bytes, or -1 exactly when the data is missing |
| DevController.DynaController.constructor | dev/dyna_controller.py:42-48 | both motors registered with zero bytes; nothing sent |
| DevController.DynaController.SetPos | dev/dyna_controller.py:157-169 | one 4-byte write of int(pos·4095/360) |
| DevController.DynaController.SetSyncPos | dev/dyna_controller.py:171-192 | both motors' parameters change, then exactly one transaction carries both goals |
| DevController.DynaController.SetSyncCurrent | dev/dyna_controller.py:97-122 | one sync write of both 2-byte currents |
| DevController.DynaController.GetSyncCurrent | dev/dyna_controller.py:124-155 | (-1, -1) on a failed read; otherwise MAKEWORD per motor, or -1 for missing data |
| DevController.DynaController.GetPos | dev/dyna_controller.py:214-230 | None on a failed read, else 360·(ticks/4095) |
| DevController.DynaController.GetVel | dev/dyna_controller.py:267-283 | None on a failed read, else the reading over 41.7 |
| DevController.DynaController.SetTorque | dev/dyna_controller.py:285-299 | True iff the readback equals int(torque) |
| DevController.DynaController.GetTorque | dev/dyna_controller.py:301-313 | True iff the register reads 1; a failed read is False |
| DevController.DynaController.SetOpMode | dev/dyna_controller.py:315-338 | True iff the mode read back equals the requested one |
| DevController.DynaController.CalibratePosition | dev/dyna_controller.py:450-452 | set_pos(180) binds 180 to the motor id: a write to motor 180 at 180 degrees |
| SingleController.FullScale | TrackingTests/DynaController.py:58 | 4096 ticks per turn in DynaController.py, 4095 in the other two |
| SingleController.DynaController.constructor | TrackingTests/dyna_controller.py:6-31 | the controller's variant and servo id, the id being 1 for DynaController2.py and DynaController.py; nothing sent; likewise in TrackingTests/DynaController2.py (lines 5-19) |
| SingleController.DynaController.SetPos | TrackingTests/dyna_controller.py:57-70 | one goal-position write of int(pos·scale/360) |
| SingleController.DynaController.GetPos | TrackingTests/dyna_controller.py:72-82 | to_signed32 then 360·(t/4095); a failed read raises (no None guard); DynaController.py always raises NameError; likewise in TrackingTests/DynaController2.py (lines 65-75) |
| SingleController.DynaController.SetVel | TrackingTests/dyna_controller.py:84-95 | one goal-velocity write of int(vel·41.7) |
| SingleController.DynaController.GetVel | TrackingTests/DynaController2.py:90-100 | to_signed32 then /41.7; a failed read raises; likewise in TrackingTests/DynaController.py (lines 88-98) |
| SingleController.DynaController.SetTorque | TrackingTests/dyna_controller.py:109-123 | True iff the readback equals int(torque); likewise in TrackingTests/DynaController2.py (lines 102-116) |
| SingleController.DynaController.GetTorque | TrackingTests/dyna_controller.py:125-137 | True iff the register reads 1 |
| SingleController.DynaController.SetOpMode | TrackingTests/dyna_controller.py:139-157 | True iff the readback equals the mode; likewise in TrackingTests/DynaController2.py (lines 118-136) |
| SingleController.DynaController.CalibratePosition | TrackingTests/DynaController2.py:179-181 | writes raw 180 ticks (DynaController2.py, DynaController.py) or set_pos(180) (dyna_controller.py); likewise in TrackingTests/DynaController.py (lines 141-143) |
| SingleController.GetPosAllOnes | TrackingTests/dyna_controller.py:74-80 | raw 2^32 - 1 reads as -1 tick, a negative angle |
| Pid.PID.constructor | TrackingTests/PID.py:2-7 | gains as given, prevError = iError = 0 |
| Pid.PID.Update | TrackingTests/PID.py:12-19 | iError grows by e, prevError becomes e, control = p·e + d·(e - old prev) + i·(old iError + e), gains unchanged |
| Pid.PID.UpdateAll | TrackingTests/PID.py:12-19 | a run of updates sums the errors into iError, leaves the last as prevError, and returns each step's control |
| Pid.FirstControl | TrackingTests/PID.py:6-7 | from a fresh controller the first control is (p + d + i)·e |
| Pid.ProportionalOnly | TrackingTests/PID.py:15-17 | with i = d = 0 the control is p·e whatever the history |
| Pid.ConstantError | TrackingTests/PID.py:13-17 | with constant error, the k-th control is p·e + i·(k + 1)·e, plus d·e on the first step only |
| ServoSweep.SendLog | TrackingTests/servo_tracker.py:45-52 | the serial line receives only values inside the 1000–2000 guard |
| ServoSweep.LastSent | TrackingTests/servo_tracker.py:46-50 | us_val is the last value that passed the guard, or unchanged |
| ServoSweep.SendLogAppend | TrackingTests/servo_tracker.py:78-82 | sends over a concatenation concatenate |
| ServoSweep.PyRange | TrackingTests/servo_tracker.py:78 | Python range(): starts at start, steps by step, stays on the near side of stop, empty exactly when it should be |
| ServoSweep.FloorDiv | TrackingTests/servo_tracker.py:78 | Python // floors for both signs of divisor |
| ServoSweep.CycleValues | TrackingTests/servo_tracker.py:78-80 | a zero sample count raises ZeroDivisionError, a zero step raises ValueError |
| ServoSweep.DefaultCycle | TrackingTests/servo_tracker.py:64 | the default arguments sweep 1000, 1500, 2000 |
| ServoSweep.CycleAllSent | TrackingTests/servo_tracker.py:78-82 | a sweep inside the guard sends all its values |
| ServoSweep.FoldExtremes | TrackingTests/servo_tracker.py:88-89 | after a sample both extremes are finite with min ≤ every sample ≤ max, and they only widen |
| ServoSweep.RangeOf | TrackingTests/servo_tracker.py:91 | yaw_range = max - min is finite and ≥ 0 once a sample was taken |
| ServoSweep.UsFor | TrackingTests/servo_tracker.py:104-108 | the pulse is non-finite (no exception: the yaw is a NumPy float) exactly when yaw_range is 0; an infinite range gives the centre; otherwise its offset from the centre times yaw_range is yaw·us_range, so the pulse determines the yaw |
| ServoSweep.UsForGuard | TrackingTests/servo_tracker.py:104-108 | yaw 0 maps to 1500; the pulse passes the guard iff abs(yaw / range) ≤ 1/2 |
| ServoTracking.Wraps | TrackingTests/servo_tracker.py:85-86 | every script except servo_tracker.py wraps its samples, and wrapped samples lie in [0, 360), while servo_tracker.py keeps them as read; likewise in TrackingTests/marker_tracking.py (line 86); TrackingTests/tracking_test_3.py (line 45) |
| ServoTracking.GuardNeverHolds | TrackingTests/servo_tracker.py:85-86 | the normalisation guard -90 < yaw < -180 never holds |
| ServoTracking.Normalise | TrackingTests/marker_tracking.py:86 | (yaw + 360) % 360 lies in [0, 360) and fixes values already there; without wrapping the sample is kept; likewise in TrackingTests/tracking_test_3.py (line 45) |
| ServoTracking.SampleYaws | TrackingTests/servo_tracker.py:82-86 | the k-th sample is the k-th reading, normalised in the two later scripts |
| ServoTracking.Shifted | TrackingTests/marker_tracking.py:152-153 | time stamps relative to the first, which becomes 0 |
| ServoTracking.SliceFrom | TrackingTests/servo_tracker.py:175-180 | Python s[k:] for every k |
| ServoTracking.ServoTracker.constructor | TrackingTests/servo_tracker.py:26-36 | gains (0.2, 0, 0), pulse 1500, extremes ±inf, range 0, empty lists; likewise in TrackingTests/marker_tracking.py (lines 27-37): gains (0.9, 0.01, 0.05), same initial state; TrackingTests/tracking_test_3.py (lines 14-21): gains (0.2, 0.01, 0.05), same initial state |
| ServoTracking.ServoTracker.SendUs | TrackingTests/servo_tracker.py:45-52 | sends and records v iff 1000 ≤ v ≤ 2000; otherwise nothing changes; likewise in TrackingTests/marker_tracking.py (lines 46-53); TrackingTests/tracking_test_3.py (lines 23-28) |
| ServoTracking.ServoTracker.Calibrate | TrackingTests/servo_tracker.py:64-100 | one centring pulse, then the sweep's guarded sends, extremes folded over the samples, range = max - min; a bad sweep raises after the centring pulse; likewise in TrackingTests/marker_tracking.py (lines 65-99) with normalised samples; TrackingTests/tracking_test_3.py (lines 30-58) with normalised samples |
| ServoTracking.ServoTracker.Sweep | TrackingTests/servo_tracker.py:78-89 | the nested loops send every value of count cycles and fold every sample |
| ServoTracking.ServoTracker.SetYaw | TrackingTests/servo_tracker.py:102-110 | yaw += control, then the mapped pulse through the guard; a zero range gives a non-finite pulse that the guard rejects, so nothing is sent and us_val is kept; likewise in TrackingTests/marker_tracking.py (lines 101-109); TrackingTests/tracking_test_3.py (lines 60-72) |
| ServoTracking.ServoTracker.Track | TrackingTests/servo_tracker.py:112-154 | either body lost: nothing changes, us_val included; the error is stored (an undefined one then raises TypeError before any PID update or send); one pid.update(direction·error), and one set_yaw with its control, us_val becoming the last value sent, or, for a zero range, a non-finite pulse the guard rejects, with nothing sent; likewise in TrackingTests/marker_tracking.py (lines 111-144) with direction -1; TrackingTests/tracking_test_3.py (lines 96-121): the loop body as evidently intended (see Findings), with direction -1 and without storing the error |
| ServoTracking.ServoTracker.LoopBodyAsWritten | TrackingTests/tracking_test_3.py:96-98 | as written, the loop body raises AttributeError on its first pass, whatever the poses, since MoCap has no body_lost |
| ServoTracking.ServoTracker.StoreData | TrackingTests/servo_tracker.py:156-159 | appends one entry to each list, keeping equal lengths; likewise in TrackingTests/marker_tracking.py (lines 146-149) |
| ServoTracking.ServoTracker.EmptyData | TrackingTests/servo_tracker.py:185-190 | all three lists become empty |
| ServoTracking.ServoTracker.SaveTrimmed | TrackingTests/servo_tracker.py:161-183 | drops the first int(len·pct/100) samples, shifts kept stamps to start at 0; IndexError when nothing is left |
| ServoTracking.SaveTrimmedShape | TrackingTests/servo_tracker.py:175-180 | for 0 ≤ pct ≤ 100 the kept lists have equal length |
| ServoTracking.ServoTracker.SaveShifted | TrackingTests/marker_tracking.py:151-155 | rewrites stamps relative to the first; IndexError on an empty log |
| ServoTracking.ServoTracker.BeginRun | TrackingTests/tracking_test_3.py:74-84 | the default calibration sends 1500, 1000, 1500, 2000, 1000, 1500, 2000, the range becomes finite, and us_val is then set to 1000 |
| ServoTracking.DefaultSweep | TrackingTests/tracking_test_3.py:30 | two default cycles send 1000, 1500, 2000 twice |
| OldTrackingTest.SendUsVal | TrackingTests/old_versions/tracking_test.py:59-64 | sends only when 1000 ≤ v ≤ 2000 |
| OldTrackingTest.AbsSum | TrackingTests/old_versions/tracking_test.py:42 | abs(min) + abs(max), infinite when either is |
| OldTrackingTest.AbsRange | TrackingTests/old_versions/tracking_test.py:38-42 | with wrapped samples the range is min + max, at least max - min, and equal to it iff min is 0 |
| OldTrackingTest.CalibrateYaw | TrackingTests/old_versions/tracking_test.py:20-48 | centring pulse, centre = the yaw read first, guarded sweep sends, range = abs(min) + abs(max); a bad sweep raises |
| OldTrackingTest.Sweep | TrackingTests/old_versions/tracking_test.py:30-40 | the nested loops send every guarded value of count cycles and fold every wrapped sample into the extremes |
| OldTrackingTest.CalibrationSamplesWrapped | TrackingTests/old_versions/tracking_test.py:38 | every sample is wrapped into [0, 360), so after a non-empty sweep both extremes are finite, ordered and inside [0, 360) |
| OldTrackingTest.MapYaw2Us | TrackingTests/old_versions/tracking_test.py:51-56 | non-finite (no exception: the target is a NumPy float) exactly when yaw_range is 0; an infinite range gives the centre 1500; otherwise (pulse - 1500)·yaw_range = target·500 |
| OldTrackingTest.MapYaw2UsFacts | TrackingTests/old_versions/tracking_test.py:51-56 | the centre is unused; 0 maps to 1500; the pulse passes the guard iff abs(t) ≤ abs(range) |
| OldTrackingTest.MainStep | TrackingTests/old_versions/tracking_test.py:92-109 | a None angle raises before the PID update or any send, leaving the PID as it was; a zero range gives a non-finite pulse that the guard rejects, so nothing is sent; otherwise the PID is updated with the pulse, its output discarded, and the pulse sent through the guard |
| MocapStream.Slice | dev/mocap_stream.py:103 | Python s[i:j] |
| MocapStream.Rows | dev/mocap_stream.py:103 | a 9-element matrix becomes three rows of three that concatenate back to it |
| MocapStream.MoCap.constructor | dev/mocap_stream.py:35-42 | position [0,0,0], matrix None, lost False |
| MocapStream.MoCap.OnPacket | dev/mocap_stream.py:91-127 | 6d: no body sets lost only; a body sets position, the matrix rows and lost False; 3d: no markers sets lost only; markers set position to the first, position2 to the second when calibrating with 2+, lost False; other types only clear lost |
| MocapStream.DataLogger.constructor | dev/mocap_stream.py:160-162 | all three lists start empty |
| MocapStream.DataLogger.Log | dev/mocap_stream.py:164-167 | appends data[0], data[2], data[3], keeping equal lengths; a short list raises IndexError after the appends that succeeded |
| MocapEuler.MoCap.constructor | TrackingTests/MoCapStream.py:31-34 | state from the constructor arguments, lost False |
| MocapEuler.MoCap.OnPacket | TrackingTests/MoCapStream.py:83-111 | 6d body: position, rotation a3, state [x,y,z,a1,a2,a3], lost False; no body or no marker: lost only; 3d markers: first marker; other stream types: nothing changes |
| MocapEuler.DataLogger.constructor | TrackingTests/MoCapStream.py:128-133 | all four lists start empty |
| MocapEuler.DataLogger.Log | TrackingTests/MoCapStream.py:135-139 | appends to four lists, keeping equal lengths; succeeds iff the record has at least four fields |
| DataAnalysis.Add | TrackingTests/data_analysis.py:27 | NumPy broadcasting: element-wise for equal lengths, a single element broadcast, otherwise an error |
| DataAnalysis.TargetYawRecoversError | TrackingTests/data_analysis.py:26-27 | target_yaw - yaw gives back the stored error sample by sample |
| DataAnalysis.Diffs | TrackingTests/data_analysis.py:56 | np.diff: one entry fewer than the stamps, entry i taking stamp i to stamp i + 1 |
| DataAnalysis.SumDiffs | TrackingTests/data_analysis.py:56 | the differences of the stamps telescope to last minus first |
| DataAnalysis.SamplesPerPeriod | TrackingTests/data_analysis.py:56 | fails (NaN or infinity to int) exactly with fewer than two stamps or equal first and last stamps; otherwise int(T·(n - 1)/(last - first)) |
| DataAnalysis.Prefix | TrackingTests/data_analysis.py:59-60 | Python s[:k] for every k |
| DataAnalysis.Max | TrackingTests/data_analysis.py:63-64 | np.max is an element and bounds every element |
| DataAnalysis.ArgMax | TrackingTests/data_analysis.py:155 | np.argmax is the first index of a maximal element |
| DataAnalysis.Correlate | TrackingTests/data_analysis.py:153 | the full correlation has len(x) + len(y) - 1 entries |
| DataAnalysis.ZeroShift | TrackingTests/data_analysis.py:153 | for equal lengths the middle entry is the dot product |
| DataAnalysis.CrossCorrelate | TrackingTests/data_analysis.py:141-159 | fails exactly when either signal is empty, as np.correlate raises, naming the first empty argument; otherwise 2π·(i - len(x) + 1)/len(x) for the first index i of a maximum of the full correlation |
| DataAnalysis.LagRange | TrackingTests/data_analysis.py:155-157 | -(len(x) - 1) ≤ lag ≤ len(y) - 1; for equal lengths abs(phase) < 2π |
| DataAnalysis.AmplitudeAndPhase | TrackingTests/data_analysis.py:42-70 | fails as the sample count does, or when a one-period slice is empty; otherwise the amplitude is max(tracker slice)/max(target slice), None when the latter is 0, and the phase is cross_correlate of the two slices; a finite amplitude is the ratio of a tracker sample to a non-zero target sample of the first period |
| DataAnalysis.AmplitudeAndPhaseFacts | TrackingTests/data_analysis.py:59-67 | for equal-length signals the one-period slices have equal length and the phase lies in (-2π, 2π) |
| DataAnalysis.AnalyzeData | TrackingTests/data_analysis.py:7-39 | succeeds exactly when yaw + angle_error broadcasts and calculate_amplitude_and_phase succeeds on yaw and that sum, failing with the first error otherwise; the result is yaw, yaw + angle_error and that amplitude and phase |
| PwmSweeps.Next | SerialTests/angle_loop.py:27-36 | one iteration moves by step in the current direction and turns at 2000 and 1000; likewise in SerialTests/random_pwm.py (lines 28-37) growing the step by 5 at each turn |
| PwmSweeps.Trace | SerialTests/angle_loop.py:37 | one value written per iteration |
| PwmSweeps.IterateInBand | SerialTests/random_pwm.py:26-37 | every reachable state stays in the band, with a step never below its start |
| PwmSweeps.StepConstant | SerialTests/angle_loop.py:8 | with no growth the step never changes |
| PwmSweeps.TraceInBand | SerialTests/random_pwm.py:38 | each value written lies strictly between 1000 - step and 2000 + step |
| PwmSweeps.AngleLoopBounds | SerialTests/angle_loop.py:6-37 | from 1500 with step 3, every value lies in [998, 2002] |
| PwmSweeps.RandomPwmBounds | SerialTests/random_pwm.py:21-38 | from 1000 with step 5, the step never decreases and values stay within (1000 - step, 2000 + step) |
| PwmSweeps.StepCountsTurns | SerialTests/random_pwm.py:34-37 | the step is 5 plus 5 per turn so far |
| PwmSweeps.AngleLoop | SerialTests/angle_loop.py:25-38 | the loop writes exactly the Trace of angle_loop.py's start |
| PwmSweeps.RandomPwm | SerialTests/random_pwm.py:26-39 | the loop writes exactly the Trace of random_pwm.py's start |

## Left out

- Floating point: reals stand for floats. NaN is `None` or a `Failure`. `np.allclose(n, 0)` is an exact zero test. No bit-exact or rounding claims are made.
- `round(…, 3)` in the `get_pos` methods is left out: the model returns the unrounded angle.
- `scipy.optimize.fsolve` and dev/triangulate.py are not part of this model. Only the residual list that `fsolve` drives to zero is modelled.
- `np.linalg.svd` and the `svd` frame builders are not part of this model.
- Hardware and transport I/O are replaced by logs and parameters:
  - the Dynamixel SDK port, packet and group-sync handlers;
  - `serial.Serial`;
  - the QTM connection and its streaming;
  - `asyncio`.
- Concurrency: `_on_packet` runs on a background thread in the source. Only one sequential update is modelled.
- The GUI, the camera and plotting code, `np.save`/`savemat` file output, the calibration pickle load, logging, sleeps, timing and real-time priority are not part of this model.
- The bode-sweep drivers of dev/dyna_controller.py are not part of this model.
- `set_sync_pwm` and `get_sync_pos` of dev/dyna_controller.py are left out: `set_sync_pwm` applies the byte macros to floats.
- The constructors' port-opening retry loops are left out.
- The module-level `__main__` loops of DynamixelTest2.py and DynaController.py are left out.
- The `dart_track()` while-loop, the tracking loops of dev/tracking.py and the module-level `while True` loops are left out:
  - each tracker models one cycle;
  - the SerialTests loops run a given number of iterations instead of until interrupted.
- FFT, Hilbert and `hanning` phase estimates in TrackingTests/data_analysis.py are left out, as are the plots and the array loading.
- `DataLogger.save_file` of dev/mocap_stream.py is left out: it reads an attribute that is never set.
- ServoTracking.ServoTracker.SaveTrimmed: the per-key loop over the data dictionary is modelled as one update of the three lists, and the files written are left out. The rounding of the shifted time stamps to five decimals (`np.around(…, decimals=5)`, TrackingTests/servo_tracker.py:180) is left out: the stored stamps are the exact differences.
- OldTrackingTest.MainStep: the basis heading is a parameter. As written, main() computes it from a yaw vector that raises TypeError. The name `PID_controller` imported by marker_tracking.py, tracking_test_3.py and old_versions/tracking_test.py does not exist in TrackingTests/PID.py; the model uses PID.py's `PID` class.
- SyncTracking: `calc_elv_vec`, `calc_pitch_vec` and `local_to_global` are missing from the vec_math module this script imports. The model uses those of dev/alternate/vec_math.py. TrackingTests/sync_dyna_tracker.py:2 imports `sync_dyna_controller`, which is not part of this model, so the controller is modelled only by what the script does with it: its position commands are a log of (yaw, pitch) pairs and its readings are constructor parameters. The servo centres read back with `get_pos` (TrackingTests/sync_dyna_tracker.py:57-58) are taken as plain reals: a failed read, which would give None, is not modelled.
- SingleController.DynaController.GetPos: in TrackingTests/DynaController.py the method reads an undefined name. It is modelled as a NameError `Failure`.
- DevController.DynaController.GetSyncCurrent: the sync read's `getData` is taken to return a two-byte pair or None. The SDK is not part of this model, and dev/dyna_controller.py:246-251 uses the same call's result as a single integer, so a read whose data is an integer is not modelled.
- DevController.DynaController.SetSyncPos: the bus's own `changeParam` and `txPacket` results are not modelled. Each call appends its transaction unconditionally.
- Pid: the gains and errors are reals, so no float rounding in the integral is modelled.
- ServoSweep.UsFor: a zero yaw_range gives inf or NaN in NumPy; the model gives `None` for both, without telling them apart.
- ServoTracking.ServoTracker.SetYaw: with a zero yaw_range the non-finite pulse is not sent, as the guard's comparisons are false for it; the model skips the send instead of evaluating the guard on it.
- ServoTracking.ServoTracker.Track: with a zero yaw_range the PID update and the yaw change happen as stated; only the send is skipped, as for SetYaw.
- OldTrackingTest.MapYaw2Us: a zero yaw_range gives inf or NaN in NumPy; the model gives `None` for both.
- OldTrackingTest.MainStep: with a zero yaw_range Python passes the non-finite pulse to `pid.update`, making its errors inf or NaN. The PID's fields are reals, so the contract says nothing about the PID in that case; it states only that nothing is sent.
- Frames.Frame2: with fewer than two points Python raises (IndexError on no points, and `np.cross` rejects the NaN mean of no cross products for one point). The model gives `None` there, as it does for the NaN frames of a zero norm.

## Findings

| source | as written | input that shows it | evidently intended | confidence | as-written member | corrected member |
|---|---|---|---|---|---|---|
| dev/vec_math2.py:148 | the tilt is atan2(z, sqrt(x² + z²)), with z in the horizontal distance | local point (0, 0, h), h > 0: tilt is atan2(h, h) (45 degrees), though the point is straight above | atan2(z, sqrt(x² + y²)), as dev/calibrate.py:97 and dev/dart_track.py:49 compute it, giving 90 | not executed | Frames.CalcRotCompXZ (Frames.CalcRotCompStraightUp) | Frames.CalcRotComp |
| dev/vec_math2.py:51 | x_axis is points[axis_idx] normalised, measured from the world origin rather than from local_origin | points (1,1,0), (1,0,1) with local origin (1,0,0) (Frames.SkewExample): x has a positive component along z, so the frame is not orthogonal | x along points[axis_idx] - local_origin, as def_local_coor_sys2 does at line 83 | not executed | Frames.LocalFrame (Frames.LocalFrameNotOrthogonal, Frames.SkewExample) | Frames.LocalFrameCentred |
| TrackingTests/tracking_test_3.py:96 | the run loop tests `body_lost` on both poses, an attribute MoCap (TrackingTests/MoCapStream.py) never defines, and only KeyboardInterrupt is caught | any pass of the loop, whatever the poses: AttributeError before any PID update or send | test the `lost` flag MoCap sets, as TrackingTests/servo_tracker.py:122 does | not executed | ServoTracking.ServoTracker.LoopBodyAsWritten | ServoTracking.ServoTracker.Track |

=== FILE: actuation.dfy ===
/** What every tracking cycle reads and writes: the motion-capture target's fields
    and the dual-axis servo command. */
module Actuation {
  import opened Numerics

  /** The fields of the motion-capture target that a tracking cycle reads. */
  datatype Target = Target(position: Vec3, lost: bool)

  /** One set_sync_pos(pan, tilt) call: both axes in one bus transaction. */
  datatype SyncCommand = SyncCommand(pan: real, tilt: real)
}

=== FILE: bus.dfy ===
/** The Dynamixel bus as the controllers see it: every read transaction returns data,
    a communication result and a device error byte, and every write or sync write
    is a transaction recorded in the controller's log. */
module Bus {
  import opened Numerics

  /** COMM_SUCCESS of the Dynamixel SDK. */
  const CommSuccess: int := 0

  /** Control-table addresses of the X series. */
  const OperatingMode: int := 11
  const TorqueEnable: int := 64
  const GoalCurrent: int := 102
  const GoalVelocity: int := 104
  const GoalPosition: int := 116
  const PresentCurrent: int := 126
  const PresentVelocity: int := 128
  const PresentPosition: int := 132

  /** What a read transaction hands back. */
  datatype Reply = Reply(data: int, comm: int, error: int)

  /** One parameter of a sync write: a motor and the bytes for it. */
  datatype Param = Param(id: int, bytes: seq<int>)

  /** A transaction sent on the bus. */
  datatype Transaction =
    | Write(id: int, address: int, size: int, value: int)
    | SyncWrite(address: int, params: seq<Param>)

  /** read1ByteData / read2ByteData / read4ByteData: None on a failed transaction or a
      device error, the data otherwise. */
  function ReadData(reply: Reply): (r: Option<int>)
    ensures r.Some? <==> reply.comm == CommSuccess && reply.error == 0
    ensures r.Some? ==> r.value == reply.data
  {
    if reply.comm != CommSuccess then None
    else if reply.error != 0 then None
    else Some(reply.data)
  }

  /** The readback checks of set_torque and set_op_mode: a write is confirmed exactly
      when the read succeeds and returns the written value; a failed read never
      confirms, whatever value was written. */
  lemma ReadbackConfirms(reply: Reply, written: int)
    ensures ReadData(reply) == Some(written) <==>
      reply.comm == CommSuccess && reply.error == 0 && reply.data == written
    ensures reply.comm != CommSuccess ==> ReadData(reply) != Some(written)
  {
  }
}

=== FILE: calibrate.dfy ===
/** The calibration of dev/calibrate.py and dev/archive/calibrate_old.py.  Two pairs
    of measured points each define a line (a pointing direction of the mirror); the
    closest points of the two lines are found by solving a 3x3 system, their midpoint
    is taken as the mirror's pivot, and a frame is built from the two arms. */
module Calibration {
  import opened Numerics
  import opened Frames

  /** The two closest points returned by find_closest_points, one on each line. */
  datatype PointPair = PointPair(onLine1: Vec3, onLine2: Vec3)

  const Parallel := "Lines are parallel"

  /** find_closest_points(p1, p2, p3, p4): with d1 = p2 - p1, d2 = p4 - p3 and
      n = d1 x d2, fail with "Lines are parallel" when n is zero (np.allclose is
      modelled as an exact test), otherwise solve [d1 | -d2 | n] (t, s, u) = p3 - p1
      and return p1 + t d1 and p3 + s d2.  The search fails exactly for parallel lines
      (including a line given by two equal points). */
  function FindClosestPoints(p1: Vec3, p2: Vec3, p3: Vec3, p4: Vec3): (r: Result<PointPair>)
    ensures r.Failure? <==> Cross(Sub(p2, p1), Sub(p4, p3)) == Zero3
    ensures r.Failure? ==> r.error == Parallel
  {
    var d1 := Sub(p2, p1);
    var d2 := Sub(p4, p3);
    var n := Cross(d1, d2);
    if n == Zero3 then Failure(Parallel)
    else
      ClosestSystemNonSingular(d1, d2);
      var sol := Solve3(d1, Neg(d2), n, Sub(p3, p1));
      Success(PointPair(Add(p1, Scale(sol.x, d1)), Add(p3, Scale(sol.y, d2))))
  }

  /** The determinant of [d1 | -d2 | d1 x d2] is -|d1 x d2|^2, so the system is
      non-singular exactly when the guard against parallel lines passes. */
  lemma ClosestSystemNonSingular(d1: Vec3, d2: Vec3)
    ensures Det3(d1, Neg(d2), Cross(d1, d2)) == -Dot(Cross(d1, d2), Cross(d1, d2))
    ensures Cross(d1, d2) != Zero3 ==> Det3(d1, Neg(d2), Cross(d1, d2)) < 0.0
  {
    var n := Cross(d1, d2);
    ClosestDet(d1, d2);
    if n != Zero3 {
      DotSelfPositive(n);
    }
  }

  lemma ClosestDet(d1: Vec3, d2: Vec3)
    ensures Det3(d1, Neg(d2), Cross(d1, d2)) == -Dot(Cross(d1, d2), Cross(d1, d2))
  {
  }

  /** On success each point lies on its own line, and the segment between them is a
      multiple of n = d1 x d2, hence orthogonal to both directions. */
  lemma FindClosestPointsOnLines(p1: Vec3, p2: Vec3, p3: Vec3, p4: Vec3)
    requires FindClosestPoints(p1, p2, p3, p4).Success?
    ensures var pp := FindClosestPoints(p1, p2, p3, p4).value;
      (exists t :: pp.onLine1 == Add(p1, Scale(t, Sub(p2, p1)))) &&
      (exists s :: pp.onLine2 == Add(p3, Scale(s, Sub(p4, p3)))) &&
      (exists u :: Sub(pp.onLine2, pp.onLine1) == Scale(u, Cross(Sub(p2, p1), Sub(p4, p3)))) &&
      Dot(Sub(pp.onLine2, pp.onLine1), Sub(p2, p1)) == 0.0 &&
      Dot(Sub(pp.onLine2, pp.onLine1), Sub(p4, p3)) == 0.0
  {
    var d1 := Sub(p2, p1);
    var d2 := Sub(p4, p3);
    var n := Cross(d1, d2);
    ClosestSystemNonSingular(d1, d2);
    var sol := Solve3(d1, Neg(d2), n, Sub(p3, p1));
    var pp := FindClosestPoints(p1, p2, p3, p4).value;
    assert pp.onLine1 == Add(p1, Scale(sol.x, d1));
    assert pp.onLine2 == Add(p3, Scale(sol.y, d2));
    SegmentAlongNormal(p1, p3, d1, d2, n, sol);
    CrossOrthogonal(d1, d2);
    DotScaleLeft(sol.z, n, d1);
    DotScaleLeft(sol.z, n, d2);
  }

  /** From t d1 - s d2 + u n = p3 - p1: (p3 + s d2) - (p1 + t d1) = u n. */
  lemma SegmentAlongNormal(p1: Vec3, p3: Vec3, d1: Vec3, d2: Vec3, n: Vec3, sol: Vec3)
    requires Combine(sol, d1, Neg(d2), n) == Sub(p3, p1)
    ensures Sub(Add(p3, Scale(sol.y, d2)), Add(p1, Scale(sol.x, d1))) == Scale(sol.z, n)
  {
    var c := Combine(sol, d1, Neg(d2), n);
    assert c.x == sol.x * d1.x - sol.y * d2.x + sol.z * n.x;
    assert c.y == sol.x * d1.y - sol.y * d2.y + sol.z * n.y;
    assert c.z == sol.x * d1.z - sol.y * d2.z + sol.z * n.z;
  }

  /** The returned points are the closest ones: no other pair of points on the two
      lines is nearer.  The segment w between them is orthogonal to both lines, so
      any other connecting vector is w plus a vector orthogonal to w. */
  lemma FindClosestPointsClosest(p1: Vec3, p2: Vec3, p3: Vec3, p4: Vec3, t: real, s: real)
    requires FindClosestPoints(p1, p2, p3, p4).Success?
    ensures var pp := FindClosestPoints(p1, p2, p3, p4).value;
      var w := Sub(pp.onLine2, pp.onLine1);
      var other := Sub(Add(p3, Scale(s, Sub(p4, p3))), Add(p1, Scale(t, Sub(p2, p1))));
      Dot(w, w) <= Dot(other, other)
  {
    var d1 := Sub(p2, p1);
    var d2 := Sub(p4, p3);
    var pp := FindClosestPoints(p1, p2, p3, p4).value;
    FindClosestPointsOnLines(p1, p2, p3, p4);
    var t0 :| pp.onLine1 == Add(p1, Scale(t0, d1));
    var s0 :| pp.onLine2 == Add(p3, Scale(s0, d2));
    var w := Sub(pp.onLine2, pp.onLine1);
    var e := Sub(Scale(s - s0, d2), Scale(t - t0, d1));
    var other := Sub(Add(p3, Scale(s, d2)), Add(p1, Scale(t, d1)));
    Shift(p1, p3, d1, d2, t0, s0, t, s);
    assert other == Add(w, e);
    OrthogonalToSpan(w, d1, d2, s - s0, t - t0);
    DotExpand(w, e);
    DotSelf(e);
  }

  lemma Shift(p1: Vec3, p3: Vec3, d1: Vec3, d2: Vec3, t0: real, s0: real, t: real, s: real)
    ensures Sub(Add(p3, Scale(s, d2)), Add(p1, Scale(t, d1)))
         == Add(Sub(Add(p3, Scale(s0, d2)), Add(p1, Scale(t0, d1))), Sub(Scale(s - s0, d2), Scale(t - t0, d1)))
  {
    var l := Sub(Add(p3, Scale(s, d2)), Add(p1, Scale(t, d1)));
    var r := Add(Sub(Add(p3, Scale(s0, d2)), Add(p1, Scale(t0, d1))), Sub(Scale(s - s0, d2), Scale(t - t0, d1)));
    assert l.x == r.x;
    assert l.y == r.y;
    assert l.z == r.z;
  }

  lemma OrthogonalToSpan(w: Vec3, d1: Vec3, d2: Vec3, a: real, b: real)
    requires Dot(w, d1) == 0.0 && Dot(w, d2) == 0.0
    ensures Dot(w, Sub(Scale(a, d2), Scale(b, d1))) == 0.0
  {
    DotScaleRight(a, w, d2);
    DotScaleRight(b, w, d1);
    assert Dot(w, Sub(Scale(a, d2), Scale(b, d1))) == Dot(w, Scale(a, d2)) - Dot(w, Scale(b, d1));
    ZeroTimes(a, Dot(w, d2));
    ZeroTimes(b, Dot(w, d1));
  }

  lemma ZeroTimes(a: real, z: real)
    requires z == 0.0
    ensures a * z == 0.0
  {
  }

  lemma DotExpand(w: Vec3, e: Vec3)
    ensures Dot(Add(w, e), Add(w, e)) == Dot(w, w) + 2.0 * Dot(w, e) + Dot(e, e)
  {
  }

  /** calculate_midpoint(a, b) = (a + b) / 2: the point as far (as a vector) from a
      as b is from it. */
  function Midpoint(a: Vec3, b: Vec3): (mid: Vec3)
    ensures Sub(mid, a) == Sub(b, mid)
  {
    Vec3((a.x + b.x) / 2.0, (a.y + b.y) / 2.0, (a.z + b.z) / 2.0)
  }

  /** The midpoint is symmetric and fixes equal arguments. */
  lemma MidpointProperties(a: Vec3, b: Vec3)
    ensures Midpoint(a, b) == Midpoint(b, a)
    ensures Midpoint(a, a) == a
  {
  }

  /** The result of calibrate: the rotation matrix (None stands for the NaN columns a
      zero-length arm produces) and the intersection point. */
  datatype CalibrationResult = CalibrationResult(rotation: Option<Mat3>, intersection: Vec3)

  /** calibrate(p1, p2, p3, p4): the intersection is the midpoint of the closest
      points; the arms run from it to the midpoints of the two pairs; x is the first
      arm normalised, z the cross product of the two normalised arms (not normalised
      again) and y = x x z; the matrix has columns (x, y, z).  The ValueError for
      parallel lines propagates. */
  function Calibrate(m: Maths, p1: Vec3, p2: Vec3, p3: Vec3, p4: Vec3): (r: Result<CalibrationResult>)
    requires SqrtLaw(m)
  {
    match FindClosestPoints(p1, p2, p3, p4)
    case Failure(e) => Failure(e)
    case Success(pp) =>
      var intersection := Midpoint(pp.onLine1, pp.onLine2);
      var vec1 := Sub(Midpoint(p1, p2), intersection);
      var vec2 := Sub(Midpoint(p3, p4), intersection);
      if vec1 == Zero3 || vec2 == Zero3 then Success(CalibrationResult(None, intersection))
      else
        var x := Normalize(m, vec1);
        var z := Cross(x, Normalize(m, vec2));
        Success(CalibrationResult(Some(ColumnStack(x, Cross(x, z), z)), intersection))
  }

  /** Calibration fails, with the parallel-lines error, exactly when the two lines
      are parallel; otherwise the intersection is the midpoint of the closest points. */
  lemma CalibrateIntersection(m: Maths, p1: Vec3, p2: Vec3, p3: Vec3, p4: Vec3)
    requires SqrtLaw(m)
    ensures Calibrate(m, p1, p2, p3, p4).Failure? <==> Cross(Sub(p2, p1), Sub(p4, p3)) == Zero3
    ensures Calibrate(m, p1, p2, p3, p4).Failure? ==> Calibrate(m, p1, p2, p3, p4).error == Parallel
    ensures Calibrate(m, p1, p2, p3, p4).Success? ==>
      var pp := FindClosestPoints(p1, p2, p3, p4).value;
      Calibrate(m, p1, p2, p3, p4).value.intersection == Midpoint(pp.onLine1, pp.onLine2)
  {
  }

  /** The frame exists when both arms have length, and then y is orthogonal to x and
      z, z is orthogonal to x and to the second arm, x is the unit vector along the
      first arm, and |z|^2 = 1 - (x . v2)^2 for the unit second arm v2: the matrix is a
      rotation only when the two arms are perpendicular. */
  lemma CalibrateAxes(m: Maths, p1: Vec3, p2: Vec3, p3: Vec3, p4: Vec3)
    requires SqrtLaw(m)
    requires Calibrate(m, p1, p2, p3, p4).Success?
    ensures var c := Calibrate(m, p1, p2, p3, p4).value;
      var vec1 := Sub(Midpoint(p1, p2), c.intersection);
      var vec2 := Sub(Midpoint(p3, p4), c.intersection);
      (c.rotation.Some? <==> vec1 != Zero3 && vec2 != Zero3) &&
      (c.rotation.Some? ==>
        var r := c.rotation.value;
        Dot(Col1(r), Col0(r)) == 0.0 && Dot(Col1(r), Col2(r)) == 0.0 &&
        Dot(Col2(r), Col0(r)) == 0.0 && Dot(Col2(r), vec2) == 0.0 &&
        Dot(Col0(r), Col0(r)) == 1.0 && PositiveMultiple(Col0(r), vec1) &&
        Dot(Col2(r), Col2(r)) == 1.0 - Dot(Col0(r), Normalize(m, vec2)) * Dot(Col0(r), Normalize(m, vec2)))
  {
    var c := Calibrate(m, p1, p2, p3, p4).value;
    var vec1 := Sub(Midpoint(p1, p2), c.intersection);
    var vec2 := Sub(Midpoint(p3, p4), c.intersection);
    if vec1 != Zero3 && vec2 != Zero3 {
      ArmAxes(m, vec1, vec2);
    }
  }

  /** The columns calibrate builds from two non-zero arms. */
  lemma ArmAxes(m: Maths, vec1: Vec3, vec2: Vec3)
    requires SqrtLaw(m) && vec1 != Zero3 && vec2 != Zero3
    ensures var x := Normalize(m, vec1);
      var z := Cross(x, Normalize(m, vec2));
      var y := Cross(x, z);
      Dot(y, x) == 0.0 && Dot(y, z) == 0.0 && Dot(z, x) == 0.0 && Dot(z, vec2) == 0.0 &&
      Dot(x, x) == 1.0 && PositiveMultiple(x, vec1) &&
      Dot(z, z) == 1.0 - Dot(x, Normalize(m, vec2)) * Dot(x, Normalize(m, vec2))
  {
    var x := Normalize(m, vec1);
    var v2 := Normalize(m, vec2);
    var z := Cross(x, v2);
    CrossOrthogonal(x, v2);
    CrossOrthogonal(x, z);
    OrthogonalUnscaled(z, v2, vec2);
    Lagrange(x, v2);
    UnitLagrange(Dot(z, z), Dot(x, x), Dot(v2, v2), Dot(x, v2));
  }

  lemma UnitLagrange(zz: real, xx: real, vv: real, xv: real)
    requires xx == 1.0 && vv == 1.0 && zz == xx * vv - xv * xv
    ensures zz == 1.0 - xv * xv
  {
  }
}

=== FILE: dart_track.dfy ===
/** The per-cycle tracking step of dev/dart_track.py.  The tracker holds the calibration
    (local origin and rotation) and a Dynamixel controller; each cycle reads the
    target's position, turns it into pan and tilt angles about the mirror pivot and
    remaps them onto the servos' degree ranges. */
module DartTrack {
  import opened Numerics
  import opened Frames
  import Remap
  import opened Actuation

  /** The pan remap num_to_range(pan, 45, -45, 202.5, 247.5). */
  function PanServo(pan: real): real
  {
    Remap.NumToRange(pan, 45.0, -45.0, 202.5, 247.5)
  }

  /** The tilt remap num_to_range(tilt, 45, -45, 292.5, 337.5). */
  function TiltServo(tilt: real): real
  {
    Remap.NumToRange(tilt, 45.0, -45.0, 292.5, 337.5)
  }

  /** The endpoints and centre of both remaps, that neither clamps (90 degrees lands
      outside the servo range), and that both are strictly decreasing. */
  lemma ServoRemaps(a: real, b: real)
    ensures PanServo(45.0) == 202.5 && PanServo(-45.0) == 247.5 && PanServo(0.0) == 225.0
    ensures TiltServo(45.0) == 292.5 && TiltServo(-45.0) == 337.5 && TiltServo(0.0) == 315.0
    ensures PanServo(90.0) == 180.0 && TiltServo(90.0) == 270.0
    ensures a < b ==> PanServo(a) > PanServo(b) && TiltServo(a) > TiltServo(b)
  {
    if a < b {
      Remap.NumToRangeMonotone(a, b, 45.0, -45.0, 202.5, 247.5);
      Remap.NumToRangeMonotone(a, b, 45.0, -45.0, 292.5, 337.5);
    }
  }

  /** The command for a target at global position p under calibration (r, origin):
      global_to_local, calc_rot_comp with sqrt(x^2 + y^2), then both remaps.  Under the
      square-root and atan2 laws, a target above the pivot's horizontal plane
      (positive local z) drives the tilt servo below its centre 315, one below the
      plane drives it above, and one on the plane leaves it at the centre. */
  function Command(m: Maths, r: Mat3, origin: Vec3, p: Vec3): (c: SyncCommand)
    ensures SqrtLaw(m) && Atan2Law(m) ==>
      var z := GlobalToLocalFrom(m, Some(r), origin, p).value.z;
      (z > 0.0 ==> c.tilt < 315.0) && (z < 0.0 ==> c.tilt > 315.0) && (z == 0.0 ==> c.tilt == 315.0)
  {
    var angles := CalcRotComp(m, GlobalToLocalFrom(m, Some(r), origin, p).value);
    ServoRemaps(0.0, angles.tilt);
    ServoRemaps(angles.tilt, 0.0);
    SyncCommand(PanServo(angles.pan), TiltServo(angles.tilt))
  }

  /** The local origin itself (the pivot) gives the servo centres: local (0, 0, 0),
      for which atan2(0, 0) is 0 under the atan2 law. */
  lemma CommandAtPivot(m: Maths, r: Mat3, origin: Vec3)
    requires SqrtLaw(m) && Atan2Law(m)
    ensures Command(m, r, origin, origin) == SyncCommand(225.0, 315.0)
  {
    GlobalToLocalFromOrigin(m, Some(r), origin);
    assert m.atan2(0.0, 0.0) == 0.0;
    ServoRemaps(0.0, 0.0);
  }

  /** DynaTracker of dev/dart_track.py with the state a tracking cycle uses: the
      calibration loaded at construction and the log of set_sync_pos commands sent. */
  class DartTracker {
    const m: Maths
    const localOrigin: Vec3
    const rotation: Option<Mat3>
    var sent: seq<SyncCommand>

    constructor(m: Maths, localOrigin: Vec3, rotation: Option<Mat3>)
      ensures this.m == m && this.localOrigin == localOrigin && this.rotation == rotation
      ensures sent == []
    {
      this.m := m;
      this.localOrigin := localOrigin;
      this.rotation := rotation;
      sent := [];
    }

    /** track(): a lost target skips the cycle; otherwise the ValueError of
        global_to_local without a rotation propagates, and a calibrated tracker sends
        exactly one command carrying both axes. */
    method Track(target: Target) returns (outcome: Result<()>)
      modifies this
      ensures target.lost ==> outcome == Success(()) && sent == old(sent)
      ensures !target.lost && rotation.None? ==> outcome == Failure(NotCalibrated) && sent == old(sent)
      ensures !target.lost && rotation.Some? ==>
        outcome == Success(()) && sent == old(sent) + [Command(m, rotation.value, localOrigin, target.position)]
    {
      if target.lost {
        return Success(());
      }
      var local := GlobalToLocalFrom(m, rotation, localOrigin, target.position);
      if local.Failure? {
        return Failure(local.error);
      }
      var angles := CalcRotComp(m, local.value);
      var pan := PanServo(angles.pan);
      var tilt := TiltServo(angles.tilt);
      sent := sent + [SyncCommand(pan, tilt)];
      return Success(());
    }
  }
}

=== FILE: data_analysis.dfy ===
/** The offline analysis of TrackingTests/data_analysis.py: the target yaw rebuilt from the
    tracker yaw and the stored angle error, the amplitude ratio over one period, and the
    phase from the lag of the full cross-correlation.  Loading the arrays from disk is
    left to the caller, which passes them in. */
module DataAnalysis {
  import opened Numerics

  const BroadcastError: string := "operands could not be broadcast together"
  const NanToInt: string := "cannot convert float NaN to integer"
  const InfinityToInt: string := "cannot convert float infinity to integer"
  const EmptyMax: string := "zero-size array to reduction operation maximum which has no identity"
  const FirstEmpty: string := "first array argument cannot be empty"
  const SecondEmpty: string := "second array argument cannot be empty"

  /** NumPy's a + b on one-dimensional arrays: element by element for equal lengths,
      a single element broadcast against the other array, and an error otherwise. */
  function Add(a: seq<real>, b: seq<real>): (r: Result<seq<real>>)
    ensures |a| == |b| ==>
      r.Success? && |r.value| == |a| &&
      forall i :: 0 <= i < |a| ==> r.value[i] == a[i] + b[i]
    ensures |a| != |b| && |a| != 1 && |b| != 1 ==> r == Failure(BroadcastError)
  {
    if |a| == |b| then Success(seq(|a|, i requires 0 <= i < |a| => a[i] + b[i]))
    else if |b| == 1 then Success(seq(|a|, i requires 0 <= i < |a| => a[i] + b[0]))
    else if |a| == 1 then Success(seq(|b|, i requires 0 <= i < |b| => a[0] + b[i]))
    else Failure(BroadcastError)
  }

  /** target_yaw = tracker_yaw + angle_error: for logs of equal length, subtracting the
      tracker yaw from the target yaw gives back the stored error at every sample. */
  lemma TargetYawRecoversError(yaw: seq<real>, angleError: seq<real>)
    requires |yaw| == |angleError|
    ensures Add(yaw, angleError).Success?
    ensures forall i :: 0 <= i < |yaw| ==> Add(yaw, angleError).value[i] - yaw[i] == angleError[i]
  {
  }

  /** np.diff: the differences of consecutive entries. */
  function Diffs(ts: seq<real>): (d: seq<real>)
    ensures |d| == if ts == [] then 0 else |ts| - 1
    ensures forall i {:trigger d[i]} :: 0 <= i < |d| ==> ts[i] + d[i] == ts[i + 1]
  {
    if |ts| <= 1 then [] else seq(|ts| - 1, i requires 0 <= i < |ts| - 1 => ts[i + 1] - ts[i])
  }

  function Sum(s: seq<real>): real
  {
    if s == [] then 0.0 else Sum(s[..|s| - 1]) + s[|s| - 1]
  }

  /** The differences telescope: their sum is the last entry minus the first. */
  lemma {:induction false} SumDiffs(ts: seq<real>)
    requires |ts| >= 2
    ensures Sum(Diffs(ts)) == ts[|ts| - 1] - ts[0]
    decreases |ts|
  {
    var init := ts[..|ts| - 1];
    if |ts| > 2 {
      SumDiffs(init);
      assert Diffs(ts)[..|ts| - 2] == Diffs(init);
    } else {
      assert Diffs(ts)[..0] == [];
    }
  }

  /** int(known_period / np.mean(np.diff(timestamps))).  Fewer than two time stamps give
      the mean of nothing, NaN; equal first and last stamps give a zero mean, so the
      quotient is infinite (or NaN for a zero period); neither converts to int.
      Otherwise it depends only on the first and last stamps: the period divided by
      the average step (last - first) / (n - 1), truncated. */
  function SamplesPerPeriod(ts: seq<real>, period: real): (r: Result<int>)
    ensures r.Failure? <==> |ts| < 2 || ts[|ts| - 1] == ts[0]
    ensures r.Failure? ==>
      r.error == if |ts| >= 2 && period != 0.0 then InfinityToInt else NanToInt
    ensures r.Success? ==> r.value == Trunc(period * (|ts| - 1) as real / (ts[|ts| - 1] - ts[0]))
  {
    if |ts| < 2 then Failure(NanToInt)
    else
      var mean := Sum(Diffs(ts)) / (|ts| - 1) as real;
      MeanStep(ts, period);
      if mean == 0.0 then Failure(if period == 0.0 then NanToInt else InfinityToInt)
      else Success(Trunc(period / mean))
  }

  /** The mean step of at least two stamps is zero exactly when the first and last
      stamps agree, and dividing the period by it is multiplying by (n - 1) / span. */
  lemma MeanStep(ts: seq<real>, period: real)
    requires |ts| >= 2
    ensures var mean := Sum(Diffs(ts)) / (|ts| - 1) as real;
      var span := ts[|ts| - 1] - ts[0];
      (mean == 0.0 <==> span == 0.0) &&
      (span != 0.0 ==> period / mean == period * (|ts| - 1) as real / span)
  {
    SumDiffs(ts);
    var total, span, n1 := Sum(Diffs(ts)), ts[|ts| - 1] - ts[0], (|ts| - 1) as real;
    MeanOfSpan(period, total, span, n1);
    if span != 0.0 {
      assert period * (|ts| - 1) as real / span == period * n1 / span;
    }
  }

  /** A mean step total / n1 whose total is the span: zero exactly for a zero span, and
      dividing the period by it is multiplying by n1 / span. */
  lemma MeanOfSpan(p: real, total: real, span: real, n1: real)
    requires total == span && n1 > 0.0
    ensures total / n1 == 0.0 <==> span == 0.0
    ensures span != 0.0 ==> p / (total / n1) == p * n1 / span
  {
    if span != 0.0 {
      DivByQuotient(p, span, n1);
    }
  }

  lemma DivByQuotient(p: real, s: real, n: real)
    requires s != 0.0 && n > 0.0
    ensures s / n != 0.0 && p / (s / n) == p * n / s
  {
    var q := s / n;
    assert q * n == s;
    assert (p * n / s) * q == p * (n * q) / s;
  }

  /** Python's s[:k], a negative k counting from the end. */
  function Prefix(s: seq<real>, k: int): (r: seq<real>)
    ensures 0 <= k <= |s| ==> r == s[..k]
    ensures k > |s| ==> r == s
    ensures |r| <= |s| && r == s[..|r|]
  {
    if k >= 0 then (if k >= |s| then s else s[..k])
    else if -k >= |s| then [] else s[..|s| + k]
  }

  /** The largest entry, as np.max. */
  function Max(s: seq<real>): (m: real)
    requires s != []
    ensures m in s
    ensures forall i :: 0 <= i < |s| ==> s[i] <= m
  {
    if |s| == 1 then s[0]
    else
      var m := Max(s[..|s| - 1]);
      assert forall i :: 0 <= i < |s| - 1 ==> s[..|s| - 1][i] == s[i];
      if s[|s| - 1] > m then s[|s| - 1] else m
  }

  /** The first index of a largest entry, as np.argmax. */
  function ArgMax(s: seq<real>): (i: nat)
    requires s != []
    ensures i < |s|
    ensures forall j :: 0 <= j < |s| ==> s[j] <= s[i]
    ensures forall j :: 0 <= j < i ==> s[j] < s[i]
  {
    if |s| == 1 then 0
    else
      var i := ArgMax(s[..|s| - 1]);
      assert forall j :: 0 <= j < |s| - 1 ==> s[..|s| - 1][j] == s[j];
      if s[|s| - 1] > s[i] then |s| - 1 else i
  }

  /** The correlation of x with y at shift k over the first n entries of y:
      the sum of x[j + k] * y[j] for the j < n for which x[j + k] exists. */
  function CorrAt(x: seq<real>, y: seq<real>, k: int, n: nat): real
    requires n <= |y|
  {
    if n == 0 then 0.0
    else CorrAt(x, y, k, n - 1) + (if 0 <= n - 1 + k < |x| then x[n - 1 + k] * y[n - 1] else 0.0)
  }

  /** np.correlate(x, y, mode='full'): the correlation at every shift from -(len(y) - 1)
      to len(x) - 1, so len(x) + len(y) - 1 entries. */
  function Correlate(x: seq<real>, y: seq<real>): (c: seq<real>)
    requires x != [] && y != []
    ensures |c| == |x| + |y| - 1
    ensures forall i :: 0 <= i < |c| ==> c[i] == CorrAt(x, y, i - (|y| - 1), |y|)
  {
    seq(|x| + |y| - 1, i requires 0 <= i => CorrAt(x, y, i - (|y| - 1), |y|))
  }

  function Dot(x: seq<real>, y: seq<real>, n: nat): real
    requires n <= |x| && n <= |y|
  {
    if n == 0 then 0.0 else Dot(x, y, n - 1) + x[n - 1] * y[n - 1]
  }

  /** For signals of equal length the middle entry of the full correlation is the
      zero-shift correlation, the dot product of the two signals. */
  lemma {:induction false} ZeroShift(x: seq<real>, y: seq<real>, n: nat)
    requires |x| == |y| && n <= |y|
    ensures CorrAt(x, y, 0, n) == Dot(x, y, n)
  {
    if n > 0 {
      ZeroShift(x, y, n - 1);
    }
  }

  /** cross_correlate(x, y): lag = argmax(correlation) - len(x) + 1 and
      phase_diff = 2 * pi * lag / len(x).  An empty signal makes np.correlate raise,
      naming the first empty argument. */
  function CrossCorrelate(x: seq<real>, y: seq<real>): (r: Result<real>)
    ensures r.Failure? <==> x == [] || y == []
    ensures r.Failure? ==> r.error == if x == [] then FirstEmpty else SecondEmpty
    ensures r.Success? ==>
      var c := Correlate(x, y);
      exists i ::
        0 <= i < |c| &&
        (forall j :: 0 <= j < |c| ==> c[j] <= c[i]) &&
        (forall j :: 0 <= j < i ==> c[j] < c[i]) &&
        r.value == 2.0 * Pi * (i - |x| + 1) as real / |x| as real
  {
    if x == [] then Failure(FirstEmpty)
    else if y == [] then Failure(SecondEmpty)
    else
      var c := Correlate(x, y);
      var i := ArgMax(c);
      assert (forall j :: 0 <= j < |c| ==> c[j] <= c[i]) && (forall j :: 0 <= j < i ==> c[j] < c[i]);
      Success(2.0 * Pi * (i - |x| + 1) as real / |x| as real)
  }

  /** The lag of cross_correlate lies between -(len(x) - 1) and len(y) - 1, so for
      signals of equal length n it is at most n - 1 either way and the phase stays
      strictly inside (-2 pi, 2 pi). */
  lemma LagRange(x: seq<real>, y: seq<real>)
    requires x != [] && y != []
    ensures var lag := ArgMax(Correlate(x, y)) - |x| + 1;
      -(|x| - 1) <= lag <= |y| - 1
    ensures |x| == |y| ==> -2.0 * Pi < CrossCorrelate(x, y).value < 2.0 * Pi
  {
    var c := Correlate(x, y);
    var lag := ArgMax(c) - |x| + 1;
    assert ArgMax(c) < |x| + |y| - 1;
    if |x| == |y| {
      PhaseBound(lag, |x|);
    }
  }

  /** A lag of at most n - 1 either way gives a phase 2 pi lag / n strictly inside
      (-2 pi, 2 pi). */
  lemma PhaseBound(lag: int, n: int)
    requires n > 0 && -(n - 1) <= lag <= n - 1
    ensures -2.0 * Pi < 2.0 * Pi * lag as real / n as real < 2.0 * Pi
  {
    var l, m := lag as real, n as real;
    QuotientBelowOne(l, m);
    var q := l / m;
    assert 2.0 * Pi * l / m == 2.0 * Pi * q;
  }

  lemma QuotientBelowOne(l: real, n: real)
    requires n > 0.0 && -n < l < n
    ensures -1.0 < l / n < 1.0
  {
  }

  /** calculate_amplitude_and_phase: the first int(T / mean step) samples of both
      signals; the amplitude is the ratio of their maxima (no finite value when the
      target's maximum is 0) and the phase comes from cross_correlate.  It fails as
      the sample count does, or when a slice is empty; a finite amplitude is the
      ratio of a tracker sample to a non-zero target sample of the first period. */
  function AmplitudeAndPhase(ts: seq<real>, tracker: seq<real>, target: seq<real>, period: real)
    : (r: Result<(Option<real>, real)>)
    ensures SamplesPerPeriod(ts, period).Failure? ==> r == Failure(SamplesPerPeriod(ts, period).error)
    ensures SamplesPerPeriod(ts, period).Success? ==>
      var k := SamplesPerPeriod(ts, period).value;
      (r.Failure? <==> Prefix(tracker, k) == [] || Prefix(target, k) == []) &&
      (r.Success? ==>
        var a, b := Prefix(tracker, k), Prefix(target, k);
        r.value.0 == (if Max(b) == 0.0 then None else Some(Max(a) / Max(b))) &&
        r.value.1 == CrossCorrelate(a, b).value) &&
      (r.Success? && r.value.0.Some? ==>
        exists i, j ::
          0 <= i < |Prefix(tracker, k)| && 0 <= j < |Prefix(target, k)| &&
          Prefix(target, k)[j] != 0.0 && r.value.0.value == Prefix(tracker, k)[i] / Prefix(target, k)[j])
  {
    var k := SamplesPerPeriod(ts, period);
    if k.Failure? then Failure(k.error)
    else
      var a, b := Prefix(tracker, k.value), Prefix(target, k.value);
      if a == [] || b == [] then Failure(EmptyMax)
      else
        var amplitude := if Max(b) == 0.0 then None else (RatioOfMaxima(a, b); Some(Max(a) / Max(b)));
        Success((amplitude, CrossCorrelate(a, b).value))
  }

  /** With signals of equal length the two one-period slices have equal length, and
      the phase of a successful analysis lies strictly within (-2 pi, 2 pi). */
  lemma AmplitudeAndPhaseFacts(ts: seq<real>, tracker: seq<real>, target: seq<real>, period: real)
    requires |tracker| == |target|
    requires SamplesPerPeriod(ts, period).Success?
    ensures var k := SamplesPerPeriod(ts, period).value;
      |Prefix(tracker, k)| == |Prefix(target, k)|
    ensures AmplitudeAndPhase(ts, tracker, target, period).Success? ==>
      -2.0 * Pi < AmplitudeAndPhase(ts, tracker, target, period).value.1 < 2.0 * Pi
  {
    var k := SamplesPerPeriod(ts, period).value;
    var a, b := Prefix(tracker, k), Prefix(target, k);
    if AmplitudeAndPhase(ts, tracker, target, period).Success? {
      LagRange(a, b);
    }
  }

  /** The ratio of two maxima is the ratio of a sample of each. */
  lemma RatioOfMaxima(a: seq<real>, b: seq<real>)
    requires a != [] && b != [] && Max(b) != 0.0
    ensures exists i, j :: 0 <= i < |a| && 0 <= j < |b| && b[j] != 0.0 && Max(a) / Max(b) == a[i] / b[j]
  {
    var i :| 0 <= i < |a| && a[i] == Max(a);
    var j :| 0 <= j < |b| && b[j] == Max(b);
    assert b[j] != 0.0 && Max(a) / Max(b) == a[i] / b[j];
  }

  /** analyze_data: the target yaw is rebuilt as yaw + angle_error and both series go
      to calculate_amplitude_and_phase with the time stamps. */
  function AnalyzeData(ts: seq<real>, yaw: seq<real>, angleError: seq<real>, period: real)
    : (r: Result<(seq<real>, seq<real>, Option<real>, real)>)
    ensures r.Success? <==>
      Add(yaw, angleError).Success? && AmplitudeAndPhase(ts, yaw, Add(yaw, angleError).value, period).Success?
    ensures r.Failure? ==>
      r.error == if Add(yaw, angleError).Failure? then Add(yaw, angleError).error
                 else AmplitudeAndPhase(ts, yaw, Add(yaw, angleError).value, period).error
    ensures r.Success? ==>
      var target := Add(yaw, angleError).value;
      var ap := AmplitudeAndPhase(ts, yaw, target, period).value;
      r.value == (yaw, target, ap.0, ap.1)
  {
    var target := Add(yaw, angleError);
    if target.Failure? then Failure(target.error)
    else
      var ap := AmplitudeAndPhase(ts, yaw, target.value, period);
      if ap.Failure? then Failure(ap.error)
      else Success((yaw, target.value, ap.value.0, ap.value.1))
  }
}

=== FILE: dyna_controller.dfy ===
/** The two-motor Dynamixel controller of dev/dyna_controller.py.  The pan motor has
    id 1 and the tilt motor id 2.  Positions go out as one sync write carrying both
    motors' 4-byte goal positions; single-register writes and the readback checks
    go through the bus model. */
module DevController {
  import opened Numerics
  import opened Ticks
  import opened Bus

  const PanId: int := 1
  const TiltId: int := 2

  /** The sync write of set_sync_pos: both motors' goal ticks in one transaction.  It
      writes the goal position of the pan motor, then the tilt motor, and each motor
      assembles its 4 bytes into its tick count modulo 2^32. */
  function SyncPosPacket(pan: real, tilt: real): (tx: Transaction)
    ensures tx.SyncWrite? && tx.address == GoalPosition
    ensures |tx.params| == 2 && tx.params[0].id == PanId && tx.params[1].id == TiltId
    ensures |tx.params[0].bytes| == 4 && |tx.params[1].bytes| == 4
    ensures Join4(tx.params[0].bytes) == DegToTicks(pan) % TwoTo32
    ensures Join4(tx.params[1].bytes) == DegToTicks(tilt) % TwoTo32
  {
    Join4Split4(DegToTicks(pan));
    Join4Split4(DegToTicks(tilt));
    SyncWrite(GoalPosition, [Param(PanId, Split4(DegToTicks(pan))), Param(TiltId, Split4(DegToTicks(tilt)))])
  }

  /** The sync write of set_sync_current: both motors' 2-byte currents.  It writes the
      goal current of the pan motor, then the tilt motor, and each motor's two bytes
      decode, through MAKEWORD, to its current modulo 2^16. */
  function SyncCurrentPacket(pan: int, tilt: int): (tx: Transaction)
    ensures tx.SyncWrite? && tx.address == GoalCurrent
    ensures |tx.params| == 2 && tx.params[0].id == PanId && tx.params[1].id == TiltId
    ensures |tx.params[0].bytes| == 2 && |tx.params[1].bytes| == 2
    ensures MakeWord(tx.params[0].bytes[0], tx.params[0].bytes[1]) == pan % 0x1_0000
    ensures MakeWord(tx.params[1].bytes[0], tx.params[1].bytes[1]) == tilt % 0x1_0000
  {
    MakeWordSplit2(pan);
    MakeWordSplit2(tilt);
    SyncWrite(GoalCurrent, [Param(PanId, Split2(pan)), Param(TiltId, Split2(tilt))])
  }

  /** For a pan angle in [0, 360] the pan motor decodes the tick count itself, and
      its angle is within one tick below the commanded angle. */
  lemma SyncPosPacketDecodes(pan: real, tilt: real)
    ensures 0.0 <= pan <= 360.0 ==>
      var t := Join4(SyncPosPacket(pan, tilt).params[0].bytes);
      t == DegToTicks(pan) && pan - 360.0 / 4095.0 < TicksToDegrees(t) <= pan
  {
    if 0.0 <= pan <= 360.0 {
      DegToTicksMonotone(pan, 360.0);
      DegToTicksEnds();
      DegToTicksRoundTrip(pan);
    }
  }

  /** The two bytes of one motor's present current in a sync read. */
  datatype WordData = WordData(lo: int, hi: int)

  /** The outcome of a sync read: the communication result and, per motor, its data or
      None. */
  datatype SyncReply = SyncReply(comm: int, pan: Option<WordData>, tilt: Option<WordData>)

  /** One motor's current from a successful sync read: MAKEWORD of its two bytes, or
      the sentinel -1 when its data is missing. */
  function CurrentOrSentinel(data: Option<WordData>): (c: int)
    ensures -1 <= c < 0x1_0000
    ensures c == -1 <==> data.None?
  {
    if data.None? then -1 else MakeWord(data.value.lo, data.value.hi)
  }

  /** DynaController with the state the model keeps: the position sync-write
      parameter storage and the log of transactions sent. */
  class DynaController {
    var posParams: map<int, seq<int>>
    var sent: seq<Transaction>

    /** The constructor registers both motors with zero bytes in the position
        sync-write storage and sends nothing. */
    constructor()
      ensures posParams == map[PanId := [0, 0, 0, 0], TiltId := [0, 0, 0, 0]]
      ensures sent == []
    {
      posParams := map[PanId := [0, 0, 0, 0], TiltId := [0, 0, 0, 0]];
      sent := [];
    }

    /** set_pos: one 4-byte write of int(pos * 4095 / 360) ticks to the motor's goal
        position. */
    method SetPos(motorId: int, pos: real)
      modifies this
      ensures sent == old(sent) + [Write(motorId, GoalPosition, 4, DegToTicks(pos))]
      ensures posParams == old(posParams)
    {
      var ticks := DegToTicks(pos);
      sent := sent + [Write(motorId, GoalPosition, 4, ticks)];
    }

    /** set_sync_pos: both motors' parameters change, then a single transaction carries
        both goal positions. */
    method SetSyncPos(pan: real, tilt: real)
      modifies this
      ensures posParams == old(posParams)[PanId := Split4(DegToTicks(pan))][TiltId := Split4(DegToTicks(tilt))]
      ensures sent == old(sent) + [SyncPosPacket(pan, tilt)]
    {
      var panTicks := DegToTicks(pan);
      var tiltTicks := DegToTicks(tilt);
      posParams := posParams[PanId := Split4(panTicks)];
      posParams := posParams[TiltId := Split4(tiltTicks)];
      sent := sent + [SyncWrite(GoalPosition, [Param(PanId, posParams[PanId]), Param(TiltId, posParams[TiltId])])];
    }

    /** set_sync_current: one sync write of both motors' 2-byte currents. */
    method SetSyncCurrent(pan: int, tilt: int)
      modifies this
      ensures sent == old(sent) + [SyncCurrentPacket(pan, tilt)]
      ensures posParams == old(posParams)
    {
      sent := sent + [SyncWrite(GoalCurrent, [Param(PanId, Split2(pan)), Param(TiltId, Split2(tilt))])];
    }

    /** get_sync_current: (-1, -1) when the sync read fails; otherwise MAKEWORD of each
        motor's bytes, or -1 for a motor whose data is None.  A result of -1 thus means
        exactly that the value could not be read, since a real current is never
        negative. */
    method GetSyncCurrent(reply: SyncReply) returns (pan: int, tilt: int)
      ensures reply.comm != CommSuccess ==> pan == -1 && tilt == -1
      ensures reply.comm == CommSuccess ==> pan == CurrentOrSentinel(reply.pan) && tilt == CurrentOrSentinel(reply.tilt)
      ensures pan == -1 <==> reply.comm != CommSuccess || reply.pan.None?
      ensures tilt == -1 <==> reply.comm != CommSuccess || reply.tilt.None?
    {
      if reply.comm != CommSuccess {
        return -1, -1;
      }
      pan := CurrentOrSentinel(reply.pan);
      tilt := CurrentOrSentinel(reply.tilt);
    }

    /** get_pos: None when the read fails, else 360 * (ticks / 4095) of the unsigned
        reading. */
    method GetPos(reply: Reply) returns (pos: Option<real>)
      ensures pos.None? <==> ReadData(reply).None?
      ensures pos.Some? ==> pos.value == TicksToDegrees(reply.data)
    {
      var data := ReadData(reply);
      if data.None? {
        return None;
      }
      return Some(TicksToDegrees(data.value));
    }

    /** get_vel: None when the read fails, else the unsigned reading divided by 41.7. */
    method GetVel(reply: Reply) returns (vel: Option<real>)
      ensures vel.None? <==> ReadData(reply).None?
      ensures vel.Some? ==> vel.value * 41.7 == reply.data as real
    {
      var data := ReadData(reply);
      if data.None? {
        return None;
      }
      return Some(data.value as real / 41.7);
    }

    /** set_torque: write int(torque) to the torque-enable register and report whether
        the read back value equals it. */
    method SetTorque(motorId: int, torque: bool, reply: Reply) returns (ok: bool)
      modifies this
      ensures sent == old(sent) + [Write(motorId, TorqueEnable, 1, if torque then 1 else 0)]
      ensures posParams == old(posParams)
      ensures ok <==> ReadData(reply) == Some(if torque then 1 else 0)
    {
      var value := if torque then 1 else 0;
      sent := sent + [Write(motorId, TorqueEnable, 1, value)];
      var check := ReadData(reply);
      ok := check == Some(value);
    }

    /** get_torque: True exactly when the register reads 1; a failed read is False. */
    method GetTorque(reply: Reply) returns (on: bool)
      ensures on <==> reply.comm == CommSuccess && reply.error == 0 && reply.data == 1
    {
      var torque := ReadData(reply);
      on := torque == Some(1);
    }

    /** set_op_mode: torque off, write the mode, read it back, torque on; True exactly
        when the mode read back equals the requested one.  The two torque readbacks
        are not consulted. */
    method SetOpMode(motorId: int, mode: int, torqueOffReply: Reply, modeReply: Reply, torqueOnReply: Reply)
      returns (ok: bool)
      modifies this
      ensures sent == old(sent) + [Write(motorId, TorqueEnable, 1, 0), Write(motorId, OperatingMode, 1, mode),
                                   Write(motorId, TorqueEnable, 1, 1)]
      ensures posParams == old(posParams)
      ensures ok <==> ReadData(modeReply) == Some(mode)
    {
      var _ := SetTorque(motorId, false, torqueOffReply);
      sent := sent + [Write(motorId, OperatingMode, 1, mode)];
      var check := ReadData(modeReply);
      var _ := SetTorque(motorId, true, torqueOnReply);
      ok := check == Some(mode);
    }

    /** calibrate_position calls set_pos(180), which binds 180 to motor_id and leaves the
        position at its default of 180 degrees: the write goes to motor 180. */
    method CalibratePosition()
      modifies this
      ensures sent == old(sent) + [Write(180, GoalPosition, 4, 2047)]
      ensures posParams == old(posParams)
    {
      CalibrationTargets();
      SetPos(180, 180.0);
    }
  }
}

=== FILE: frames.dfy ===
/** Calibration geometry of dev/vec_math2.py, dev/3d_vec_math/vec_math.py and the
    frame change of dev/calibrate.py and dev/dart_track.py: the residuals the pivot
    solver drives to zero, the two local-frame constructions, the pan/tilt
    decomposition of a local point and the change from global to local coordinates. */
module Frames {
  import opened Numerics
  import Planar

  /** u is v scaled by a positive factor: the same direction. */
  ghost predicate PositiveMultiple(u: Vec3, v: Vec3)
  {
    exists k :: k > 0.0 && u == Scale(k, v)
  }

  /** Directions scaled by positive factors keep a zero dot product. */
  lemma OrthogonalScaled(u: Vec3, a: Vec3, w: Vec3, b: Vec3)
    requires PositiveMultiple(u, a) && PositiveMultiple(w, b)
    requires Dot(a, b) == 0.0
    ensures Dot(u, w) == 0.0
  {
    var k :| k > 0.0 && u == Scale(k, a);
    var j :| j > 0.0 && w == Scale(j, b);
    DotScaleLeft(k, a, w);
    DotScaleRight(j, a, b);
  }

  /** Orthogonality to a positive multiple is orthogonality to the vector itself. */
  lemma OrthogonalUnscaled(a: Vec3, w: Vec3, b: Vec3)
    requires PositiveMultiple(w, b)
    requires Dot(a, w) == 0.0
    ensures Dot(a, b) == 0.0
  {
    var j :| j > 0.0 && w == Scale(j, b);
    DotScaleRight(j, a, b);
    ZeroProduct(j, Dot(a, b));
  }

  /** A vector scaled by a non-zero factor is zero only when the vector is. */
  lemma ScaleZero(k: real, v: Vec3)
    requires k != 0.0
    ensures Scale(k, v) == Zero3 <==> v == Zero3
  {
    if Scale(k, v) == Zero3 {
      ZeroProduct(k, v.x);
      ZeroProduct(k, v.y);
      ZeroProduct(k, v.z);
    }
  }

  /** The cross product of two positive multiples is a positive multiple of the
      cross product; in particular one is zero exactly when the other is. */
  lemma CrossScaled(u: Vec3, a: Vec3, w: Vec3, b: Vec3)
    requires PositiveMultiple(u, a) && PositiveMultiple(w, b)
    ensures PositiveMultiple(Cross(u, w), Cross(a, b))
    ensures Cross(u, w) == Zero3 <==> Cross(a, b) == Zero3
  {
    var k :| k > 0.0 && u == Scale(k, a);
    var j :| j > 0.0 && w == Scale(j, b);
    CrossScaleLeft(k, a, w);
    CrossScaleRight(j, a, b);
    ScaleScale(k, j, Cross(a, b));
    MulPositive(k, j);
    ScaleZero(k * j, Cross(a, b));
  }

  // ---------------------------------------------------------------------------
  // Pivot residuals (the `equations` closure of solve_for_mxyz)
  // ---------------------------------------------------------------------------

  /** One residual: cos(angle) minus the cosine of the angle at the candidate pivot c
      between the rays to p and q.  None stands for the NaN NumPy produces when one
      of the rays has zero length.  A defined residual vanishes exactly at a pivot
      from which the two points are seen under the given angle (the cosine of the
      angle between the rays equals the cosine of the measured angle). */
  function Residual(m: Maths, p: Vec3, q: Vec3, angle: real, c: Vec3): (r: Option<real>)
    ensures r.Some? ==> (r.value == 0.0 <==>
      Dot(Sub(p, c), Sub(q, c)) == m.cos(Radians(angle)) * (Norm(m, Sub(p, c)) * Norm(m, Sub(q, c))))
  {
    var v1 := Sub(p, c);
    var v2 := Sub(q, c);
    var magnitudes := Norm(m, v1) * Norm(m, v2);
    if magnitudes == 0.0 then None
    else
      var k := m.cos(Radians(angle));
      assert Dot(v1, v2) / magnitudes == k <==> Dot(v1, v2) == k * magnitudes;
      Some(k - Dot(v1, v2) / magnitudes)
  }

  /** With a true square root, the residual is undefined exactly when the pivot
      coincides with one of the two points. */
  lemma ResidualDefined(m: Maths, p: Vec3, q: Vec3, angle: real, c: Vec3)
    requires SqrtLaw(m)
    ensures Residual(m, p, q, angle, c).None? <==> p == c || q == c
  {
    NormPositive(m, Sub(p, c));
    NormPositive(m, Sub(q, c));
    var n1 := Norm(m, Sub(p, c));
    var n2 := Norm(m, Sub(q, c));
    if n1 * n2 == 0.0 {
      ZeroProduct(n1, n2);
    }
    assert Sub(p, c) == Zero3 <==> p == c;
    assert Sub(q, c) == Zero3 <==> q == c;
  }

  /** The residual list for candidate pivot c: one entry per measured angle, entry i
      pairing points i and i + 1.  Python raises IndexError when there are fewer than
      |angles| + 1 points. */
  method Residuals(m: Maths, points: seq<Vec3>, angles: seq<real>, c: Vec3) returns (equations: seq<Option<real>>)
    requires |points| >= |angles| + 1
    ensures |equations| == |angles|
    ensures forall i :: 0 <= i < |angles| ==>
      equations[i] == Residual(m, points[i], points[i + 1], angles[i], c)
  {
    equations := [];
    var i := 0;
    while i < |angles|
      invariant 0 <= i <= |angles|
      invariant |equations| == i
      invariant forall j :: 0 <= j < i ==>
        equations[j] == Residual(m, points[j], points[j + 1], angles[j], c)
    {
      equations := equations + [Residual(m, points[i], points[i + 1], angles[i], c)];
      i := i + 1;
    }
  }

  /** When the pivot differs from every point, every entry of the residual list is
      defined, and entry i is zero exactly when points i and i + 1 are seen from the
      pivot under angles[i]. */
  lemma ResidualsDefined(m: Maths, points: seq<Vec3>, angles: seq<real>, c: Vec3, equations: seq<Option<real>>)
    requires |points| >= |angles| + 1
    requires |equations| == |angles|
    requires forall i :: 0 <= i < |angles| ==>
      equations[i] == Residual(m, points[i], points[i + 1], angles[i], c)
    requires SqrtLaw(m)
    requires forall i :: 0 <= i < |points| ==> points[i] != c
    ensures forall i :: 0 <= i < |equations| ==> equations[i].Some?
    ensures forall i :: 0 <= i < |equations| ==>
      (equations[i] == Some(0.0) <==>
        Dot(Sub(points[i], c), Sub(points[i + 1], c))
          == m.cos(Radians(angles[i])) * (Norm(m, Sub(points[i], c)) * Norm(m, Sub(points[i + 1], c))))
  {
    forall i | 0 <= i < |equations|
      ensures equations[i].Some?
      ensures equations[i] == Some(0.0) <==>
        Dot(Sub(points[i], c), Sub(points[i + 1], c))
          == m.cos(Radians(angles[i])) * (Norm(m, Sub(points[i], c)) * Norm(m, Sub(points[i + 1], c)))
    {
      ResidualDefined(m, points[i], points[i + 1], angles[i], c);
    }
  }

  // ---------------------------------------------------------------------------
  // def_local_coor_sys
  // ---------------------------------------------------------------------------

  /** def_local_coor_sys: x along the raw point points[axisIdx] (measured from the
      world origin), z along (points[axisIdx] - origin) x (points[axisIdx + 1] - origin),
      y along x cross z, each normalised, stacked as columns (x, y, z).  The variant of
      dev/3d_vec_math/vec_math.py is axisIdx == 0.  None stands for the NaN columns
      a zero norm produces.  The frame exists exactly when the axis point is not the
      world origin, the two rays from the local origin are not parallel, and the axis
      point is not parallel to their normal.  It then guarantees that z is normal to
      both rays, y is normal to x and to z, all three columns are unit vectors, and x
      points along the raw axis point. */
  function LocalFrame(m: Maths, points: seq<Vec3>, origin: Vec3, axisIdx: nat): (r: Option<Mat3>)
    requires SqrtLaw(m)
    requires axisIdx + 1 < |points|
    ensures r.Some? <==>
      var p := points[axisIdx];
      var zc := Cross(Sub(p, origin), Sub(points[axisIdx + 1], origin));
      p != Zero3 && zc != Zero3 && Cross(p, zc) != Zero3
    ensures r.Some? ==>
      Dot(Col2(r.value), Sub(points[axisIdx], origin)) == 0.0 &&
      Dot(Col2(r.value), Sub(points[axisIdx + 1], origin)) == 0.0 &&
      Dot(Col1(r.value), Col0(r.value)) == 0.0 && Dot(Col1(r.value), Col2(r.value)) == 0.0 &&
      Dot(Col0(r.value), Col0(r.value)) == 1.0 && Dot(Col1(r.value), Col1(r.value)) == 1.0 &&
      Dot(Col2(r.value), Col2(r.value)) == 1.0 &&
      PositiveMultiple(Col0(r.value), points[axisIdx])
  {
    var p := points[axisIdx];
    var a := Sub(p, origin);
    var b := Sub(points[axisIdx + 1], origin);
    var zc := Cross(a, b);
    if p == Zero3 || zc == Zero3 then None
    else
      var x := Normalize(m, p);
      var z := Normalize(m, zc);
      CrossScaled(x, p, z, zc);
      var yc := Cross(x, z);
      if yc == Zero3 then None
      else
        FrameColumns(m, a, b, x, z);
        Some(ColumnStack(x, Normalize(m, yc), z))
  }

  /** For z along the normal of rays a and b and a unit x, the columns x, y = unit
      (x cross z), z are unit, y is normal to x and z, and z is normal to both rays. */
  lemma FrameColumns(m: Maths, a: Vec3, b: Vec3, x: Vec3, z: Vec3)
    requires SqrtLaw(m)
    requires Cross(a, b) != Zero3 && z == Normalize(m, Cross(a, b))
    requires Dot(x, x) == 1.0 && Cross(x, z) != Zero3
    ensures var y := Normalize(m, Cross(x, z));
      Dot(z, a) == 0.0 && Dot(z, b) == 0.0 &&
      Dot(y, x) == 0.0 && Dot(y, z) == 0.0 &&
      Dot(y, y) == 1.0 && Dot(z, z) == 1.0
  {
    var zc := Cross(a, b);
    var yc := Cross(x, z);
    CrossOrthogonal(a, b);
    CrossOrthogonal(x, z);
    PositiveMultipleSelf(a);
    PositiveMultipleSelf(b);
    PositiveMultipleSelf(x);
    PositiveMultipleSelf(z);
    OrthogonalScaled(z, zc, a, a);
    OrthogonalScaled(z, zc, b, b);
    OrthogonalScaled(Normalize(m, yc), yc, x, x);
    OrthogonalScaled(Normalize(m, yc), yc, z, z);
  }

  lemma PositiveMultipleSelf(v: Vec3)
    ensures PositiveMultiple(v, v)
  {
    assert v == Scale(1.0, v);
  }

  /** x depends on the axis point only: moving the local origin does not move it. */
  lemma LocalFrameXIgnoresOrigin(m: Maths, points: seq<Vec3>, o1: Vec3, o2: Vec3, axisIdx: nat)
    requires SqrtLaw(m)
    requires axisIdx + 1 < |points|
    requires LocalFrame(m, points, o1, axisIdx).Some? && LocalFrame(m, points, o2, axisIdx).Some?
    ensures Col0(LocalFrame(m, points, o1, axisIdx).value) == Col0(LocalFrame(m, points, o2, axisIdx).value)
  {
  }

  /** x and z are orthogonal exactly when the raw axis point is orthogonal to the
      normal of the two rays, which the construction does not arrange. */
  lemma LocalFrameSkew(m: Maths, points: seq<Vec3>, origin: Vec3, axisIdx: nat)
    requires SqrtLaw(m)
    requires axisIdx + 1 < |points|
    requires LocalFrame(m, points, origin, axisIdx).Some?
    ensures var r := LocalFrame(m, points, origin, axisIdx).value;
      var zc := Cross(Sub(points[axisIdx], origin), Sub(points[axisIdx + 1], origin));
      Dot(Col0(r), Col2(r)) > 0.0 <==> Dot(points[axisIdx], zc) > 0.0
  {
    var p := points[axisIdx];
    var zc := Cross(Sub(p, origin), Sub(points[axisIdx + 1], origin));
    var x := Normalize(m, p);
    var z := Normalize(m, zc);
    var k :| k > 0.0 && x == Scale(k, p);
    var j :| j > 0.0 && z == Scale(j, zc);
    DotScaleLeft(k, p, z);
    DotScaleRight(j, p, zc);
    MulPositive(k, j);
    ProductPositive(k * j, Dot(p, zc));
  }

  lemma ProductPositive(a: real, b: real)
    requires a > 0.0
    ensures a * b > 0.0 <==> b > 0.0
  {
  }

  /** Because x is taken from the world origin, x and z need not be orthogonal:
      whenever the axis point has a positive component along the normal of the two
      rays and is not parallel to it, the frame exists and x leans towards z. */
  lemma LocalFrameNotOrthogonal(m: Maths, points: seq<Vec3>, origin: Vec3, axisIdx: nat)
    requires SqrtLaw(m)
    requires axisIdx + 1 < |points|
    requires points[axisIdx] != Zero3
    requires Cross(points[axisIdx], Cross(Sub(points[axisIdx], origin), Sub(points[axisIdx + 1], origin))) != Zero3
    requires Dot(points[axisIdx], Cross(Sub(points[axisIdx], origin), Sub(points[axisIdx + 1], origin))) > 0.0
    ensures LocalFrame(m, points, origin, axisIdx).Some?
    ensures Dot(Col0(LocalFrame(m, points, origin, axisIdx).value), Col2(LocalFrame(m, points, origin, axisIdx).value)) > 0.0
  {
    LocalFrameSkew(m, points, origin, axisIdx);
  }

  /** A concrete input meeting the conditions above: points (1,1,0) and (1,0,1)
      with local origin (1,0,0).  The rays are (0,1,0) and (0,0,1), their normal is
      (1,0,0), and the axis point (1,1,0) has component 1 along it. */
  lemma SkewExample(p: Vec3, q: Vec3, o: Vec3)
    requires p == Vec3(1.0, 1.0, 0.0) && q == Vec3(1.0, 0.0, 1.0) && o == Vec3(1.0, 0.0, 0.0)
    ensures Cross(Sub(p, o), Sub(q, o)) == Vec3(1.0, 0.0, 0.0)
    ensures Cross(p, Cross(Sub(p, o), Sub(q, o))) == Vec3(0.0, 0.0, -1.0)
    ensures Dot(p, Cross(Sub(p, o), Sub(q, o))) == 1.0
  {
    SkewNormal(p, q, o);
    SkewAxis(p, Cross(Sub(p, o), Sub(q, o)));
  }

  lemma SkewNormal(p: Vec3, q: Vec3, o: Vec3)
    requires p == Vec3(1.0, 1.0, 0.0) && q == Vec3(1.0, 0.0, 1.0) && o == Vec3(1.0, 0.0, 0.0)
    ensures Cross(Sub(p, o), Sub(q, o)) == Vec3(1.0, 0.0, 0.0)
  {
  }

  lemma SkewAxis(p: Vec3, zc: Vec3)
    requires p == Vec3(1.0, 1.0, 0.0) && zc == Vec3(1.0, 0.0, 0.0)
    ensures Cross(p, zc) == Vec3(0.0, 0.0, -1.0)
    ensures Dot(p, zc) == 1.0
  {
  }

  lemma MulPositive(a: real, b: real)
    requires a > 0.0 && b > 0.0
    ensures a * b > 0.0
  {
  }

  /** The frame with x measured from the local origin, as def_local_coor_sys2 does:
      x along points[axisIdx] - origin, otherwise as LocalFrame.  It exists exactly
      when the two rays are not parallel, and then its columns are orthonormal, x
      points at the axis point and z is normal to both rays. */
  function LocalFrameCentred(m: Maths, points: seq<Vec3>, origin: Vec3, axisIdx: nat): (r: Option<Mat3>)
    requires SqrtLaw(m)
    requires axisIdx + 1 < |points|
    ensures r.Some? <==> Cross(Sub(points[axisIdx], origin), Sub(points[axisIdx + 1], origin)) != Zero3
    ensures r.Some? ==>
      Dot(Col0(r.value), Col1(r.value)) == 0.0 && Dot(Col0(r.value), Col2(r.value)) == 0.0 &&
      Dot(Col1(r.value), Col2(r.value)) == 0.0 &&
      Dot(Col0(r.value), Col0(r.value)) == 1.0 && Dot(Col1(r.value), Col1(r.value)) == 1.0 &&
      Dot(Col2(r.value), Col2(r.value)) == 1.0 &&
      PositiveMultiple(Col0(r.value), Sub(points[axisIdx], origin)) &&
      Dot(Col2(r.value), Sub(points[axisIdx + 1], origin)) == 0.0
  {
    var a := Sub(points[axisIdx], origin);
    var b := Sub(points[axisIdx + 1], origin);
    var zc := Cross(a, b);
    if zc == Zero3 then None
    else
      CentredCross(m, a, b);
      var x := Normalize(m, a);
      var z := Normalize(m, zc);
      FrameColumns(m, a, b, x, z);
      CrossOrthogonal(a, b);
      OrthogonalScaled(x, a, z, zc);
      Some(ColumnStack(x, Normalize(m, Cross(x, z)), z))
  }

  /** For non-parallel rays a and b, the unit vectors along a and along a x b are
      orthogonal, so their cross product is a unit vector. */
  lemma CentredCross(m: Maths, a: Vec3, b: Vec3)
    requires SqrtLaw(m)
    requires Cross(a, b) != Zero3
    ensures a != Zero3
    ensures Dot(Normalize(m, a), Normalize(m, Cross(a, b))) == 0.0
    ensures Dot(Cross(Normalize(m, a), Normalize(m, Cross(a, b))), Cross(Normalize(m, a), Normalize(m, Cross(a, b)))) == 1.0
    ensures Cross(Normalize(m, a), Normalize(m, Cross(a, b))) != Zero3
  {
    assert a != Zero3;
    var zc := Cross(a, b);
    var x := Normalize(m, a);
    var z := Normalize(m, zc);
    CrossOrthogonal(a, b);
    OrthogonalScaled(x, a, z, zc);
    Lagrange(x, z);
    var c := Cross(x, z);
    assert Dot(c, c) == 1.0;
  }

  // ---------------------------------------------------------------------------
  // def_local_coor_sys2
  // ---------------------------------------------------------------------------

  /** points - local_origin, row by row. */
  function Offsets(points: seq<Vec3>, origin: Vec3): (vs: seq<Vec3>)
    ensures |vs| == |points|
    ensures forall i :: 0 <= i < |points| ==> vs[i] == Sub(points[i], origin)
  {
    seq(|points|, i requires 0 <= i < |points| => Sub(points[i], origin))
  }

  function CrossWith(v: Vec3, ws: seq<Vec3>): seq<Vec3>
  {
    seq(|ws|, i requires 0 <= i < |ws| => Cross(v, ws[i]))
  }

  /** [np.cross(v1, v2) for v1, v2 in itertools.combinations(vs, 2)], in the same
      order: (0,1), (0,2), ..., (1,2), ... */
  function Pairs(vs: seq<Vec3>): seq<Vec3>
    decreases |vs|
  {
    if |vs| == 0 then [] else CrossWith(vs[0], vs[1..]) + Pairs(vs[1..])
  }

  /** There are n (n - 1) / 2 combinations of n vectors. */
  lemma {:induction false} PairsLength(vs: seq<Vec3>)
    ensures 2 * |Pairs(vs)| == |vs| * (|vs| - 1)
  {
    if |vs| > 0 {
      PairsLength(vs[1..]);
      var n := |vs|;
      assert 2 * |Pairs(vs)| == 2 * (n - 1) + (n - 1) * (n - 2);
      assert 2 * (n - 1) + (n - 1) * (n - 2) == (n - 1) * n;
    }
  }

  /** Every pair i < j contributes vs[i] x vs[j]. */
  lemma {:induction false} PairsContains(vs: seq<Vec3>, i: nat, j: nat)
    requires i < j < |vs|
    ensures Cross(vs[i], vs[j]) in Pairs(vs)
  {
    if i == 0 {
      assert CrossWith(vs[0], vs[1..])[j - 1] == Cross(vs[i], vs[j]);
    } else {
      PairsContains(vs[1..], i - 1, j - 1);
    }
  }

  function Sum(vs: seq<Vec3>): Vec3
    decreases |vs|
  {
    if |vs| == 0 then Zero3 else Add(vs[0], Sum(vs[1..]))
  }

  /** def_local_coor_sys2: z from the mean of the pairwise cross products of the rays
      from the local origin, x along the first ray, y along x cross z, and finally
      z := x cross y (not normalised again).  It yields a frame exactly when there are
      at least two points, the averaged cross product and the first ray are non-zero,
      and they are not parallel; otherwise a zero norm makes NumPy's columns NaN, which
      is None here, as are the exceptions Python raises for fewer than two points.  A
      frame it returns has orthonormal columns, x points from the local origin to the
      first point, and y is normal to the averaged cross product. */
  function Frame2(m: Maths, points: seq<Vec3>, origin: Vec3): (r: Option<Mat3>)
    requires SqrtLaw(m)
    ensures r.Some? <==>
      |points| >= 2 && MeanNormal(points, origin) != Zero3 && Sub(points[0], origin) != Zero3 &&
      Cross(Sub(points[0], origin), MeanNormal(points, origin)) != Zero3
    ensures r.Some? ==>
      Dot(Col0(r.value), Col1(r.value)) == 0.0 && Dot(Col2(r.value), Col0(r.value)) == 0.0 &&
      Dot(Col2(r.value), Col1(r.value)) == 0.0 &&
      Dot(Col0(r.value), Col0(r.value)) == 1.0 && Dot(Col1(r.value), Col1(r.value)) == 1.0 &&
      Dot(Col2(r.value), Col2(r.value)) == 1.0
    ensures r.Some? ==>
      PositiveMultiple(Col0(r.value), Sub(points[0], origin)) &&
      Dot(Col1(r.value), MeanNormal(points, origin)) == 0.0
  {
    var vs := Offsets(points, origin);
    var cs := Pairs(vs);
    PairsEmpty(vs);
    if |cs| == 0 then None
    else
      var zm := Scale(1.0 / (|cs| as real), Sum(cs));
      if zm == Zero3 || vs[0] == Zero3 then None
      else
        var z0 := Normalize(m, zm);
        var x := Normalize(m, vs[0]);
        var yc := Cross(x, z0);
        CrossScaled(x, vs[0], z0, zm);
        if yc == Zero3 then None
        else
          var y := Normalize(m, yc);
          Frame2Columns(m, x, z0, zm, vs[0]);
          Some(ColumnStack(x, y, Cross(x, y)))
  }

  /** Pairs of fewer than two vectors is empty, and of two or more is not. */
  lemma PairsEmpty(vs: seq<Vec3>)
    ensures |Pairs(vs)| == 0 <==> |vs| < 2
  {
    PairsLength(vs);
    var n := |vs|;
    if n >= 2 {
      assert n * (n - 1) >= 2 * 1;
    }
  }

  /** For a unit x along v and a unit z0 along zm with x cross z0 non-zero, the columns
      x, y = unit (x cross z0), x cross y are orthonormal, and y is normal to zm. */
  lemma Frame2Columns(m: Maths, x: Vec3, z0: Vec3, zm: Vec3, v: Vec3)
    requires SqrtLaw(m)
    requires v != Zero3 && x == Normalize(m, v)
    requires zm != Zero3 && z0 == Normalize(m, zm)
    requires Cross(x, z0) != Zero3
    ensures var y := Normalize(m, Cross(x, z0));
      Dot(x, y) == 0.0 && Dot(Cross(x, y), x) == 0.0 && Dot(Cross(x, y), y) == 0.0 &&
      Dot(x, x) == 1.0 && Dot(y, y) == 1.0 && Dot(Cross(x, y), Cross(x, y)) == 1.0 &&
      PositiveMultiple(x, v) && Dot(y, zm) == 0.0
  {
    var yc := Cross(x, z0);
    var y := Normalize(m, yc);
    CrossOrthogonal(x, z0);
    PositiveMultipleSelf(x);
    PositiveMultipleSelf(z0);
    OrthogonalScaled(y, yc, x, x);
    OrthogonalScaled(y, yc, z0, z0);
    OrthogonalUnscaled(y, z0, zm);
    CrossOrthogonal(x, y);
    Lagrange(x, y);
  }

  /** The averaged normal used by Frame2 before it is normalised. */
  function MeanNormal(points: seq<Vec3>, origin: Vec3): Vec3
  {
    var cs := Pairs(Offsets(points, origin));
    if |cs| == 0 then Zero3 else Scale(1.0 / (|cs| as real), Sum(cs))
  }

  // ---------------------------------------------------------------------------
  // calc_rot_comp
  // ---------------------------------------------------------------------------

  datatype PanTilt = PanTilt(pan: real, tilt: real)

  /** calc_rot_comp of dev/calibrate.py and dev/dart_track.py: pan is the heading of
      (x, y), tilt the elevation of z over the horizontal distance sqrt(x^2 + y^2).
      With the atan2 law, the tilt lies in [-90, 90] and has the sign of the local z:
      positive above the horizontal plane, negative below, zero on it. */
  function CalcRotComp(m: Maths, p: Vec3): (r: PanTilt)
    ensures SqrtLaw(m) && Atan2Law(m) ==>
      -90.0 <= r.tilt <= 90.0 && (r.tilt > 0.0 <==> p.z > 0.0) && (r.tilt < 0.0 <==> p.z < 0.0)
  {
    TiltSign(m, p.z, p.x, p.y);
    PanTilt(Degrees(m.atan2(p.y, p.x)), Degrees(m.atan2(p.z, m.sqrt(p.x * p.x + p.y * p.y))))
  }

  /** calc_rot_comp of dev/vec_math2.py and dev/3d_vec_math/vec_math.py, as written:
      the tilt divides by sqrt(x^2 + z^2) instead.  The same range and sign rule
      hold for it. */
  function CalcRotCompXZ(m: Maths, p: Vec3): (r: PanTilt)
    ensures SqrtLaw(m) && Atan2Law(m) ==>
      -90.0 <= r.tilt <= 90.0 && (r.tilt > 0.0 <==> p.z > 0.0) && (r.tilt < 0.0 <==> p.z < 0.0)
  {
    TiltSign(m, p.z, p.x, p.z);
    PanTilt(Degrees(m.atan2(p.y, p.x)), Degrees(m.atan2(p.z, m.sqrt(p.x * p.x + p.z * p.z))))
  }

  lemma SqrtOfSquares(m: Maths, u: real, w: real)
    requires SqrtLaw(m)
    ensures m.sqrt(u * u + w * w) >= 0.0
    ensures u * u + w * w == 0.0 ==> m.sqrt(u * u + w * w) == 0.0
  {
    SquareNonNegative(u);
    SquareNonNegative(w);
  }

  lemma DegreesSign(a: real)
    ensures a > 0.0 <==> Degrees(a) > 0.0
    ensures a < 0.0 <==> Degrees(a) < 0.0
    ensures -Pi / 2.0 <= a <= Pi / 2.0 ==> -90.0 <= Degrees(a) <= 90.0
    ensures -Pi / 2.0 < a < Pi / 2.0 ==> -90.0 < Degrees(a) < 90.0
    ensures Degrees(Pi / 2.0) == 90.0
  {
  }

  /** The elevation atan2(z, sqrt(u^2 + w^2)) in degrees lies in [-90, 90] and has the
      sign of z, under the square-root and atan2 laws. */
  lemma TiltSign(m: Maths, z: real, u: real, w: real)
    ensures SqrtLaw(m) && Atan2Law(m) ==>
      var t := Degrees(m.atan2(z, m.sqrt(u * u + w * w)));
      -90.0 <= t <= 90.0 && (t > 0.0 <==> z > 0.0) && (t < 0.0 <==> z < 0.0)
  {
    if SqrtLaw(m) && Atan2Law(m) {
      SqrtOfSquares(m, u, w);
      DegreesSign(m.atan2(z, m.sqrt(u * u + w * w)));
    }
  }

  /** The pan is the same in both variants, and for a point in front (x > 0) it lies
      strictly inside (-90, 90) with the sign of y. */
  lemma CalcRotCompPan(m: Maths, p: Vec3)
    requires Atan2Law(m)
    ensures CalcRotCompXZ(m, p).pan == CalcRotComp(m, p).pan
    ensures p.x > 0.0 ==> -90.0 < CalcRotComp(m, p).pan < 90.0
    ensures p.x >= 0.0 ==> (CalcRotComp(m, p).pan > 0.0 <==> p.y > 0.0)
  {
    DegreesSign(m.atan2(p.y, p.x));
  }

  /** A point straight above the pivot, (0, 0, h) with h > 0, has a tilt of 90 degrees;
      the x^2 + z^2 variant reports less than 90 (45 with a true atan2). */
  lemma CalcRotCompStraightUp(m: Maths, h: real)
    requires SqrtLaw(m) && Atan2Law(m)
    requires h > 0.0
    ensures CalcRotComp(m, Vec3(0.0, 0.0, h)).tilt == 90.0
    ensures CalcRotCompXZ(m, Vec3(0.0, 0.0, h)).tilt < 90.0
  {
    assert 0.0 * 0.0 + 0.0 * 0.0 == 0.0;
    DegreesSign(Pi / 2.0);
    SquareNonNegative(h);
    if h * h == 0.0 {
      ZeroProduct(h, h);
    }
    assert 0.0 * 0.0 + h * h > 0.0;
    var t := m.atan2(h, m.sqrt(0.0 * 0.0 + h * h));
    DegreesSign(t);
  }

  // ---------------------------------------------------------------------------
  // global_to_local
  // ---------------------------------------------------------------------------

  /** np.linalg.inv(R) is a left inverse of R. */
  ghost predicate InvLaw(m: Maths, r: Mat3)
  {
    forall v :: MatVec(m.inv(r), MatVec(r, v)) == v
  }

  /** global_to_local of dev/vec_math2.py, dev/3d_vec_math/vec_math.py and
      dev/calibrate.py: inv(R) applied to the point; no origin is subtracted.  When
      inv is a left inverse of R, it returns the v that R sends to p. */
  function GlobalToLocal(m: Maths, r: Mat3, p: Vec3): (res: Vec3)
    ensures InvLaw(m, r) ==> forall v :: MatVec(r, v) == p ==> res == v
  {
    MatVec(m.inv(r), p)
  }

  /** The translation of local_to_global survives it: the result is off by inv(R)
      applied to the origin. */
  lemma GlobalToLocalKeepsOffset(m: Maths, r: Mat3, v: Vec3, origin: Vec3)
    requires InvLaw(m, r)
    ensures GlobalToLocal(m, r, Planar.LocalToGlobal(v, r, origin)) == Add(v, GlobalToLocal(m, r, origin))
  {
    MatVecLinear(m.inv(r), MatVec(r, v), origin);
  }

  const NotCalibrated: string := "Calibration must be completed before transforming points."

  /** DynaTracker.global_to_local of dev/dart_track.py: ValueError without a rotation,
      otherwise inv(R) applied to point - local_origin.  It fails exactly when there
      is no rotation, and otherwise inverts local_to_global. */
  function GlobalToLocalFrom(m: Maths, rotation: Option<Mat3>, origin: Vec3, p: Vec3): (res: Result<Vec3>)
    ensures res.Failure? <==> rotation.None?
    ensures res.Failure? ==> res.error == NotCalibrated
    ensures rotation.Some? && InvLaw(m, rotation.value) ==>
      forall v :: Planar.LocalToGlobal(v, rotation.value, origin) == p ==> res == Success(v)
  {
    if rotation.None? then Failure(NotCalibrated)
    else Success(MatVec(m.inv(rotation.value), Sub(p, origin)))
  }

  /** With a rotation, the local origin maps to the zero vector. */
  lemma GlobalToLocalFromOrigin(m: Maths, rotation: Option<Mat3>, origin: Vec3)
    requires rotation.Some?
    ensures GlobalToLocalFrom(m, rotation, origin, origin) == Success(Zero3)
  {
    MatVecLinear(m.inv(rotation.value), origin, origin);
    assert Sub(origin, origin) == Zero3;
  }

  /** The two versions differ by inv(R) applied to the origin. */
  lemma GlobalToLocalVersions(m: Maths, r: Mat3, origin: Vec3, p: Vec3)
    ensures GlobalToLocal(m, r, p) == Add(GlobalToLocalFrom(m, Some(r), origin, p).value, GlobalToLocal(m, r, origin))
  {
    MatVecLinear(m.inv(r), Sub(p, origin), origin);
    assert Add(Sub(p, origin), origin) == p;
  }
}

=== FILE: mocap_euler.dfy ===
/** The motion-capture mailbox of TrackingTests/MoCapStream.py, which streams 6D bodies
    with Euler angles: MoCap keeps the latest position, the third Euler angle as the
    rotation and a six-entry state, overwritten by each packet; DataLogger appends
    samples to four lists.  The connection and the background thread that calls the
    packet handler are not part of this model. */
module MocapEuler {
  import opened Numerics

  /** The stream_type given to the constructor. */
  datatype StreamType = SixD | ThreeD | OtherStream(name: string)

  /** A rigid body of a 6D Euler packet: its position and its three Euler angles. */
  datatype EulerBody = EulerBody(position: Vec3, a1: real, a2: real, a3: real)

  /** What the handler reads from a packet: the 6D bodies and the unlabelled markers. */
  datatype Packet = Packet(bodies: seq<EulerBody>, markers: seq<Vec3>)

  const IndexOutOfRange: string := "list index out of range"

  function Coordinates(p: Vec3): seq<real>
  {
    [p.x, p.y, p.z]
  }

  class MoCap {
    const streamType: StreamType
    var state: seq<real>
    var position: seq<real>
    var rotation: real
    var lost: bool

    /** The position and rotation come from the arguments, the state is zero and the
        pose is not lost. */
    constructor(position: seq<real>, rotation: real, streamType: StreamType)
      ensures this.streamType == streamType
      ensures this.position == position && this.rotation == rotation
      ensures state == [0.0, 0.0, 0.0, 0.0, 0.0, 0.0] && !lost
    {
      this.streamType := streamType;
      state := [0.0, 0.0, 0.0, 0.0, 0.0, 0.0];
      this.position := position;
      this.rotation := rotation;
      lost := false;
    }

    /** _on_packet.  A '6d' packet without a body, or a '3d' packet without markers,
        marks the pose lost and changes nothing else.  A '6d' packet with a body takes
        the first body's position, its a3 as rotation and [x, y, z, a1, a2, a3] as
        state; a '3d' packet with markers takes the first marker as position.  Either
        clears lost.  Any other stream type leaves everything unchanged. */
    method OnPacket(packet: Packet)
      modifies this
      ensures streamType == SixD && packet.bodies == [] ==>
        lost && position == old(position) && rotation == old(rotation) && state == old(state)
      ensures streamType == SixD && packet.bodies != [] ==>
        var b := packet.bodies[0];
        !lost && position == Coordinates(b.position) && rotation == b.a3 &&
        state == Coordinates(b.position) + [b.a1, b.a2, b.a3]
      ensures streamType == ThreeD && packet.markers == [] ==>
        lost && position == old(position) && rotation == old(rotation) && state == old(state)
      ensures streamType == ThreeD && packet.markers != [] ==>
        !lost && position == Coordinates(packet.markers[0]) && rotation == old(rotation) && state == old(state)
      ensures streamType.OtherStream? ==>
        lost == old(lost) && position == old(position) && rotation == old(rotation) && state == old(state)
    {
      if streamType == SixD {
        if packet.bodies == [] {
          lost := true;
          return;
        }
        var b := packet.bodies[0];
        position := Coordinates(b.position);
        rotation := b.a3;
        state := [b.position.x, b.position.y, b.position.z, b.a1, b.a2, b.a3];
        lost := false;
      } else if streamType == ThreeD {
        if packet.markers == [] {
          lost := true;
          return;
        }
        position := Coordinates(packet.markers[0]);
        lost := false;
      }
    }
  }

  /** DataLogger: four sample lists filled by log. */
  class DataLogger {
    var height: seq<real>
    var velocity: seq<real>
    var timeStamp: seq<real>
    var reference: seq<real>

    constructor()
      ensures height == [] && velocity == [] && timeStamp == [] && reference == []
    {
      height := [];
      velocity := [];
      timeStamp := [];
      reference := [];
    }

    /** log(data): data[0] to velocity, data[1] to height, data[2] to the time stamps
        and data[3] to the reference, in that order; a shorter data raises at the first
        missing index, after the appends before it. */
    method Log(data: seq<real>) returns (outcome: Result<()>)
      modifies this
      ensures outcome.Success? <==> |data| >= 4
      ensures velocity == old(velocity) + data[..if |data| >= 1 then 1 else 0]
      ensures height == old(height) + (if |data| >= 2 then [data[1]] else [])
      ensures timeStamp == old(timeStamp) + (if |data| >= 3 then [data[2]] else [])
      ensures reference == old(reference) + (if |data| >= 4 then [data[3]] else [])
      ensures outcome.Failure? ==> outcome.error == IndexOutOfRange
    {
      if |data| < 1 {
        return Failure(IndexOutOfRange);
      }
      velocity := velocity + [data[0]];
      if |data| < 2 {
        return Failure(IndexOutOfRange);
      }
      height := height + [data[1]];
      if |data| < 3 {
        return Failure(IndexOutOfRange);
      }
      timeStamp := timeStamp + [data[2]];
      if |data| < 4 {
        return Failure(IndexOutOfRange);
      }
      reference := reference + [data[3]];
      return Success(());
    }
  }
}

=== FILE: mocap_stream.dfy ===
/** The motion-capture mailbox of dev/mocap_stream.py: MoCap keeps the latest pose of
    one rigid body ('6d' stream) or of the unlabelled markers ('3d' stream), overwritten
    by each packet the stream delivers, and DataLogger appends samples to lists.  The
    connection and the background thread that calls the packet handler are not part
    of this model; a packet is what the handler reads from it. */
module MocapStream {
  import opened Numerics

  /** The stream_type given to the constructor. */
  datatype StreamType = SixD | ThreeD | OtherStream(name: string)

  /** A rigid body of a 6D packet: its position and its 9-element rotation matrix. */
  datatype Body = Body(position: Vec3, rotation: seq<real>)

  /** What the handler reads from a packet: the 6D bodies and the unlabelled markers. */
  datatype Packet = Packet(bodies: seq<Body>, markers: seq<Vec3>)

  const IndexOutOfRange: string := "list index out of range"

  /** Python's s[i:j] for 0 <= i <= j: the part of s between i and j, cut at its end. */
  function Slice(s: seq<real>, i: nat, j: nat): (r: seq<real>)
    requires i <= j
    ensures |r| <= j - i
    ensures j <= |s| ==> r == s[i..j]
  {
    if j <= |s| then s[i..j] else if i <= |s| then s[i..] else []
  }

  /** [matrix[0:3], matrix[3:6], matrix[6:9]]: three rows of at most three entries;
      for a 9-element matrix they are its consecutive triples, which put back together
      give the matrix. */
  function Rows(matrix: seq<real>): (rows: seq<seq<real>>)
    ensures |rows| == 3 && |rows[0]| <= 3 && |rows[1]| <= 3 && |rows[2]| <= 3
    ensures |matrix| == 9 ==>
      |rows[0]| == |rows[1]| == |rows[2]| == 3 && rows[0] + rows[1] + rows[2] == matrix
  {
    var rows := [Slice(matrix, 0, 3), Slice(matrix, 3, 6), Slice(matrix, 6, 9)];
    assert |matrix| == 9 ==> matrix[0..3] + matrix[3..6] + matrix[6..9] == matrix;
    rows
  }

  class MoCap {
    const streamType: StreamType
    var state: seq<real>
    var position: Vec3
    var position2: Vec3
    var matrix: Option<seq<seq<real>>>
    var yaw: real
    var pitch: real
    var lost: bool
    var calibrationTarget: bool

    /** The kinematic state before any packet: origin positions, no matrix, not lost,
        not a calibration target. */
    constructor(streamType: StreamType)
      ensures this.streamType == streamType
      ensures state == [0.0, 0.0, 0.0, 0.0, 0.0, 0.0]
      ensures position == Vec3(0.0, 0.0, 0.0) && position2 == Vec3(0.0, 0.0, 0.0)
      ensures matrix == None && yaw == 0.0 && pitch == 0.0
      ensures !lost && !calibrationTarget
    {
      this.streamType := streamType;
      state := [0.0, 0.0, 0.0, 0.0, 0.0, 0.0];
      position := Vec3(0.0, 0.0, 0.0);
      position2 := Vec3(0.0, 0.0, 0.0);
      matrix := None;
      yaw := 0.0;
      pitch := 0.0;
      lost := false;
      calibrationTarget := false;
    }

    /** _on_packet.  A '6d' packet without a body, or a '3d' packet without markers,
        marks the pose lost and changes nothing else.  A '6d' packet with a body takes
        the first body's position and the rows of its matrix; a '3d' packet with
        markers takes the first marker as position, and the second as position2 when
        this is a calibration target.  Every packet that is not lost, including one on
        any other stream type, clears lost. */
    method OnPacket(packet: Packet)
      modifies this
      ensures state == old(state) && yaw == old(yaw) && pitch == old(pitch)
      ensures calibrationTarget == old(calibrationTarget)
      ensures streamType == SixD && packet.bodies == [] ==>
        lost && position == old(position) && position2 == old(position2) && matrix == old(matrix)
      ensures streamType == SixD && packet.bodies != [] ==>
        !lost && position == packet.bodies[0].position && position2 == old(position2) &&
        matrix == Some(Rows(packet.bodies[0].rotation))
      ensures streamType == ThreeD && packet.markers == [] ==>
        lost && position == old(position) && position2 == old(position2) && matrix == old(matrix)
      ensures streamType == ThreeD && packet.markers != [] ==>
        !lost && position == packet.markers[0] && matrix == old(matrix) &&
        position2 == (if calibrationTarget && |packet.markers| > 1 then packet.markers[1] else old(position2))
      ensures streamType.OtherStream? ==>
        !lost && position == old(position) && position2 == old(position2) && matrix == old(matrix)
    {
      if streamType == SixD {
        if packet.bodies == [] {
          lost := true;
          return;
        }
        var body := packet.bodies[0];
        position := body.position;
        matrix := Some(Rows(body.rotation));
        lost := false;
      } else if streamType == ThreeD {
        if packet.markers == [] {
          lost := true;
          return;
        }
        position := packet.markers[0];
        if calibrationTarget && |packet.markers| > 1 {
          position2 := packet.markers[1];
        }
      }
      lost := false;
    }
  }

  /** DataLogger: three sample lists filled by log. */
  class DataLogger {
    var velocity: seq<real>
    var timeStamp: seq<real>
    var reference: seq<real>

    constructor()
      ensures velocity == [] && timeStamp == [] && reference == []
    {
      velocity := [];
      timeStamp := [];
      reference := [];
    }

    /** log(data): data[0], data[2] and data[3] are appended in that order, data[1]
        ignored; a shorter data raises at the first missing index, after the appends
        before it. */
    method Log(data: seq<real>) returns (outcome: Result<()>)
      modifies this
      ensures |data| >= 4 ==>
        outcome == Success(()) &&
        velocity == old(velocity) + [data[0]] && timeStamp == old(timeStamp) + [data[2]] &&
        reference == old(reference) + [data[3]]
      ensures |data| < 4 ==>
        outcome == Failure(IndexOutOfRange) &&
        velocity == old(velocity) + data[..if |data| >= 1 then 1 else 0] &&
        timeStamp == old(timeStamp) + (if |data| >= 3 then [data[2]] else []) &&
        reference == old(reference)
    {
      if |data| < 1 {
        return Failure(IndexOutOfRange);
      }
      velocity := velocity + [data[0]];
      if |data| < 3 {
        return Failure(IndexOutOfRange);
      }
      timeStamp := timeStamp + [data[2]];
      if |data| < 4 {
        return Failure(IndexOutOfRange);
      }
      reference := reference + [data[3]];
      return Success(());
    }
  }
}

=== FILE: numerics.dfy ===
/** Shared numeric vocabulary of the tracker scripts: vectors over the reals, the
    Python conventions the scripts rely on (int() truncation, floored % on floats,
    float('inf') in running extremes), and the transcendental functions of math and
    NumPy.  Those functions are not defined here: the caller supplies them in a
    `Maths` bundle, and each member that needs one of their properties names the
    law it relies on in its `requires`. */
module Numerics {

  datatype Option<T> = None | Some(value: T)

  /** The outcome of an operation that raises in Python: the value, or the message
      of the exception. */
  datatype Result<T> = Success(value: T) | Failure(error: string)

  /** np.pi, as a decimal. */
  const Pi: real := 3.141592653589793

  datatype Vec3 = Vec3(x: real, y: real, z: real)
  datatype Vec2 = Vec2(x: real, y: real)

  /** A 3x3 matrix, stored by rows. */
  datatype Mat3 = Mat3(r0: Vec3, r1: Vec3, r2: Vec3)

  const Zero3: Vec3 := Vec3(0.0, 0.0, 0.0)
  const Zero2: Vec2 := Vec2(0.0, 0.0)

  function Add(a: Vec3, b: Vec3): Vec3 { Vec3(a.x + b.x, a.y + b.y, a.z + b.z) }
  function Sub(a: Vec3, b: Vec3): Vec3 { Vec3(a.x - b.x, a.y - b.y, a.z - b.z) }
  function Scale(k: real, a: Vec3): Vec3 { Vec3(k * a.x, k * a.y, k * a.z) }
  function Neg(a: Vec3): Vec3 { Vec3(-a.x, -a.y, -a.z) }
  function Dot(a: Vec3, b: Vec3): real { a.x * b.x + a.y * b.y + a.z * b.z }

  /** np.cross of two 3-vectors. */
  function Cross(a: Vec3, b: Vec3): Vec3
  {
    Vec3(a.y * b.z - a.z * b.y, a.z * b.x - a.x * b.z, a.x * b.y - a.y * b.x)
  }

  function Dot2(a: Vec2, b: Vec2): real { a.x * b.x + a.y * b.y }

  /** z component of the cross product of two planar vectors (np.cross on 2-vectors). */
  function Cross2(a: Vec2, b: Vec2): real { a.x * b.y - a.y * b.x }

  /** Matrix times column vector (np.dot / np.matmul). */
  function MatVec(m: Mat3, v: Vec3): Vec3 { Vec3(Dot(m.r0, v), Dot(m.r1, v), Dot(m.r2, v)) }

  /** np.column_stack((a, b, c)): a, b and c become the columns. */
  function ColumnStack(a: Vec3, b: Vec3, c: Vec3): Mat3
  {
    Mat3(Vec3(a.x, b.x, c.x), Vec3(a.y, b.y, c.y), Vec3(a.z, b.z, c.z))
  }

  function Col0(m: Mat3): Vec3 { Vec3(m.r0.x, m.r1.x, m.r2.x) }
  function Col1(m: Mat3): Vec3 { Vec3(m.r0.y, m.r1.y, m.r2.y) }
  function Col2(m: Mat3): Vec3 { Vec3(m.r0.z, m.r1.z, m.r2.z) }

  /** Determinant of the matrix whose columns are a, b, c. */
  function Det3(a: Vec3, b: Vec3, c: Vec3): real
  {
    a.x * (b.y * c.z - b.z * c.y) + a.y * (b.z * c.x - b.x * c.z) + a.z * (b.x * c.y - b.y * c.x)
  }

  /** The determinant is the scalar triple product. */
  lemma TripleProduct(a: Vec3, b: Vec3, c: Vec3)
    ensures Det3(a, b, c) == Dot(a, Cross(b, c))
  {
  }

  /** k.x * a + k.y * b + k.z * c: the matrix with columns a, b, c applied to k. */
  function Combine(k: Vec3, a: Vec3, b: Vec3, c: Vec3): Vec3
  {
    Add(Add(Scale(k.x, a), Scale(k.y, b)), Scale(k.z, c))
  }

  /** np.linalg.solve on the 3x3 system whose columns are a, b, c, by Cramer's rule:
      the solution solves the system.  NumPy raises LinAlgError on a singular matrix;
      here that is the precondition. */
  function Solve3(a: Vec3, b: Vec3, c: Vec3, r: Vec3): (s: Vec3)
    requires Det3(a, b, c) != 0.0
    ensures Combine(s, a, b, c) == r
  {
    var d := Det3(a, b, c);
    CramerX(a, b, c, r);
    CramerY(a, b, c, r);
    CramerZ(a, b, c, r);
    CombineQuotient(Vec3(Det3(r, b, c), Det3(a, r, c), Det3(a, b, r)), d, a, b, c, r);
    Vec3(Det3(r, b, c) / d, Det3(a, r, c) / d, Det3(a, b, r) / d)
  }

  /** The three rows of Cramer's identity: sum of Det3(..r..) * column == Det3 * r. */
  lemma CramerX(a: Vec3, b: Vec3, c: Vec3, r: Vec3)
    ensures Det3(r, b, c) * a.x + Det3(a, r, c) * b.x + Det3(a, b, r) * c.x == Det3(a, b, c) * r.x
  {
  }

  lemma CramerY(a: Vec3, b: Vec3, c: Vec3, r: Vec3)
    ensures Det3(r, b, c) * a.y + Det3(a, r, c) * b.y + Det3(a, b, r) * c.y == Det3(a, b, c) * r.y
  {
  }

  lemma CramerZ(a: Vec3, b: Vec3, c: Vec3, r: Vec3)
    ensures Det3(r, b, c) * a.z + Det3(a, r, c) * b.z + Det3(a, b, r) * c.z == Det3(a, b, c) * r.z
  {
  }

  lemma CombineQuotient(n: Vec3, d: real, a: Vec3, b: Vec3, c: Vec3, r: Vec3)
    requires d != 0.0
    requires n.x * a.x + n.y * b.x + n.z * c.x == d * r.x
    requires n.x * a.y + n.y * b.y + n.z * c.y == d * r.y
    requires n.x * a.z + n.y * b.z + n.z * c.z == d * r.z
    ensures Combine(Vec3(n.x / d, n.y / d, n.z / d), a, b, c) == r
  {
    DivideThrough(n.x, n.y, n.z, a.x, b.x, c.x, d, r.x);
    DivideThrough(n.x, n.y, n.z, a.y, b.y, c.y, d, r.y);
    DivideThrough(n.x, n.y, n.z, a.z, b.z, c.z, d, r.z);
  }

  lemma DivideThrough(x: real, y: real, z: real, p: real, q: real, w: real, d: real, r: real)
    requires d != 0.0
    requires x * p + y * q + z * w == d * r
    ensures (x / d) * p + (y / d) * q + (z / d) * w == r
  {
    assert (x / d) * p + (y / d) * q + (z / d) * w == (x * p + y * q + z * w) / d;
  }

  /** |x cross y|^2 == |x|^2 |y|^2 - (x . y)^2. */
  lemma Lagrange(x: Vec3, y: Vec3)
    ensures Dot(Cross(x, y), Cross(x, y)) == Dot(x, x) * Dot(y, y) - Dot(x, y) * Dot(x, y)
  {
  }

  lemma MatVecLinear(m: Mat3, a: Vec3, b: Vec3)
    ensures MatVec(m, Add(a, b)) == Add(MatVec(m, a), MatVec(m, b))
    ensures MatVec(m, Sub(a, b)) == Sub(MatVec(m, a), MatVec(m, b))
    ensures MatVec(m, Zero3) == Zero3
  {
  }

  lemma CrossOrthogonal(a: Vec3, b: Vec3)
    ensures Dot(Cross(a, b), a) == 0.0 && Dot(Cross(a, b), b) == 0.0
    ensures Dot(a, Cross(a, b)) == 0.0 && Dot(b, Cross(a, b)) == 0.0
  {
  }

  lemma ScaleScale(k: real, j: real, v: Vec3)
    ensures Scale(k, Scale(j, v)) == Scale(k * j, v)
  {
  }

  lemma DotScaleLeft(k: real, a: Vec3, b: Vec3)
    ensures Dot(Scale(k, a), b) == k * Dot(a, b)
  {
  }

  lemma DotScaleRight(k: real, a: Vec3, b: Vec3)
    ensures Dot(a, Scale(k, b)) == k * Dot(a, b)
  {
  }

  lemma CrossScaleLeft(k: real, a: Vec3, b: Vec3)
    ensures Cross(Scale(k, a), b) == Scale(k, Cross(a, b))
  {
    var c := Cross(Scale(k, a), b);
    assert c.x == k * Cross(a, b).x;
    assert c.y == k * Cross(a, b).y;
    assert c.z == k * Cross(a, b).z;
  }

  lemma CrossScaleRight(k: real, a: Vec3, b: Vec3)
    ensures Cross(a, Scale(k, b)) == Scale(k, Cross(a, b))
  {
    var c := Cross(a, Scale(k, b));
    assert c.x == k * Cross(a, b).x;
    assert c.y == k * Cross(a, b).y;
    assert c.z == k * Cross(a, b).z;
  }

  /** A dot product of a vector with itself is a sum of squares. */
  lemma DotSelf(a: Vec3)
    ensures Dot(a, a) >= 0.0
  {
  }

  lemma DotSelf2(a: Vec2)
    ensures Dot2(a, a) >= 0.0
  {
  }

  lemma SquareNonNegative(r: real)
    ensures r * r >= 0.0
  {
  }

  /** A product is zero only when a factor is. */
  lemma ZeroProduct(r: real, s: real)
    requires r * s == 0.0
    ensures r == 0.0 || s == 0.0
  {
  }

  /** A sum of three squares vanishes only when its first term's base does. */
  lemma SumSquaresZero(x: real, y: real, z: real)
    requires x * x + y * y + z * z == 0.0
    ensures x == 0.0
  {
    SquareNonNegative(x);
    SquareNonNegative(y);
    SquareNonNegative(z);
    assert x * x == 0.0;
    ZeroProduct(x, x);
  }

  /** The dot product of a vector with itself vanishes only at the zero vector. */
  lemma DotSelfZero(a: Vec3)
    requires Dot(a, a) == 0.0
    ensures a == Zero3
  {
    SumSquaresZero(a.x, a.y, a.z);
    SumSquaresZero(a.y, a.x, a.z);
    SumSquaresZero(a.z, a.x, a.y);
  }

  /** ... and is positive everywhere else. */
  lemma DotSelfPositive(a: Vec3)
    requires a != Zero3
    ensures Dot(a, a) > 0.0
  {
    DotSelf(a);
    if Dot(a, a) == 0.0 {
      DotSelfZero(a);
    }
  }

  lemma DotSelfZero2(a: Vec2)
    requires Dot2(a, a) == 0.0
    ensures a == Zero2
  {
    SumSquaresZero(a.x, a.y, 0.0);
    SumSquaresZero(a.y, a.x, 0.0);
  }

  lemma DotSelfPositive2(a: Vec2)
    requires a != Zero2
    ensures Dot2(a, a) > 0.0
  {
    DotSelf2(a);
    if Dot2(a, a) == 0.0 {
      DotSelfZero2(a);
    }
  }

  /** The transcendental functions and the matrix inverse the scripts call, supplied
      by the caller: math.sqrt, math.atan2 / np.arctan2, np.arccos, np.sin, np.cos,
      np.linalg.inv. */
  datatype Maths = Maths(
    sqrt: real -> real,
    atan2: (real, real) -> real,
    acos: real -> real,
    sin: real -> real,
    cos: real -> real,
    inv: Mat3 -> Mat3)

  /** sqrt is the non-negative square root on the non-negative reals: zero at zero,
      positive elsewhere. */
  ghost predicate SqrtLaw(m: Maths)
  {
    m.sqrt(0.0) == 0.0 &&
    forall r :: r > 0.0 ==> m.sqrt(r) > 0.0 && m.sqrt(r) * m.sqrt(r) == r
  }

  /** arccos lands in [0, pi]. */
  ghost predicate AcosLaw(m: Maths)
  {
    forall c :: 0.0 <= m.acos(c) <= Pi
  }

  /** atan2(y, x) with x >= 0 lies in [-pi/2, pi/2] and has the sign of y; the bounds
      are strict when x > 0 and reached on the positive and negative y axes. */
  ghost predicate Atan2Law(m: Maths)
  {
    forall y, x :: x >= 0.0 ==>
      -Pi / 2.0 <= m.atan2(y, x) <= Pi / 2.0 &&
      (y > 0.0 ==> m.atan2(y, x) > 0.0) &&
      (y < 0.0 ==> m.atan2(y, x) < 0.0) &&
      (y == 0.0 ==> m.atan2(y, x) == 0.0) &&
      (x > 0.0 ==> -Pi / 2.0 < m.atan2(y, x) < Pi / 2.0) &&
      (x == 0.0 && y > 0.0 ==> m.atan2(y, x) == Pi / 2.0) &&
      (x == 0.0 && y < 0.0 ==> m.atan2(y, x) == -Pi / 2.0)
  }

  /** sin^2 + cos^2 = 1 at every angle. */
  ghost predicate PythagorasLaw(m: Maths)
  {
    forall a :: m.sin(a) * m.sin(a) + m.cos(a) * m.cos(a) == 1.0
  }

  /** np.linalg.norm of a 3-vector. */
  function Norm(m: Maths, v: Vec3): real { m.sqrt(Dot(v, v)) }

  /** np.linalg.norm of a 2-vector. */
  function Norm2(m: Maths, v: Vec2): real { m.sqrt(Dot2(v, v)) }

  /** np.linalg.norm is non-negative, squares back to the dot product of the
      vector with itself, and is zero at the zero vector. */
  lemma NormPositive(m: Maths, v: Vec3)
    requires SqrtLaw(m)
    ensures Norm(m, v) >= 0.0
    ensures Norm(m, v) * Norm(m, v) == Dot(v, v)
    ensures Norm(m, v) == 0.0 <==> v == Zero3
  {
    DotSelf(v);
    if v != Zero3 {
      DotSelfPositive(v);
    }
  }

  lemma Norm2Positive(m: Maths, v: Vec2)
    requires SqrtLaw(m)
    ensures Norm2(m, v) >= 0.0
    ensures Norm2(m, v) * Norm2(m, v) == Dot2(v, v)
    ensures Norm2(m, v) == 0.0 <==> v == Zero2
  {
    DotSelf2(v);
    if v != Zero2 {
      DotSelfPositive2(v);
    }
  }

  /** `v / np.linalg.norm(v)`: the unit vector along a non-zero v. */
  function Normalize(m: Maths, v: Vec3): (u: Vec3)
    requires SqrtLaw(m) && v != Zero3
    ensures Dot(u, u) == 1.0
    ensures exists k :: k > 0.0 && u == Scale(k, v)
  {
    NormPositive(m, v);
    var n := Norm(m, v);
    DotScaleLeft(1.0 / n, v, Scale(1.0 / n, v));
    DotScaleRight(1.0 / n, v, v);
    assert (1.0 / n) * (1.0 / n) * (n * n) == 1.0;
    Scale(1.0 / n, v)
  }

  /** math.degrees / np.degrees. */
  function Degrees(r: real): real { r * 180.0 / Pi }

  /** math.radians / np.radians. */
  function Radians(d: real): real { d * Pi / 180.0 }

  /** Python int() of a float: truncation toward zero. */
  function Trunc(r: real): (i: int)
    ensures r >= 0.0 ==> i as real <= r < i as real + 1.0
    ensures r < 0.0 ==> i as real - 1.0 < r <= i as real
  {
    if r >= 0.0 then r.Floor else -((-r).Floor)
  }

  /** Python's float %, floored: the remainder has the sign of the modulus. */
  function FMod(a: real, n: real): (r: real)
    requires n > 0.0
    ensures 0.0 <= r < n
    ensures ((a - r) / n).Floor as real == (a - r) / n
  {
    var q := (a / n).Floor;
    var r := a - q as real * n;
    FloorRemainder(a, n, q as real, q as real * n);
    assert (a - r) / n == q as real;
    r
  }

  /** A value already in [0, n) is its own remainder. */
  lemma FModSmall(a: real, n: real)
    requires n > 0.0 && 0.0 <= a < n
    ensures FMod(a, n) == a
  {
    var x := a / n;
    QuotientTimes(a, n, x);
    UnitQuotient(x, n, a);
    assert x.Floor == 0;
    ZeroFactor(x.Floor as real, n);
  }

  /** A value in [-n, 0) wraps once: its remainder is a + n. */
  lemma FModWrap(a: real, n: real)
    requires n > 0.0 && -n <= a < 0.0
    ensures FMod(a, n) == a + n
  {
    var x := a / n;
    QuotientTimes(a, n, x);
    UnitQuotient(x + 1.0, n, a + n);
    assert x.Floor == -1;
  }

  lemma UnitQuotient(x: real, n: real, a: real)
    requires n > 0.0 && x * n == a && 0.0 <= a < n
    ensures 0.0 <= x < 1.0
  {
    if x < 0.0 {
      PositiveTimes(-x, n, -x * n);
    } else if x >= 1.0 {
      NonNegativeTimes(x - 1.0, n, (x - 1.0) * n);
    }
  }

  lemma ZeroFactor(z: real, n: real)
    requires z == 0.0
    ensures z * n == 0.0
  {
  }

  /** With q <= a / n < q + 1 and qn == q * n, a lies in [qn, qn + n).  Products are
      passed in as named values throughout: the solver then reasons about them
      linearly. */
  lemma FloorRemainder(a: real, n: real, q: real, qn: real)
    requires n > 0.0 && qn == q * n
    requires q <= a / n < q + 1.0
    ensures qn <= a < qn + n
  {
    var x := a / n;
    QuotientTimes(a, n, x);
    Between(x, q, n, a, qn);
  }

  lemma Between(x: real, q: real, n: real, xn: real, qn: real)
    requires n > 0.0 && xn == x * n && qn == q * n
    requires q <= x < q + 1.0
    ensures qn <= xn < qn + n
  {
    var d := q + 1.0 - x;
    var e := x - q;
    PositiveTimes(d, n, d * n);
    NonNegativeTimes(e, n, e * n);
  }

  lemma PositiveTimes(d: real, n: real, dn: real)
    requires d > 0.0 && n > 0.0 && dn == d * n
    ensures dn > 0.0
  {
  }

  lemma NonNegativeTimes(d: real, n: real, dn: real)
    requires d >= 0.0 && n > 0.0 && dn == d * n
    ensures dn >= 0.0
  {
  }

  lemma QuotientTimes(a: real, n: real, x: real)
    requires n != 0.0 && x == a / n
    ensures x * n == a
  {
  }

  /** An extended real, for the running extremes the scripts seed with float('inf'). */
  datatype ExtReal = NegInf | Fin(v: real) | PosInf

  /** Python min(a, b) with a possibly infinite. */
  function ExtMin(a: ExtReal, b: real): (r: ExtReal)
    ensures a.NegInf? <==> r.NegInf?
    ensures r.Fin? ==> r.v <= b && (a.Fin? ==> r.v <= a.v)
    ensures r.Fin? ==> r.v == b || (a.Fin? && r.v == a.v)
  {
    match a
    case NegInf => NegInf
    case Fin(u) => if u <= b then a else Fin(b)
    case PosInf => Fin(b)
  }

  /** Python max(a, b) with a possibly infinite. */
  function ExtMax(a: ExtReal, b: real): (r: ExtReal)
    ensures a.PosInf? <==> r.PosInf?
    ensures r.Fin? ==> r.v >= b && (a.Fin? ==> r.v >= a.v)
    ensures r.Fin? ==> r.v == b || (a.Fin? && r.v == a.v)
  {
    match a
    case PosInf => PosInf
    case Fin(u) => if u >= b then a else Fin(b)
    case NegInf => Fin(b)
  }

  /** Python's abs() on a float. */
  function Abs(x: real): (a: real)
    ensures a >= 0.0 && (a == x || a == -x)
  {
    if x < 0.0 then -x else x
  }
}

=== FILE: old_tracking_test.dfy ===
/** The module-level servo tracker of TrackingTests/old_versions/tracking_test.py: a
    calibration sweep returning the yaw centre and a yaw range, the yaw-to-pulse map,
    the guarded serial send, and one iteration of main's loop.  The serial line is the
    log of values written to it. */
module OldTrackingTest {
  import opened Numerics
  import opened Planar
  import opened Pid
  import opened ServoSweep
  import opened ServoTracking

  const NoneDivision: string := "unsupported operand type(s) for /: 'NoneType' and 'float'"

  /** send_us_val: the serial line receives v only when 1000 <= v <= 2000. */
  function SendUsVal(v: real, log: seq<real>): (log': seq<real>)
    ensures InRange(v) ==> log' == log + [v]
    ensures !InRange(v) ==> log' == log
  {
    assert [v][..0] == [];
    log + SendLog([v])
  }

  /** abs(min_yaw) + abs(max_yaw), with abs of an infinity infinite. */
  function AbsSum(lo: ExtReal, hi: ExtReal): (r: ExtReal)
    ensures lo.Fin? && hi.Fin? ==> r.Fin? && r.v >= 0.0
    ensures !(lo.Fin? && hi.Fin?) ==> r == PosInf
  {
    if lo.Fin? && hi.Fin? then Fin(Abs(lo.v) + Abs(hi.v)) else PosInf
  }

  /** The yaw range that calibrate_yaw returns for the samples ys: with at least one
      sample, every sample is in [0, 360), so it is min + max; it is at least the span
      max - min and is the span only when the minimum is 0.  Without samples both
      extremes stay infinite and the range is infinite. */
  lemma AbsRange(ys: seq<real>)
    requires forall k :: 0 <= k < |ys| ==> 0.0 <= ys[k] < 360.0
    ensures ys == [] ==> AbsSum(FoldMin(PosInf, ys), FoldMax(NegInf, ys)) == PosInf
    ensures ys != [] ==>
      var lo, hi := FoldMin(PosInf, ys), FoldMax(NegInf, ys);
      lo.Fin? && hi.Fin? && 0.0 <= lo.v <= hi.v < 360.0 &&
      AbsSum(lo, hi) == Fin(lo.v + hi.v) && AbsSum(lo, hi).v >= hi.v - lo.v &&
      (AbsSum(lo, hi).v == hi.v - lo.v <==> lo.v == 0.0)
  {
    FoldExtremes(PosInf, NegInf, ys);
    if ys != [] {
      var lo, hi := FoldMin(PosInf, ys), FoldMax(NegInf, ys);
      FoldAttained(ys);
      assert 0.0 <= lo.v;
      assert hi.v < 360.0;
    }
  }

  /** The folded extremes of a non-empty sequence are among its elements. */
  lemma {:induction false} FoldAttained(ys: seq<real>)
    requires ys != []
    ensures FoldMin(PosInf, ys).Fin? && FoldMin(PosInf, ys).v in ys
    ensures FoldMax(NegInf, ys).Fin? && FoldMax(NegInf, ys).v in ys
    decreases |ys|
  {
    var init := ys[..|ys| - 1];
    if init != [] {
      FoldAttained(init);
      assert forall y :: y in init ==> y in ys;
    } else {
      assert FoldMin(PosInf, init) == PosInf;
      assert FoldMax(NegInf, init) == NegInf;
    }
  }

  /** calibrate_yaw: send 1500, take the tracker's yaw as the centre, then for each
      cycle send every value of range(lo, hi + 1, (hi - lo) // samples) and fold the
      wrapped yaw read after each into local extremes; return the centre and
      abs(min) + abs(max).  With at least one cycle, a zero sample count or a zero step
      raises after the centring pulse. */
  method CalibrateYaw(log0: seq<real>, centreReading: real, readings: nat -> real,
                      usLo: int, usHi: int, numCycles: int, samplesPerCycle: int)
    returns (r: Result<(real, ExtReal)>, log: seq<real>)
    ensures numCycles > 0 && CycleValues(usLo, usHi, samplesPerCycle).Failure? ==>
      r == Failure(CycleValues(usLo, usHi, samplesPerCycle).error) && log == log0 + [1500.0]
    ensures !(numCycles > 0 && CycleValues(usLo, usHi, samplesPerCycle).Failure?) ==>
      var sweep := if numCycles > 0 then Repeat(CycleValues(usLo, usHi, samplesPerCycle).value, numCycles) else [];
      var ys := SampleYaws(true, readings, |sweep|);
      log == log0 + [1500.0] + SendLog(sweep) &&
      r == Success((centreReading, AbsSum(FoldMin(PosInf, ys), FoldMax(NegInf, ys))))
  {
    log := SendUsVal(1500.0, log0);
    var yawCentre := centreReading;
    var minYaw, maxYaw := PosInf, NegInf;
    if numCycles > 0 {
      var values := CycleValues(usLo, usHi, samplesPerCycle);
      if values.Failure? {
        return Failure(values.error), log;
      }
      log, minYaw, maxYaw := Sweep(values.value, numCycles, readings, log);
    } else {
      assert SendLog([]) == [] && SampleYaws(true, readings, 0) == [];
    }
    return Success((yawCentre, AbsSum(minYaw, maxYaw))), log;
  }

  /** The two loops of calibrate_yaw: count passes over one cycle's values, from
      infinite extremes. */
  method Sweep(cycle: seq<real>, count: nat, readings: nat -> real, log0: seq<real>)
    returns (log: seq<real>, minYaw: ExtReal, maxYaw: ExtReal)
    ensures log == log0 + SendLog(Repeat(cycle, count))
    ensures minYaw == FoldMin(PosInf, SampleYaws(true, readings, |Repeat(cycle, count)|))
    ensures maxYaw == FoldMax(NegInf, SampleYaws(true, readings, |Repeat(cycle, count)|))
  {
    log, minYaw, maxYaw := log0, PosInf, NegInf;
    assert SendLog([]) == [] && SampleYaws(true, readings, 0) == [];
    var c, n := 0, 0;
    while c < count
      invariant 0 <= c <= count && n == |Repeat(cycle, c)|
      invariant log == log0 + SendLog(Repeat(cycle, c))
      invariant minYaw == FoldMin(PosInf, SampleYaws(true, readings, n))
      invariant maxYaw == FoldMax(NegInf, SampleYaws(true, readings, n))
    {
      log, minYaw, maxYaw, n := SweepCycle(cycle, readings, log0, Repeat(cycle, c), log, minYaw, maxYaw, n);
      assert Repeat(cycle, c + 1) == Repeat(cycle, c) + cycle;
      c := c + 1;
    }
  }

  /** The inner loop of calibrate_yaw over one cycle's values, continuing the send log
      of the earlier values, the extremes and the sample count. */
  method SweepCycle(cycle: seq<real>, readings: nat -> real, ghost log0: seq<real>, ghost done: seq<real>,
                    logIn: seq<real>, minIn: ExtReal, maxIn: ExtReal, n0: nat)
    returns (log: seq<real>, minYaw: ExtReal, maxYaw: ExtReal, n: nat)
    requires n0 == |done| && logIn == log0 + SendLog(done)
    requires minIn == FoldMin(PosInf, SampleYaws(true, readings, n0))
    requires maxIn == FoldMax(NegInf, SampleYaws(true, readings, n0))
    ensures n == n0 + |cycle| && log == log0 + SendLog(done + cycle)
    ensures minYaw == FoldMin(PosInf, SampleYaws(true, readings, n))
    ensures maxYaw == FoldMax(NegInf, SampleYaws(true, readings, n))
  {
    log, minYaw, maxYaw, n := logIn, minIn, maxIn, n0;
    ExtremesFold(readings, n0);
    var j := 0;
    assert done + cycle[..0] == done;
    while j < |cycle|
      invariant 0 <= j <= |cycle| && n == n0 + j
      invariant log == log0 + SendLog(done + cycle[..j])
      invariant (minYaw, maxYaw) == Extremes(readings, n)
    {
      LogStep(log0, done, cycle, j);
      log := SendUsVal(cycle[j], log);
      var yaw := Normalise(true, readings(n));
      minYaw, maxYaw := ExtMin(minYaw, yaw), ExtMax(maxYaw, yaw);
      n := n + 1;
      j := j + 1;
    }
    assert cycle[..j] == cycle;
    ExtremesFold(readings, n);
  }

  /** Sending cycle[j] continues the send log of the values before it. */
  lemma LogStep(log0: seq<real>, done: seq<real>, cycle: seq<real>, j: nat)
    requires j < |cycle|
    ensures SendUsVal(cycle[j], log0 + SendLog(done + cycle[..j])) == log0 + SendLog(done + cycle[..j + 1])
  {
    SendStep(1500.0, done, cycle, j);
  }

  /** The extremes calibrate_yaw holds after n wrapped samples, counted by samples. */
  function Extremes(readings: nat -> real, n: nat): (ExtReal, ExtReal)
  {
    if n == 0 then (PosInf, NegInf)
    else
      var e := Extremes(readings, n - 1);
      var yaw := Normalise(true, readings(n - 1));
      (ExtMin(e.0, yaw), ExtMax(e.1, yaw))
  }

  /** Counting by samples agrees with folding the sequence of samples. */
  lemma {:induction false} ExtremesFold(readings: nat -> real, n: nat)
    ensures Extremes(readings, n)
      == (FoldMin(PosInf, SampleYaws(true, readings, n)), FoldMax(NegInf, SampleYaws(true, readings, n)))
  {
    if n > 0 {
      ExtremesFold(readings, n - 1);
      SampleStep(true, readings, n - 1, PosInf, NegInf);
    } else {
      assert SampleYaws(true, readings, 0) == [];
    }
  }

  /** The samples calibrate_yaw folds are all wrapped into [0, 360), so after a
      non-empty sweep both extremes are finite, ordered and within [0, 360). */
  lemma {:induction false} CalibrationSamplesWrapped(readings: nat -> real, n: nat)
    ensures forall k :: 0 <= k < n ==> 0.0 <= SampleYaws(true, readings, n)[k] < 360.0
    ensures n >= 1 ==> var e := Extremes(readings, n);
      e.0.Fin? && e.1.Fin? && 0.0 <= e.0.v <= e.1.v < 360.0
  {
    if n > 1 {
      CalibrationSamplesWrapped(readings, n - 1);
    }
  }

  /** map_yaw_2_us(target_yaw, yaw_center, yaw_range): 1500 + target_yaw / yaw_range * 500.
      The target is a NumPy float, so a zero range gives an infinite or NaN pulse (`None`)
      rather than an exception; an infinite range gives the centre. */
  function MapYaw2Us(targetYaw: real, yawCentre: real, yawRange: ExtReal): (r: Option<real>)
    ensures r.None? <==> yawRange == Fin(0.0)
    ensures !yawRange.Fin? ==> r == Some(1500.0)
    ensures r.Some? && yawRange.Fin? ==> (r.value - 1500.0) * yawRange.v == targetYaw * 500.0
  {
    UsFor(targetYaw, yawRange, 1500.0, 500.0)
  }

  /** The centre argument is unused; a zero target gives 1500; with a finite non-zero
      range the pulse passes the send guard exactly when |target_yaw| <= |yaw_range|. */
  lemma MapYaw2UsFacts(t: real, c1: real, c2: real, r: ExtReal, w: real)
    requires w != 0.0
    ensures MapYaw2Us(t, c1, r) == MapYaw2Us(t, c2, r)
    ensures MapYaw2Us(0.0, c1, Fin(w)) == Some(1500.0)
    ensures InRange(MapYaw2Us(t, c1, Fin(w)).value) <==> -1.0 <= t / w <= 1.0
  {
    var q := t / w;
    assert MapYaw2Us(t, c1, Fin(w)).value == 1500.0 + q * 500.0;
  }

  /** One iteration of main's loop with the basis heading given: the angle from the
      heading to the planar vector from basis to target is mapped to a pulse; the PID is
      updated with that pulse and its output discarded; the pulse goes through the send
      guard.  An undefined angle raises before anything is sent; a zero range gives a
      non-finite pulse that the guard rejects, so nothing is sent (what the PID then holds
      is not stated: its fields are reals). */
  method MainStep(m: Maths, pid: PID, basisPos: Vec3, yawBasis: Vec2, targetPoint: Vec3,
                  yawCentre: real, yawRange: ExtReal, log0: seq<real>)
    returns (outcome: Result<()>, log: seq<real>)
    modifies pid
    ensures var angle := VecAngDelta(m, yawBasis, CalcVec(basisPos, targetPoint));
      (angle.None? ==>
         outcome == Failure(NoneDivision) && log == log0 &&
         pid.prevError == old(pid.prevError) && pid.iError == old(pid.iError)) &&
      (angle.Some? && yawRange == Fin(0.0) ==> outcome == Success(()) && log == log0) &&
      (angle.Some? && yawRange != Fin(0.0) ==>
        var us := MapYaw2Us(angle.value, yawCentre, yawRange).value;
        outcome == Success(()) && log == SendUsVal(us, log0) &&
        pid.prevError == us && pid.iError == old(pid.iError) + us)
  {
    var targetVec := CalcVec(basisPos, targetPoint);
    var yawTarget := VecAngDelta(m, yawBasis, targetVec);
    if yawTarget.None? {
      return Failure(NoneDivision), log0;
    }
    var us := MapYaw2Us(yawTarget.value, yawCentre, yawRange);
    if us.None? {
      return Success(()), log0;
    }
    var control := pid.Update(us.value);
    log := SendUsVal(us.value, log0);
    return Success(()), log;
  }
}

=== FILE: pid.dfy ===
/** The discrete PID controller of TrackingTests/PID.py: fixed gains, the previous
    error and the running sum of errors, updated once per call. */
module Pid {

  /** The sum of a sequence of errors, the integral term's state after those errors. */
  function Sum(es: seq<real>): real
  {
    if es == [] then 0.0 else Sum(es[..|es| - 1]) + es[|es| - 1]
  }

  /** The control for error e given the state before the call:
      p * e + d * (e - prev) + i * (integral + e). */
  function Control(p: real, i: real, d: real, prev: real, integral: real, e: real): real
  {
    p * e + d * (e - prev) + i * (integral + e)
  }

  class PID {
    const pGain: real
    const iGain: real
    const dGain: real
    var prevError: real
    var iError: real

    /** A new controller has no history: both error terms are zero. */
    constructor(pGain: real, iGain: real, dGain: real)
      ensures this.pGain == pGain && this.iGain == iGain && this.dGain == dGain
      ensures prevError == 0.0 && iError == 0.0
    {
      this.pGain := pGain;
      this.iGain := iGain;
      this.dGain := dGain;
      prevError := 0.0;
      iError := 0.0;
    }

    /** update(error): the integral grows by the error, the error becomes the previous
        error, and the control combines the three terms. */
    method Update(error: real) returns (control: real)
      modifies this
      ensures iError == old(iError) + error
      ensures prevError == error
      ensures control == Control(pGain, iGain, dGain, old(prevError), old(iError), error)
    {
      var dError := error - prevError;
      iError := iError + error;
      control := pGain * error + dGain * dError + iGain * iError;
      prevError := error;
    }

    /** A run of updates, one per error in order: afterwards the integral has grown by
        the sum of the errors, the previous error is the last one, and each control is
        the one its step computes from the state the earlier steps left. */
    method UpdateAll(errors: seq<real>) returns (controls: seq<real>)
      modifies this
      ensures |controls| == |errors|
      ensures iError == old(iError) + Sum(errors)
      ensures errors != [] ==> prevError == errors[|errors| - 1]
      ensures errors == [] ==> prevError == old(prevError)
      ensures forall k :: 0 < k < |errors| ==>
        controls[k] == Control(pGain, iGain, dGain, errors[k - 1], old(iError) + Sum(errors[..k]), errors[k])
      ensures errors != [] ==>
        controls[0] == Control(pGain, iGain, dGain, old(prevError), old(iError), errors[0])
    {
      controls := [];
      var n := 0;
      while n < |errors|
        invariant 0 <= n <= |errors|
        invariant iError == old(iError) + Sum(errors[..n])
        invariant n > 0 ==> prevError == errors[n - 1]
        invariant n == 0 ==> prevError == old(prevError)
        invariant Runs(pGain, iGain, dGain, old(prevError), old(iError), errors, n, controls)
      {
        assert Sum(errors[..n + 1]) == Sum(errors[..n]) + errors[n] by {
          assert errors[..n + 1][..n] == errors[..n];
        }
        ghost var before := controls;
        var c := Update(errors[n]);
        RunsStep(pGain, iGain, dGain, old(prevError), old(iError), errors, n, before, c);
        controls := controls + [c];
        n := n + 1;
      }
      assert errors[..n] == errors;
    }
  }

  /** The first n controls of a run over errors from the state (prev0, integral0):
      each is the control its step computes from the state the earlier steps left. */
  ghost predicate Runs(p: real, i: real, d: real, prev0: real, integral0: real,
                       errors: seq<real>, n: nat, controls: seq<real>)
  {
    n <= |errors| && |controls| == n &&
    (forall k :: 0 < k < n ==>
      controls[k] == Control(p, i, d, errors[k - 1], integral0 + Sum(errors[..k]), errors[k])) &&
    (n > 0 ==> controls[0] == Control(p, i, d, prev0, integral0, errors[0]))
  }

  /** Appending the control of step n to a run of n controls gives a run of n + 1. */
  lemma RunsStep(p: real, i: real, d: real, prev0: real, integral0: real,
                 errors: seq<real>, n: nat, controls: seq<real>, c: real)
    requires n < |errors| && Runs(p, i, d, prev0, integral0, errors, n, controls)
    requires c == Control(p, i, d, if n == 0 then prev0 else errors[n - 1], integral0 + Sum(errors[..n]), errors[n])
    ensures Runs(p, i, d, prev0, integral0, errors, n + 1, controls + [c])
  {
    var cs := controls + [c];
    assert forall k :: 0 <= k < n ==> cs[k] == controls[k];
    if n == 0 {
      assert Sum(errors[..0]) == 0.0 by {
        assert errors[..0] == [];
      }
    }
  }

  /** From a fresh controller the first control is (p + d + i) * e. */
  lemma FirstControl(p: real, i: real, d: real, e: real)
    ensures Control(p, i, d, 0.0, 0.0, e) == (p + d + i) * e
  {
  }

  /** A proportional-only controller ignores its history: with i = d = 0 the control is
      p * e whatever the previous error and the integral. */
  lemma ProportionalOnly(p: real, prev: real, integral: real, e: real)
    ensures Control(p, 0.0, 0.0, prev, integral, e) == p * e
  {
  }

  /** With constant error e from a fresh controller, the k-th control (from 0) is
      p * e + i * (k + 1) * e, plus d * e on the first step only. */
  lemma ConstantError(p: real, i: real, d: real, e: real, k: nat)
    ensures Sum(seq(k, _ => e)) == k as real * e
    ensures Control(p, i, d, if k == 0 then 0.0 else e, Sum(seq(k, _ => e)), e)
         == p * e + (if k == 0 then d * e else 0.0) + i * ((k + 1) as real * e)
  {
    SumConstant(e, k);
  }

  lemma {:induction false} SumConstant(e: real, k: nat)
    ensures Sum(seq(k, _ => e)) == k as real * e
  {
    if k > 0 {
      var s := seq(k, _ => e);
      assert s[..k - 1] == seq(k - 1, _ => e);
      SumConstant(e, k - 1);
    }
  }
}

=== FILE: planar.dfy ===
/** The planar vector helpers of dev/alternate/vec_math.py, TrackingTests/vec_math.py
    and TrackingTests/old_versions/vec_math.py: frame change to global coordinates,
    two-component difference vectors, the signed angle between two planar vectors
    (with and without the fold into [-90, 90]) and the heading of a planar vector. */
module Planar {
  import opened Numerics

  /** local_to_global: R * v + origin, so that the offset of the result from the
      origin is the rotated local vector. */
  function LocalToGlobal(v: Vec3, r: Mat3, origin: Vec3): (res: Vec3)
    ensures Sub(res, origin) == MatVec(r, v)
  {
    Add(MatVec(r, v), origin)
  }

  /** The local origin maps to the global origin point. */
  lemma LocalToGlobalOrigin(r: Mat3, origin: Vec3)
    ensures LocalToGlobal(Zero3, r, origin) == origin
  {
  }

  /** Differences of mapped points are the rotated differences: the translation cancels. */
  lemma LocalToGlobalDifference(v: Vec3, w: Vec3, r: Mat3, origin: Vec3)
    ensures Sub(LocalToGlobal(v, r, origin), LocalToGlobal(w, r, origin)) == MatVec(r, Sub(v, w))
  {
  }

  function Neg2(v: Vec2): Vec2 { Vec2(-v.x, -v.y) }

  /** calc_yaw_vec: (cos, sin) of the angle in degrees, a unit vector. */
  function CalcYawVec(m: Maths, angle: real): (r: Vec2)
    ensures PythagorasLaw(m) ==> Dot2(r, r) == 1.0
  {
    Vec2(m.cos(Radians(angle)), m.sin(Radians(angle)))
  }

  /** calc_pitch_vec: (sin, cos) of the angle in degrees, the yaw vector with its
      components swapped, and so also a unit vector. */
  function CalcPitchVec(m: Maths, angle: real): (r: Vec2)
    ensures r == Vec2(CalcYawVec(m, angle).y, CalcYawVec(m, angle).x)
    ensures PythagorasLaw(m) ==> Dot2(r, r) == 1.0
  {
    Vec2(m.sin(Radians(angle)), m.cos(Radians(angle)))
  }

  /** calc_azi_vec(a, b): the (y, x) components of a - b, in that swapped order, so
      that b displaced by it (swapped back) reaches a in x and y. */
  function CalcAziVec(a: Vec3, b: Vec3): (r: Vec2)
    ensures b.x + r.y == a.x && b.y + r.x == a.y
    ensures r == Vec2(CalcVec(a, b).y, CalcVec(a, b).x)
  {
    Vec2(a.y - b.y, a.x - b.x)
  }

  /** calc_elv_vec(a, b): the (y, z) components of a - b: b displaced by it reaches a
      in y and z. */
  function CalcElvVec(a: Vec3, b: Vec3): (r: Vec2)
    ensures b.y + r.x == a.y && b.z + r.y == a.z
    ensures r == Zero2 <==> a.y == b.y && a.z == b.z
  {
    Vec2(a.y - b.y, a.z - b.z)
  }

  /** calc_vec(a, b): the (x, y) components of a - b; any third component is ignored.
      b displaced by it reaches a in x and y. */
  function CalcVec(a: Vec3, b: Vec3): (r: Vec2)
    ensures b.x + r.x == a.x && b.y + r.y == a.y
    ensures r == Zero2 <==> a.x == b.x && a.y == b.y
  {
    Vec2(a.x - b.x, a.y - b.y)
  }

  /** Each difference vector is zero from a point to itself, reverses sign when the
      points swap, and reads the components of the 3-D difference a - b. */
  lemma DifferenceVectors(a: Vec3, b: Vec3)
    ensures CalcAziVec(a, a) == Zero2 && CalcElvVec(a, a) == Zero2 && CalcVec(a, a) == Zero2
    ensures CalcAziVec(b, a) == Neg2(CalcAziVec(a, b))
    ensures CalcElvVec(b, a) == Neg2(CalcElvVec(a, b))
    ensures CalcVec(b, a) == Neg2(CalcVec(a, b))
    ensures CalcVec(a, b) == Vec2(Sub(a, b).x, Sub(a, b).y)
    ensures CalcElvVec(a, b) == Vec2(Sub(a, b).y, Sub(a, b).z)
  {
  }

  /** calc_vec ignores the third component of both points. */
  lemma CalcVecIgnoresZ(a: Vec3, b: Vec3, za: real, zb: real)
    ensures CalcVec(Vec3(a.x, a.y, za), Vec3(b.x, b.y, zb)) == CalcVec(a, b)
  {
  }

  /** The signed angle in radians before conversion: arccos of the normalised dot
      product, negated when the 2-D cross product is negative. */
  function SignedAngle(m: Maths, v1: Vec2, v2: Vec2, magnitudes: real): real
    requires magnitudes != 0.0
  {
    var angle := m.acos(Dot2(v1, v2) / magnitudes);
    if Cross2(v1, v2) < 0.0 then -angle else angle
  }

  /** vec_ang_delta of dev/alternate/vec_math.py and TrackingTests/old_versions/vec_math.py:
      None when either magnitude is zero, otherwise the signed angle in degrees. */
  function VecAngDelta(m: Maths, v1: Vec2, v2: Vec2): (r: Option<real>)
    ensures r.None? <==> Norm2(m, v1) == 0.0 || Norm2(m, v2) == 0.0
  {
    var magnitude1 := Norm2(m, v1);
    var magnitude2 := Norm2(m, v2);
    if magnitude1 == 0.0 || magnitude2 == 0.0 then None
    else Some(Degrees(SignedAngle(m, v1, v2, magnitude1 * magnitude2)))
  }

  /** With a true square root the result is None exactly when one of the vectors
      is the zero vector. */
  lemma VecAngDeltaZero(m: Maths, v1: Vec2, v2: Vec2)
    requires SqrtLaw(m)
    ensures VecAngDelta(m, v1, v2).None? <==> v1 == Zero2 || v2 == Zero2
  {
    Norm2Positive(m, v1);
    Norm2Positive(m, v2);
  }

  /** With arccos in [0, pi], the angle is at most 0 exactly on the clockwise side
      (negative cross product) and at least 0 otherwise, and it spans [-180, 180]. */
  lemma VecAngDeltaSign(m: Maths, v1: Vec2, v2: Vec2)
    requires AcosLaw(m)
    requires VecAngDelta(m, v1, v2).Some?
    ensures Cross2(v1, v2) < 0.0 ==> VecAngDelta(m, v1, v2).value <= 0.0
    ensures Cross2(v1, v2) >= 0.0 ==> VecAngDelta(m, v1, v2).value >= 0.0
    ensures -180.0 <= VecAngDelta(m, v1, v2).value <= 180.0
  {
    var mags := Norm2(m, v1) * Norm2(m, v2);
    var a := m.acos(Dot2(v1, v2) / mags);
    assert 0.0 <= a <= Pi;
    DegreesBounds(a);
    DegreesBounds(-a);
  }

  /** Swapping the two vectors negates the result whenever they are not parallel. */
  lemma VecAngDeltaSwap(m: Maths, v1: Vec2, v2: Vec2)
    requires VecAngDelta(m, v1, v2).Some? && Cross2(v1, v2) != 0.0
    ensures VecAngDelta(m, v2, v1).Some?
    ensures VecAngDelta(m, v2, v1).value == -VecAngDelta(m, v1, v2).value
  {
    var m1 := Norm2(m, v1);
    var m2 := Norm2(m, v2);
    assert m2 * m1 == m1 * m2;
    assert Dot2(v2, v1) == Dot2(v1, v2);
    assert Cross2(v2, v1) == -Cross2(v1, v2);
  }

  lemma DegreesBounds(a: real)
    ensures 0.0 <= a <= Pi ==> 0.0 <= Degrees(a) <= 180.0
    ensures -Pi <= a <= 0.0 ==> -180.0 <= Degrees(a) <= 0.0
  {
  }

  /** The fold of TrackingTests/vec_math.py into [-90, 90]: an angle above 90 becomes
      180 - angle, one below -90 becomes -180 - angle. */
  function Fold(a: real): (r: real)
    ensures -180.0 <= a <= 180.0 ==> -90.0 <= r <= 90.0
    ensures -90.0 <= a <= 90.0 ==> r == a
    ensures a > 90.0 ==> r == 180.0 - a
    ensures a < -90.0 ==> r == -180.0 - a
  {
    if a > 90.0 then 180.0 - a
    else if a < -90.0 then -180.0 - a
    else a
  }

  /** vec_ang_delta of TrackingTests/vec_math.py: None when the product of the two
      magnitudes is zero, otherwise the signed angle folded into [-90, 90]. */
  function VecAngDeltaFolded(m: Maths, v1: Vec2, v2: Vec2): (r: Option<real>)
    ensures r.None? <==> Norm2(m, v1) * Norm2(m, v2) == 0.0
  {
    var magnitudes := Norm2(m, v1) * Norm2(m, v2);
    if magnitudes == 0.0 then None
    else Some(Fold(Degrees(SignedAngle(m, v1, v2, magnitudes))))
  }

  /** The folded variant is the unfolded one followed by the fold: a zero product of
      magnitudes is the same test as either magnitude being zero. */
  lemma VecAngDeltaFoldedAgrees(m: Maths, v1: Vec2, v2: Vec2)
    ensures VecAngDeltaFolded(m, v1, v2).None? <==> VecAngDelta(m, v1, v2).None?
    ensures VecAngDelta(m, v1, v2).Some? ==>
      VecAngDeltaFolded(m, v1, v2).value == Fold(VecAngDelta(m, v1, v2).value)
  {
    var m1 := Norm2(m, v1);
    var m2 := Norm2(m, v2);
    if m1 * m2 == 0.0 {
      ZeroProduct(m1, m2);
    }
  }

  /** With arccos in [0, pi] the folded angle lies in [-90, 90]. */
  lemma VecAngDeltaFoldedRange(m: Maths, v1: Vec2, v2: Vec2)
    requires AcosLaw(m)
    requires VecAngDeltaFolded(m, v1, v2).Some?
    ensures -90.0 <= VecAngDeltaFolded(m, v1, v2).value <= 90.0
  {
    VecAngDeltaFoldedAgrees(m, v1, v2);
    VecAngDeltaSign(m, v1, v2);
  }

  /** vec_to_angle: the heading of a planar vector in degrees, reduced into [0, 360)
      and differing from the raw heading by a whole number of turns. */
  function VecToAngle(m: Maths, v: Vec2): (r: real)
    ensures 0.0 <= r < 360.0
    ensures ((Degrees(m.atan2(v.y, v.x)) - r) / 360.0).Floor as real
         == (Degrees(m.atan2(v.y, v.x)) - r) / 360.0
  {
    FMod(Degrees(m.atan2(v.y, v.x)), 360.0)
  }
}

=== FILE: pwm_sweeps.dfy ===
/** The bouncing PWM sweeps of SerialTests/angle_loop.py and SerialTests/random_pwm.py:
    a module-level loop moves the pulse width by a step in the current direction,
    turns round at 2000 and 1000, and writes every value to the serial line.  The loop
    runs until interrupted; here it runs for a given number of iterations, and the
    serial line is the log of values written. */
module PwmSweeps {

  /** The loop's variables: the pulse width, the direction flag (0 means up) and the step. */
  datatype Sweep = Sweep(pwm: int, flag: int, step: int)

  /** One iteration: move by step (up when flag is 0, down otherwise); at 2000 or above
      turn down, at 1000 or below turn up, growing the step by growth at each turn. */
  function Next(s: Sweep, growth: int): (t: Sweep)
    ensures t.pwm == if s.flag == 0 then s.pwm + s.step else s.pwm - s.step
    ensures t.pwm >= 2000 ==> t.flag == 1 && t.step == s.step + growth
    ensures t.pwm <= 1000 ==> t.flag == 0 && t.step == s.step + growth
    ensures 1000 < t.pwm < 2000 ==> t.flag == s.flag && t.step == s.step
  {
    var pwm := if s.flag == 0 then s.pwm + s.step else s.pwm - s.step;
    if pwm >= 2000 then Sweep(pwm, 1, s.step + growth)
    else if pwm <= 1000 then Sweep(pwm, 0, s.step + growth)
    else Sweep(pwm, s.flag, s.step)
  }

  /** The state after n iterations. */
  function Iterate(s: Sweep, growth: int, n: nat): Sweep
  {
    if n == 0 then s else Next(Iterate(s, growth, n - 1), growth)
  }

  /** The values written in n iterations: the pulse width after each. */
  function Trace(s: Sweep, growth: int, n: nat): (vals: seq<int>)
    ensures |vals| == n
  {
    if n == 0 then [] else Trace(s, growth, n - 1) + [Iterate(s, growth, n).pwm]
  }

  /** The band the loop keeps the pulse width in: going up it is above 1000 - step and
      below 2000, going down above 1000 and below 2000 + step. */
  predicate Band(s: Sweep)
  {
    s.step > 0 &&
    (s.flag == 0 ==> 1000 - s.step < s.pwm < 2000) &&
    (s.flag != 0 ==> 1000 < s.pwm < 2000 + s.step)
  }

  /** An iteration from the band, with a step that does not shrink, stays in the band
      and writes a value strictly between 1000 - step and 2000 + step. */
  lemma BandPreserved(s: Sweep, growth: int)
    requires Band(s) && growth >= 0
    ensures Band(Next(s, growth))
    ensures 1000 - s.step < Next(s, growth).pwm < 2000 + s.step
    ensures Next(s, growth).step >= s.step
  {
  }

  /** Every state reached from the band stays in it, with a step never below the start. */
  lemma {:induction false} IterateInBand(s: Sweep, growth: int, n: nat)
    requires Band(s) && growth >= 0
    ensures Band(Iterate(s, growth, n)) && Iterate(s, growth, n).step >= s.step
  {
    if n > 0 {
      IterateInBand(s, growth, n - 1);
      BandPreserved(Iterate(s, growth, n - 1), growth);
    }
  }

  /** With no growth the step is the same after any number of iterations. */
  lemma {:induction false} StepConstant(s: Sweep, n: nat)
    ensures Iterate(s, 0, n).step == s.step
  {
    if n > 0 {
      StepConstant(s, n - 1);
    }
  }

  /** Every value written lies strictly between 1000 - step and 2000 + step for the
      step in force after it was written. */
  lemma {:induction false} TraceInBand(s: Sweep, growth: int, n: nat)
    requires Band(s) && growth >= 0
    ensures forall k :: 0 <= k < n ==>
      1000 - Iterate(s, growth, k + 1).step < Trace(s, growth, n)[k] < 2000 + Iterate(s, growth, k + 1).step
  {
    if n > 0 {
      TraceInBand(s, growth, n - 1);
      IterateInBand(s, growth, n - 1);
      BandPreserved(Iterate(s, growth, n - 1), growth);
      assert Trace(s, growth, n)[..n - 1] == Trace(s, growth, n - 1);
    }
  }

  /** angle_loop.py starts at 1500 going up with step 3. */
  const AngleLoopStart := Sweep(1500, 0, 3)

  /** random_pwm.py starts at 1000 going up with step 5. */
  const RandomPwmStart := Sweep(1000, 0, 5)

  /** angle_loop.py: the step stays 3 (its growth is commented out), so every value
      written lies in [998, 2002], that is [1000 - step + 1, 2000 + step - 1]. */
  lemma AngleLoopBounds(n: nat)
    ensures Iterate(AngleLoopStart, 0, n).step == 3
    ensures forall k :: 0 <= k < n ==> 998 <= Trace(AngleLoopStart, 0, n)[k] <= 2002
  {
    StepConstant(AngleLoopStart, n);
    TraceInBand(AngleLoopStart, 0, n);
    forall k | 0 <= k < n
      ensures 998 <= Trace(AngleLoopStart, 0, n)[k] <= 2002
    {
      StepConstant(AngleLoopStart, k + 1);
    }
  }

  /** random_pwm.py: the step starts at 5 and never decreases, and every value written
      lies strictly between 1000 - step and 2000 + step for the current step. */
  lemma RandomPwmBounds(n: nat)
    ensures Iterate(RandomPwmStart, 5, n).step >= 5
    ensures n > 0 ==> Iterate(RandomPwmStart, 5, n).step >= Iterate(RandomPwmStart, 5, n - 1).step
    ensures forall k :: 0 <= k < n ==>
      1000 - Iterate(RandomPwmStart, 5, k + 1).step < Trace(RandomPwmStart, 5, n)[k] < 2000 + Iterate(RandomPwmStart, 5, k + 1).step
  {
    IterateInBand(RandomPwmStart, 5, n);
    TraceInBand(RandomPwmStart, 5, n);
    if n > 0 {
      IterateInBand(RandomPwmStart, 5, n - 1);
      BandPreserved(Iterate(RandomPwmStart, 5, n - 1), 5);
    }
  }

  /** The step after n iterations of random_pwm.py is 5 more for every turn so far. */
  function Turns(s: Sweep, growth: int, n: nat): nat
  {
    if n == 0 then 0
    else
      var t := Iterate(s, growth, n).pwm;
      Turns(s, growth, n - 1) + (if t >= 2000 || t <= 1000 then 1 else 0)
  }

  lemma {:induction false} StepCountsTurns(n: nat)
    ensures Iterate(RandomPwmStart, 5, n).step == 5 + 5 * Turns(RandomPwmStart, 5, n)
  {
    if n > 0 {
      StepCountsTurns(n - 1);
    }
  }

  /** The loop of angle_loop.py, interrupted after the given number of iterations. */
  method AngleLoop(iterations: nat) returns (sent: seq<int>)
    ensures sent == Trace(AngleLoopStart, 0, iterations)
  {
    var pwm, flag, step := 1500, 0, 3;
    sent := [];
    var k := 0;
    while k < iterations
      invariant 0 <= k <= iterations
      invariant Sweep(pwm, flag, step) == Iterate(AngleLoopStart, 0, k)
      invariant sent == Trace(AngleLoopStart, 0, k)
    {
      if flag == 0 {
        pwm := pwm + step;
      } else {
        pwm := pwm - step;
      }
      if pwm >= 2000 {
        flag := 1;
      } else if pwm <= 1000 {
        flag := 0;
      }
      sent := sent + [pwm];
      k := k + 1;
    }
  }

  /** The loop of random_pwm.py, interrupted after the given number of iterations. */
  method RandomPwm(iterations: nat) returns (sent: seq<int>)
    ensures sent == Trace(RandomPwmStart, 5, iterations)
  {
    var pwm, flag, step := 1000, 0, 5;
    sent := [];
    var k := 0;
    while k < iterations
      invariant 0 <= k <= iterations
      invariant Sweep(pwm, flag, step) == Iterate(RandomPwmStart, 5, k)
      invariant sent == Trace(RandomPwmStart, 5, k)
    {
      if flag == 0 {
        pwm := pwm + step;
      } else {
        pwm := pwm - step;
      }
      if pwm >= 2000 {
        flag := 1;
        step := step + 5;
      } else if pwm <= 1000 {
        flag := 0;
        step := step + 5;
      }
      sent := sent + [pwm];
      k := k + 1;
    }
  }
}

=== FILE: remap.dfy ===
/** Linear re-mapping of one interval onto another, as the trackers use it to turn a
    geometric angle into a servo angle.  Two argument orders exist in the scripts:
    `num_to_range(num, inMin, inMax, outMin, outMax)` and, in dev/tracking.py,
    `num_to_range(inMin, inMax, outMin, outMax, inVal)` with the division done last. */
module Remap {

  /** num_to_range(num, inMin, inMax, outMin, outMax): the point of [outMin, outMax]
      at the same relative position as num in [inMin, inMax].  Python raises
      ZeroDivisionError when inMin == inMax; every caller passes distinct constants. */
  function NumToRange(num: real, inMin: real, inMax: real, outMin: real, outMax: real): (r: real)
    requires inMin != inMax
    ensures num == inMin ==> r == outMin
    ensures num == inMax ==> r == outMax
  {
    var t := (num - inMin) / (inMax - inMin);
    Ends(num, inMin, inMax, outMax - outMin);
    outMin + t * (outMax - outMin)
  }

  /** At the ends of the input interval the relative position is 0 and 1. */
  lemma Ends(num: real, inMin: real, inMax: real, w: real)
    requires inMin != inMax
    ensures num == inMin ==> (num - inMin) / (inMax - inMin) * w == 0.0
    ensures num == inMax ==> (num - inMin) / (inMax - inMin) * w == w
  {
    if num == inMax {
      var d := inMax - inMin;
      assert (num - inMin) / d == d / d;
      DivSelf(d);
    }
  }

  lemma DivSelf(d: real)
    requires d != 0.0
    ensures d / d == 1.0
  {
  }

  /** The map as a line through (inMin, outMin) with slope (outMax - outMin) / (inMax - inMin). */
  lemma NumToRangeSlope(x: real, inMin: real, inMax: real, outMin: real, outMax: real)
    requires inMin != inMax
    ensures NumToRange(x, inMin, inMax, outMin, outMax)
         == outMin + (x - inMin) * ((outMax - outMin) / (inMax - inMin))
  {
  }

  /** The value-last variant of dev/tracking.py: (inVal - inMin) * (outMax - outMin)
      / (inMax - inMin) + outMin. */
  function NumToRangeLast(inMin: real, inMax: real, outMin: real, outMax: real, inVal: real): real
    requires inMin != inMax
  {
    (inVal - inMin) * (outMax - outMin) / (inMax - inMin) + outMin
  }

  /** Both argument orders compute the same map. */
  lemma NumToRangeLastAgrees(inMin: real, inMax: real, outMin: real, outMax: real, inVal: real)
    requires inMin != inMax
    ensures NumToRangeLast(inMin, inMax, outMin, outMax, inVal)
         == NumToRange(inVal, inMin, inMax, outMin, outMax)
  {
    var d := inMax - inMin;
    assert (inVal - inMin) * (outMax - outMin) / d == (inVal - inMin) / d * (outMax - outMin);
  }

  /** Mapping back with the intervals swapped returns the original number. */
  lemma NumToRangeInverse(num: real, inMin: real, inMax: real, outMin: real, outMax: real)
    requires inMin != inMax && outMin != outMax
    ensures NumToRange(NumToRange(num, inMin, inMax, outMin, outMax), outMin, outMax, inMin, inMax) == num
  {
    var t := (num - inMin) / (inMax - inMin);
    var r := NumToRange(num, inMin, inMax, outMin, outMax);
    assert r - outMin == t * (outMax - outMin);
    assert (r - outMin) / (outMax - outMin) == t;
    assert t * (inMax - inMin) == num - inMin;
  }

  /** The map is affine: it carries a weighted mean of two inputs to the same weighted
      mean of their images. */
  lemma NumToRangeAffine(a: real, b: real, w: real, inMin: real, inMax: real, outMin: real, outMax: real)
    requires inMin != inMax
    ensures NumToRange(w * a + (1.0 - w) * b, inMin, inMax, outMin, outMax)
         == w * NumToRange(a, inMin, inMax, outMin, outMax)
          + (1.0 - w) * NumToRange(b, inMin, inMax, outMin, outMax)
  {
    var k := (outMax - outMin) / (inMax - inMin);
    NumToRangeSlope(w * a + (1.0 - w) * b, inMin, inMax, outMin, outMax);
    NumToRangeSlope(a, inMin, inMax, outMin, outMax);
    NumToRangeSlope(b, inMin, inMax, outMin, outMax);
    assert (w * a + (1.0 - w) * b - inMin) * k == w * ((a - inMin) * k) + (1.0 - w) * ((b - inMin) * k);
  }

  /** Inputs between inMin and inMax (in either order) land between outMin and outMax. */
  lemma NumToRangeBetween(num: real, inMin: real, inMax: real, outMin: real, outMax: real)
    requires inMin != inMax
    requires inMin <= num <= inMax || inMax <= num <= inMin
    ensures outMin <= outMax ==> outMin <= NumToRange(num, inMin, inMax, outMin, outMax) <= outMax
    ensures outMax <= outMin ==> outMax <= NumToRange(num, inMin, inMax, outMin, outMax) <= outMin
  {
    var t := (num - inMin) / (inMax - inMin);
    Fraction(num - inMin, inMax - inMin);
    Lerp(t, outMin, outMax);
  }

  /** The slope has the sign of (outMax - outMin) / (inMax - inMin): the map is strictly
      increasing when both intervals run the same way and strictly decreasing when
      they run opposite ways. */
  lemma NumToRangeMonotone(a: real, b: real, inMin: real, inMax: real, outMin: real, outMax: real)
    requires inMin != inMax && a < b
    ensures (inMin < inMax) == (outMin < outMax) && outMin != outMax ==>
      NumToRange(a, inMin, inMax, outMin, outMax) < NumToRange(b, inMin, inMax, outMin, outMax)
    ensures (inMin < inMax) != (outMin < outMax) && outMin != outMax ==>
      NumToRange(a, inMin, inMax, outMin, outMax) > NumToRange(b, inMin, inMax, outMin, outMax)
  {
    var k := (outMax - outMin) / (inMax - inMin);
    NumToRangeSlope(a, inMin, inMax, outMin, outMax);
    NumToRangeSlope(b, inMin, inMax, outMin, outMax);
    Shifted(b, a, inMin, k);
    if outMin != outMax {
      QuotientSign(outMax - outMin, inMax - inMin);
      ProductSign(b - a, k);
      Ordered(NumToRange(a, inMin, inMax, outMin, outMax), NumToRange(b, inMin, inMax, outMin, outMax), (b - a) * k);
    }
  }

  /** x / y lies in [0, 1] when x lies between 0 and y. */
  lemma Fraction(x: real, y: real)
    requires y != 0.0
    requires 0.0 <= x <= y || y <= x <= 0.0
    ensures 0.0 <= x / y <= 1.0
  {
    var q := x / y;
    assert q * y == x;
    if y > 0.0 {
      MulStrict(q, 1.0, y);
      MulStrict(0.0, q, y);
    } else {
      MulStrict(q, 1.0, -y);
      MulStrict(0.0, q, -y);
      assert q * -y == -x;
    }
  }

  /** lo + t * (hi - lo) with t in [0, 1] lies between lo and hi. */
  lemma Lerp(t: real, lo: real, hi: real)
    requires 0.0 <= t <= 1.0
    ensures lo <= hi ==> lo <= lo + t * (hi - lo) <= hi
    ensures hi <= lo ==> hi <= lo + t * (hi - lo) <= lo
  {
    if lo <= hi {
      PartOf(t, hi - lo, t * (hi - lo));
    } else {
      PartOf(t, lo - hi, t * (lo - hi));
      NegateFactor(t, lo, hi);
    }
  }

  /** A fraction t in [0, 1] of a non-negative w lies in [0, w]. */
  lemma PartOf(t: real, w: real, tw: real)
    requires 0.0 <= t <= 1.0 && w >= 0.0 && tw == t * w
    ensures 0.0 <= tw <= w
  {
    assert w - tw == (1.0 - t) * w;
    NonNegativeProduct(t, w);
    NonNegativeProduct(1.0 - t, w);
  }

  lemma Ordered(ra: real, rb: real, p: real)
    requires rb - ra == p
    ensures p > 0.0 ==> ra < rb
    ensures p < 0.0 ==> ra > rb
  {
  }

  lemma Shifted(b: real, a: real, c: real, k: real)
    ensures (b - c) * k - (a - c) * k == (b - a) * k
  {
  }

  lemma NegateFactor(t: real, lo: real, hi: real)
    ensures t * (hi - lo) == -(t * (lo - hi))
  {
  }

  lemma NonNegativeProduct(x: real, y: real)
    requires x >= 0.0 && y >= 0.0
    ensures x * y >= 0.0
  {
  }

  lemma MulStrict(x: real, y: real, n: real)
    requires n > 0.0
    ensures x <= y ==> x * n <= y * n
    ensures x < y ==> x * n < y * n
  {
  }

  lemma QuotientSign(x: real, y: real)
    requires x != 0.0 && y != 0.0
    ensures x / y > 0.0 <==> (x > 0.0) == (y > 0.0)
    ensures x / y != 0.0
  {
  }

  lemma ProductSign(x: real, y: real)
    requires x > 0.0 && y != 0.0
    ensures x * y > 0.0 <==> y > 0.0
    ensures x * y < 0.0 <==> y < 0.0
  {
  }
}

=== FILE: servo_sweep.dfy ===
/** The pieces the hobby-servo trackers share: the microsecond range guard of
    send_us_val, Python's range() for the calibration sweep, the yaw extremes the
    sweep accumulates, and the microsecond mapping of set_yaw. */
module ServoSweep {
  import opened Numerics

  const IntZeroDivision: string := "integer division or modulo by zero"
  const ZeroStep: string := "range() arg 3 must not be zero"

  /** The guard of send_us_val: 1000 <= v <= 2000. */
  predicate InRange(v: real)
  {
    1000.0 <= v <= 2000.0
  }

  /** What the serial line receives when send_us_val is called with each of vals in
      turn: the values inside the guard, in order. */
  function SendLog(vals: seq<real>): (log: seq<real>)
    ensures |log| <= |vals|
    ensures forall k :: 0 <= k < |log| ==> InRange(log[k])
  {
    if vals == [] then []
    else SendLog(vals[..|vals| - 1]) + (if InRange(vals[|vals| - 1]) then [vals[|vals| - 1]] else [])
  }

  /** us_val after send_us_val is called with each of vals, starting from u0: the last
      value inside the guard, or u0 when there is none. */
  function LastSent(u0: real, vals: seq<real>): (u: real)
    ensures SendLog(vals) == [] ==> u == u0
    ensures SendLog(vals) != [] ==> u == SendLog(vals)[|SendLog(vals)| - 1]
  {
    if vals == [] then u0
    else if InRange(vals[|vals| - 1]) then vals[|vals| - 1]
    else LastSent(u0, vals[..|vals| - 1])
  }

  /** The send log of a concatenation is the concatenation of the send logs. */
  lemma {:induction false} SendLogAppend(a: seq<real>, b: seq<real>)
    ensures SendLog(a + b) == SendLog(a) + SendLog(b)
    decreases |b|
  {
    if b != [] {
      var b' := b[..|b| - 1];
      assert (a + b)[..|a + b| - 1] == a + b';
      SendLogAppend(a, b');
    } else {
      assert a + b == a;
    }
  }

  /** Python range(start, stop, step) for a non-zero step. */
  function PyRange(start: int, stop: int, step: int): (r: seq<int>)
    requires step != 0
    ensures r != [] ==> r[0] == start
    ensures forall k :: 0 <= k < |r| - 1 ==> r[k + 1] == r[k] + step
    ensures step > 0 ==> forall k :: 0 <= k < |r| ==> start <= r[k] < stop
    ensures step < 0 ==> forall k :: 0 <= k < |r| ==> stop < r[k] <= start
    ensures r == [] <==> (step > 0 && start >= stop) || (step < 0 && start <= stop)
    decreases if step > 0 then stop - start else start - stop
  {
    if (step > 0 && start < stop) || (step < 0 && start > stop) then [start] + PyRange(start + step, stop, step)
    else []
  }

  /** Python's floor division a // b. */
  function FloorDiv(a: int, b: int): (q: int)
    requires b != 0
    ensures b > 0 ==> q * b <= a < q * b + b
    ensures b < 0 ==> q * b >= a > q * b + b
  {
    if b > 0 then a / b else (-a) / (-b)
  }

  /** The microsecond values of one calibration cycle:
      range(lo, hi + 1, (hi - lo) // samples), or the error Python raises. */
  function CycleValues(lo: int, hi: int, samples: int): (r: Result<seq<real>>)
    ensures samples == 0 ==> r == Failure(IntZeroDivision)
    ensures samples != 0 && FloorDiv(hi - lo, samples) == 0 ==> r == Failure(ZeroStep)
  {
    if samples == 0 then Failure(IntZeroDivision)
    else
      var step := FloorDiv(hi - lo, samples);
      if step == 0 then Failure(ZeroStep)
      else
        var us := PyRange(lo, hi + 1, step);
        Success(seq(|us|, k requires 0 <= k < |us| => us[k] as real))
  }

  /** With the default arguments every script sweeps 1000, 1500, 2000 in each cycle. */
  lemma DefaultCycle()
    ensures CycleValues(1000, 2000, 2) == Success([1000.0, 1500.0, 2000.0])
  {
    assert FloorDiv(1000, 2) == 500;
    var us := PyRange(1000, 2001, 500);
    assert us == [1000, 1500, 2000] by {
      assert PyRange(2500, 2001, 500) == [];
      assert PyRange(2000, 2001, 500) == [2000];
      assert PyRange(1500, 2001, 500) == [1500, 2000];
    }
    var vals := seq(|us|, k requires 0 <= k < |us| => us[k] as real);
    assert vals == [1000.0, 1500.0, 2000.0];
  }

  /** A sweep whose ends are inside the guard sends every one of its values. */
  lemma CycleAllSent(lo: int, hi: int, samples: int)
    requires 1000 <= lo <= hi <= 2000 && samples > 0
    requires CycleValues(lo, hi, samples).Success?
    ensures SendLog(CycleValues(lo, hi, samples).value) == CycleValues(lo, hi, samples).value
  {
    var step := FloorDiv(hi - lo, samples);
    assert step > 0;
    var us := PyRange(lo, hi + 1, step);
    var vals := CycleValues(lo, hi, samples).value;
    assert |vals| == |us| && forall k :: 0 <= k < |vals| ==> vals[k] == us[k] as real;
    assert forall k :: 0 <= k < |vals| ==> InRange(vals[k]);
    AllInRangeSent(vals);
  }

  lemma {:induction false} AllInRangeSent(vals: seq<real>)
    requires forall k :: 0 <= k < |vals| ==> InRange(vals[k])
    ensures SendLog(vals) == vals
  {
    if vals != [] {
      AllInRangeSent(vals[..|vals| - 1]);
    }
  }

  /** c copies of one cycle's values, one after another. */
  function Repeat(s: seq<real>, c: nat): (r: seq<real>)
    ensures |r| == c * |s|
  {
    if c == 0 then [] else Repeat(s, c - 1) + s
  }

  /** The running min over a sequence of samples, as min(self.min_yaw, yaw) per sample. */
  function FoldMin(a: ExtReal, ys: seq<real>): ExtReal
  {
    if ys == [] then a else ExtMin(FoldMin(a, ys[..|ys| - 1]), ys[|ys| - 1])
  }

  /** The running max over a sequence of samples. */
  function FoldMax(a: ExtReal, ys: seq<real>): ExtReal
  {
    if ys == [] then a else ExtMax(FoldMax(a, ys[..|ys| - 1]), ys[|ys| - 1])
  }

  /** The extremes as the scripts keep them: both at their infinite seeds, or both
      finite with min <= max. */
  predicate Consistent(lo: ExtReal, hi: ExtReal)
  {
    (lo == PosInf && hi == NegInf) || (lo.Fin? && hi.Fin? && lo.v <= hi.v)
  }

  /** Folding samples into consistent extremes keeps them consistent; after at least one
      sample both are finite, and every sample lies between them. */
  lemma {:induction false} FoldExtremes(lo: ExtReal, hi: ExtReal, ys: seq<real>)
    requires Consistent(lo, hi)
    ensures Consistent(FoldMin(lo, ys), FoldMax(hi, ys))
    ensures ys != [] ==> FoldMin(lo, ys).Fin? && FoldMax(hi, ys).Fin?
    ensures ys != [] ==> forall k :: 0 <= k < |ys| ==> FoldMin(lo, ys).v <= ys[k] <= FoldMax(hi, ys).v
    ensures lo.Fin? ==> FoldMin(lo, ys).Fin? && FoldMin(lo, ys).v <= lo.v
    ensures hi.Fin? ==> FoldMax(hi, ys).Fin? && FoldMax(hi, ys).v >= hi.v
  {
    if ys != [] {
      var ys' := ys[..|ys| - 1];
      FoldExtremes(lo, hi, ys');
      if ys' != [] {
        forall k | 0 <= k < |ys|
          ensures FoldMin(lo, ys).v <= ys[k] <= FoldMax(hi, ys).v
        {
          if k < |ys'| {
            assert ys[k] == ys'[k];
          }
        }
      }
    }
  }

  /** max_yaw - min_yaw over the extended reals, for extremes that are consistent:
      the seeds give -inf - inf = -inf. */
  function RangeOf(lo: ExtReal, hi: ExtReal): (r: ExtReal)
    requires Consistent(lo, hi)
    ensures lo.Fin? ==> r.Fin? && r.v >= 0.0
    ensures lo == PosInf ==> r == NegInf
  {
    if lo.Fin? then Fin(hi.v - lo.v) else NegInf
  }

  /** The microsecond value of set_yaw: us_center + (yaw / yaw_range) * us_range.  The
      yaw is a NumPy float, so a zero range gives an infinite or NaN pulse (`None` here)
      rather than an exception, and an infinite range gives the centre. */
  function UsFor(yaw: real, yawRange: ExtReal, usCenter: real, usRange: real): (r: Option<real>)
    ensures r.None? <==> yawRange == Fin(0.0)
    ensures !yawRange.Fin? ==> r == Some(usCenter)
    ensures r.Some? && yawRange.Fin? ==> (r.value - usCenter) * yawRange.v == yaw * usRange
  {
    match yawRange
    case Fin(w) => if w == 0.0 then None else Some(usCenter + (yaw / w) * usRange)
    case _ => Some(usCenter)
  }

  /** With a range of w != 0, a zero yaw maps to the centre, and the mapped value passes
      the guard of send_us_val exactly when |yaw| <= |w| / 2 (with centre 1500 and range
      1000). */
  lemma UsForGuard(yaw: real, w: real)
    requires w != 0.0
    ensures UsFor(0.0, Fin(w), 1500.0, 1000.0) == Some(1500.0)
    ensures InRange(UsFor(yaw, Fin(w), 1500.0, 1000.0).value) <==> -0.5 <= yaw / w <= 0.5
  {
  }
}

=== FILE: servo_tracker.dfy ===
/** The hobby-servo yaw trackers: ServoTracker of TrackingTests/servo_tracker.py and
    TrackingTests/marker_tracking.py, and ServoControl of
    TrackingTests/tracking_test_3.py, whose run loop body is the same tracking step.
    A microsecond pulse width goes to the servo over a serial line (modelled as the
    log of values written), the yaw range comes from a calibration sweep, and a PID
    controller turns the measured angle error into a yaw increment. */
module ServoTracking {
  import opened Numerics
  import opened Planar
  import opened Pid
  import opened ServoSweep

  /** Which script a tracker is. */
  datatype Script = ServoTrackerScript | MarkerTracking | TrackingTest3

  /** A rigid body or marker as the motion-capture stream presents it. */
  datatype Pose = Pose(position: Vec3, rotation: real, lost: bool)

  /** What save_data writes for the three lists. */
  datatype SavedData = SavedData(yaws: seq<real>, errors: seq<Option<real>>, times: seq<real>)

  const NoneProduct: string := "unsupported operand type(s) for *: 'int' and 'NoneType'"
  const NoneNegation: string := "bad operand type for unary -: 'NoneType'"
  const EmptyIndex: string := "index 0 is out of bounds for axis 0 with size 0"
  const ListIndex: string := "list index out of range"
  const NoBodyLost: string := "'MoCap' object has no attribute 'body_lost'"

  /** Whether a script normalises each sampled yaw: servo_tracker.py guards its
      normalisation with -90 < yaw < -180, which never holds, so it keeps the sample as
      read; the other scripts take (yaw + 360) % 360, so their samples all lie in
      [0, 360). */
  function Wraps(script: Script): (r: bool)
    ensures r <==> script != ServoTrackerScript
    ensures r ==> forall yaw :: 0.0 <= Normalise(r, yaw) < 360.0
    ensures !r ==> forall yaw :: Normalise(r, yaw) == yaw
  {
    script != ServoTrackerScript
  }

  /** The sampled yaw as stored: wrapped into [0, 360), leaving one already there
      unchanged, or kept as read. */
  function Normalise(wrap: bool, yaw: real): (r: real)
    ensures wrap ==> 0.0 <= r < 360.0 && (0.0 <= yaw < 360.0 ==> r == yaw)
    ensures !wrap ==> r == yaw
  {
    if !wrap then yaw
    else if 0.0 <= yaw < 360.0 then
      FModWrap(yaw - 360.0, 360.0);
      FMod(yaw + 360.0, 360.0)
    else FMod(yaw + 360.0, 360.0)
  }

  /** The guard of servo_tracker.py's normalisation is unsatisfiable. */
  lemma GuardNeverHolds(yaw: real)
    ensures !(-90.0 < yaw && yaw < -180.0)
  {
  }

  /** The first n samples of a sweep, normalised: sample k is the k-th tracker reading. */
  function SampleYaws(wrap: bool, readings: nat -> real, n: nat): (ys: seq<real>)
    ensures |ys| == n
    ensures forall k :: 0 <= k < n ==> ys[k] == Normalise(wrap, readings(k))
  {
    seq(n, k requires 0 <= k => Normalise(wrap, readings(k)))
  }

  /** Python slicing s[k:], negative k counting from the end. */
  function SliceFrom<T>(s: seq<T>, k: int): (r: seq<T>)
    ensures 0 <= k <= |s| ==> r == s[k..]
    ensures k > |s| ==> r == []
    ensures k < 0 ==> r == s[if -k >= |s| then 0 else |s| + k..]
  {
    if k >= 0 then (if k >= |s| then [] else s[k..])
    else if -k >= |s| then s else s[|s| + k..]
  }

  /** Time stamps relative to the first, as save_data rewrites them. */
  function Shifted(ts: seq<real>): (r: seq<real>)
    requires ts != []
    ensures |r| == |ts| && r[0] == 0.0
    ensures forall k :: 0 <= k < |ts| ==> r[k] == ts[k] - ts[0]
  {
    seq(|ts|, k requires 0 <= k < |ts| => ts[k] - ts[0])
  }

  /** Sending the next value of a cycle extends the send log by that value's own log,
      and the last value sent is found by continuing from the previous one. */
  lemma SendStep(u0: real, done: seq<real>, cycle: seq<real>, j: nat)
    requires j < |cycle|
    ensures SendLog(done + cycle[..j + 1]) == SendLog(done + cycle[..j]) + SendLog([cycle[j]])
    ensures LastSent(u0, done + cycle[..j + 1]) == LastSent(LastSent(u0, done + cycle[..j]), [cycle[j]])
  {
    var prefix := done + cycle[..j];
    assert done + cycle[..j + 1] == prefix + [cycle[j]];
    SendLogAppend(prefix, [cycle[j]]);
    assert (prefix + [cycle[j]])[..|prefix|] == prefix;
    assert [cycle[j]][..0] == [];
  }

  /** One more sample folds into the running extremes as one more min and max. */
  lemma SampleStep(wrap: bool, readings: nat -> real, n: nat, min0: ExtReal, max0: ExtReal)
    ensures FoldMin(min0, SampleYaws(wrap, readings, n + 1))
         == ExtMin(FoldMin(min0, SampleYaws(wrap, readings, n)), Normalise(wrap, readings(n)))
    ensures FoldMax(max0, SampleYaws(wrap, readings, n + 1))
         == ExtMax(FoldMax(max0, SampleYaws(wrap, readings, n)), Normalise(wrap, readings(n)))
  {
    assert SampleYaws(wrap, readings, n + 1)[..n] == SampleYaws(wrap, readings, n);
  }

  class ServoTracker {
    const script: Script
    const m: Maths
    const pid: PID
    var us: real
    var sent: seq<real>
    var minYaw: ExtReal
    var maxYaw: ExtReal
    var yawRange: ExtReal
    var yaw: real
    var angleErr: Option<real>
    var yawLog: seq<real>
    var errorLog: seq<Option<real>>
    var timeLog: seq<real>

    /** The data lists stay equally long and the yaw extremes consistent. */
    predicate Valid()
      reads this
    {
      |yawLog| == |errorLog| == |timeLog| && Consistent(minYaw, maxYaw)
    }

    /** The constructor: a fresh PID with the script's gains, pulse width 1500, infinite
        extreme seeds, a zero range, zero yaw and error, empty lists, nothing sent. */
    constructor(script: Script, m: Maths)
      ensures Valid() && fresh(pid)
      ensures this.script == script && this.m == m
      ensures script == ServoTrackerScript ==> pid.pGain == 0.2 && pid.iGain == 0.0 && pid.dGain == 0.0
      ensures script == MarkerTracking ==> pid.pGain == 0.9 && pid.iGain == 0.01 && pid.dGain == 0.05
      ensures script == TrackingTest3 ==> pid.pGain == 0.2 && pid.iGain == 0.01 && pid.dGain == 0.05
      ensures pid.prevError == 0.0 && pid.iError == 0.0
      ensures us == 1500.0 && sent == []
      ensures minYaw == PosInf && maxYaw == NegInf && yawRange == Fin(0.0)
      ensures yaw == 0.0 && angleErr == Some(0.0)
      ensures yawLog == [] && errorLog == [] && timeLog == []
    {
      this.script := script;
      this.m := m;
      var p, i, d := 0.2, 0.0, 0.0;
      if script == MarkerTracking {
        p, i, d := 0.9, 0.01, 0.05;
      } else if script == TrackingTest3 {
        p, i, d := 0.2, 0.01, 0.05;
      }
      pid := new PID(p, i, d);
      us := 1500.0;
      sent := [];
      minYaw := PosInf;
      maxYaw := NegInf;
      yawRange := Fin(0.0);
      yaw := 0.0;
      angleErr := Some(0.0);
      yawLog := [];
      errorLog := [];
      timeLog := [];
    }

    /** send_us_val: a value inside [1000, 2000] is written and recorded; any other
        value changes nothing. */
    method SendUs(v: real)
      modifies this
      ensures sent == old(sent) + SendLog([v]) && us == LastSent(old(us), [v])
      ensures InRange(v) ==> sent == old(sent) + [v] && us == v
      ensures !InRange(v) ==> sent == old(sent) && us == old(us)
      ensures minYaw == old(minYaw) && maxYaw == old(maxYaw) && yawRange == old(yawRange)
      ensures yaw == old(yaw) && angleErr == old(angleErr)
      ensures yawLog == old(yawLog) && errorLog == old(errorLog) && timeLog == old(timeLog)
    {
      assert [v][..0] == [];
      if InRange(v) {
        sent := sent + [v];
        us := v;
      }
    }

    /** calibrate_yaw: centre the servo with 1500, then for each cycle send every value
        of range(lo, hi + 1, (hi - lo) // samples) and fold the normalised tracker yaw
        read after each into the running extremes; the range is max - min.  The
        extremes are seeded only by the constructor, so they accumulate across calls.
        With at least one cycle, a zero sample count or a zero step raises after the
        centring pulse. */
    method Calibrate(usLo: int, usHi: int, numCycles: int, samplesPerCycle: int, readings: nat -> real)
      returns (outcome: Result<()>)
      requires Valid()
      modifies this
      ensures Valid()
      ensures yaw == old(yaw) && angleErr == old(angleErr)
      ensures yawLog == old(yawLog) && errorLog == old(errorLog) && timeLog == old(timeLog)
      ensures numCycles > 0 && CycleValues(usLo, usHi, samplesPerCycle).Failure? ==>
        outcome == Failure(CycleValues(usLo, usHi, samplesPerCycle).error) &&
        sent == old(sent) + [1500.0] && us == 1500.0 &&
        minYaw == old(minYaw) && maxYaw == old(maxYaw) && yawRange == old(yawRange)
      ensures !(numCycles > 0 && CycleValues(usLo, usHi, samplesPerCycle).Failure?) ==>
        var sweep := if numCycles > 0 then Repeat(CycleValues(usLo, usHi, samplesPerCycle).value, numCycles) else [];
        var ys := SampleYaws(Wraps(script), readings, |sweep|);
        outcome == Success(()) &&
        sent == old(sent) + [1500.0] + SendLog(sweep) && us == LastSent(1500.0, sweep) &&
        minYaw == FoldMin(old(minYaw), ys) && maxYaw == FoldMax(old(maxYaw), ys) &&
        yawRange == RangeOf(minYaw, maxYaw)
    {
      SendUs(1500.0);
      if numCycles <= 0 {
        yawRange := RangeOf(minYaw, maxYaw);
        return Success(());
      }
      var values := CycleValues(usLo, usHi, samplesPerCycle);
      if values.Failure? {
        return Failure(values.error);
      }
      Sweep(values.value, numCycles, readings);
      yawRange := RangeOf(minYaw, maxYaw);
      return Success(());
    }

    /** The state a calibration sweep leaves alone. */
    ghost function Rest(): (real, Option<real>, ExtReal, seq<real>, seq<Option<real>>, seq<real>)
      reads this
    {
      (yaw, angleErr, yawRange, yawLog, errorLog, timeLog)
    }

    /** The outer loop of calibrate_yaw: count passes over the values of one cycle. */
    method Sweep(cycle: seq<real>, count: nat, readings: nat -> real)
      requires Valid()
      modifies this
      ensures Valid() && Rest() == old(Rest())
      ensures sent == old(sent) + SendLog(Repeat(cycle, count)) && us == LastSent(old(us), Repeat(cycle, count))
      ensures minYaw == FoldMin(old(minYaw), SampleYaws(Wraps(script), readings, |Repeat(cycle, count)|))
      ensures maxYaw == FoldMax(old(maxYaw), SampleYaws(Wraps(script), readings, |Repeat(cycle, count)|))
    {
      ghost var u0, sent0, min0, max0 := us, sent, minYaw, maxYaw;
      assert SampleYaws(Wraps(script), readings, 0) == [];
      var c, n := 0, 0;
      while c < count
        invariant 0 <= c <= count && n == |Repeat(cycle, c)|
        invariant sent == sent0 + SendLog(Repeat(cycle, c)) && us == LastSent(u0, Repeat(cycle, c))
        invariant minYaw == FoldMin(min0, SampleYaws(Wraps(script), readings, n))
        invariant maxYaw == FoldMax(max0, SampleYaws(Wraps(script), readings, n))
        invariant Valid() && Rest() == old(Rest())
      {
        n := SweepOnce(cycle, readings, n, u0, sent0, Repeat(cycle, c), min0, max0);
        assert Repeat(cycle, c + 1) == Repeat(cycle, c) + cycle;
        c := c + 1;
      }
    }

    /** One step of the calibration sweep: send a value, then fold the yaw read after it
        into the extremes. */
    method Record(v: real, sample: real)
      requires Valid()
      modifies this
      ensures Valid() && Rest() == old(Rest())
      ensures sent == old(sent) + SendLog([v]) && us == LastSent(old(us), [v])
      ensures minYaw == ExtMin(old(minYaw), sample) && maxYaw == ExtMax(old(maxYaw), sample)
    {
      SendUs(v);
      minYaw := ExtMin(minYaw, sample);
      maxYaw := ExtMax(maxYaw, sample);
    }

    /** The loop body of calibrate_yaw's inner loop, for the j-th value of the cycle and
        the n-th sample. */
    method SweepStep(cycle: seq<real>, j: nat, readings: nat -> real, n: nat, ghost u0: real,
                     ghost sent0: seq<real>, ghost done: seq<real>, ghost min0: ExtReal, ghost max0: ExtReal)
      requires Valid() && j < |cycle|
      requires sent == sent0 + SendLog(done + cycle[..j]) && us == LastSent(u0, done + cycle[..j])
      requires minYaw == FoldMin(min0, SampleYaws(Wraps(script), readings, n))
      requires maxYaw == FoldMax(max0, SampleYaws(Wraps(script), readings, n))
      modifies this
      ensures Valid() && Rest() == old(Rest())
      ensures sent == sent0 + SendLog(done + cycle[..j + 1]) && us == LastSent(u0, done + cycle[..j + 1])
      ensures minYaw == FoldMin(min0, SampleYaws(Wraps(script), readings, n + 1))
      ensures maxYaw == FoldMax(max0, SampleYaws(Wraps(script), readings, n + 1))
    {
      SendStep(u0, done, cycle, j);
      SampleStep(Wraps(script), readings, n, min0, max0);
      Record(cycle[j], Normalise(Wraps(script), readings(n)));
    }

    /** One pass of calibrate_yaw's inner loop over the values of one cycle, continuing
        the sample count n, the send log of the earlier values and the running extremes. */
    method SweepOnce(cycle: seq<real>, readings: nat -> real, n0: nat, ghost u0: real, ghost sent0: seq<real>,
                     ghost done: seq<real>, ghost min0: ExtReal, ghost max0: ExtReal) returns (n: nat)
      requires Valid() && n0 == |done|
      requires sent == sent0 + SendLog(done) && us == LastSent(u0, done)
      requires minYaw == FoldMin(min0, SampleYaws(Wraps(script), readings, n0))
      requires maxYaw == FoldMax(max0, SampleYaws(Wraps(script), readings, n0))
      modifies this
      ensures Valid() && Rest() == old(Rest()) && n == n0 + |cycle|
      ensures sent == sent0 + SendLog(done + cycle) && us == LastSent(u0, done + cycle)
      ensures minYaw == FoldMin(min0, SampleYaws(Wraps(script), readings, n))
      ensures maxYaw == FoldMax(max0, SampleYaws(Wraps(script), readings, n))
    {
      n := n0;
      var j := 0;
      assert done + cycle[..0] == done;
      while j < |cycle|
        invariant 0 <= j <= |cycle| && n == n0 + j
        invariant sent == sent0 + SendLog(done + cycle[..j]) && us == LastSent(u0, done + cycle[..j])
        invariant minYaw == FoldMin(min0, SampleYaws(Wraps(script), readings, n))
        invariant maxYaw == FoldMax(max0, SampleYaws(Wraps(script), readings, n))
        invariant Valid() && Rest() == old(Rest())
      {
        SweepStep(cycle, j, readings, n, u0, sent0, done, min0, max0);
        n := n + 1;
        j := j + 1;
      }
      assert cycle[..j] == cycle;
    }

    /** set_yaw: the control is added to the yaw, which is mapped to
        1500 + (yaw / yaw_range) * 1000 and sent through the guard.  A zero range makes
        the pulse infinite or NaN, which the guard rejects, so nothing is sent. */
    method SetYaw(control: real)
      requires Valid()
      modifies this
      ensures Valid()
      ensures yaw == old(yaw) + control
      ensures minYaw == old(minYaw) && maxYaw == old(maxYaw) && yawRange == old(yawRange)
      ensures angleErr == old(angleErr)
      ensures yawLog == old(yawLog) && errorLog == old(errorLog) && timeLog == old(timeLog)
      ensures UsFor(yaw, yawRange, 1500.0, 1000.0).None? ==> sent == old(sent) && us == old(us)
      ensures UsFor(yaw, yawRange, 1500.0, 1000.0).Some? ==>
        var v := UsFor(yaw, yawRange, 1500.0, 1000.0).value;
        sent == old(sent) + SendLog([v]) && us == LastSent(old(us), [v])
    {
      yaw := yaw + control;
      var v := UsFor(yaw, yawRange, 1500.0, 1000.0);
      if v.Some? {
        SendUs(v.value);
      }
    }

    /** The angle error of a tracking step: the folded signed angle from the tracker's
        heading (calc_yaw_vec of its rotation) to the planar vector from tracker to
        target. */
    function AngleError(target: Pose, tracker: Pose): Option<real>
    {
      VecAngDeltaFolded(m, CalcVec(target.position, tracker.position), CalcYawVec(m, tracker.rotation))
    }

    /** track (and the run loop body of tracking_test_3.py as evidently intended,
        reading the pose's lost flag): nothing happens when either body is lost.
        Otherwise the angle error is stored (not by tracking_test_3.py); an undefined
        error raises TypeError; a defined one makes exactly one PID update with
        direction * error and one set_yaw with its control.  marker_tracking.py and
        tracking_test_3.py negate the error, which is direction -1. */
    method Track(target: Pose, tracker: Pose, direction: real) returns (outcome: Result<()>)
      requires Valid()
      requires script != ServoTrackerScript ==> direction == -1.0
      modifies this, pid
      ensures Valid()
      ensures minYaw == old(minYaw) && maxYaw == old(maxYaw) && yawRange == old(yawRange)
      ensures yawLog == old(yawLog) && errorLog == old(errorLog) && timeLog == old(timeLog)
      ensures target.lost || tracker.lost ==>
        outcome == Success(()) && sent == old(sent) && us == old(us) && yaw == old(yaw) &&
        angleErr == old(angleErr) && pid.prevError == old(pid.prevError) && pid.iError == old(pid.iError)
      ensures !(target.lost || tracker.lost) ==>
        angleErr == (if script == TrackingTest3 then old(angleErr) else AngleError(target, tracker))
      ensures !(target.lost || tracker.lost) && AngleError(target, tracker).None? ==>
        outcome == Failure(if script == ServoTrackerScript then NoneProduct else NoneNegation) &&
        sent == old(sent) && us == old(us) && yaw == old(yaw) &&
        pid.prevError == old(pid.prevError) && pid.iError == old(pid.iError)
      ensures !(target.lost || tracker.lost) && AngleError(target, tracker).Some? ==>
        var e := direction * AngleError(target, tracker).value;
        pid.prevError == e && pid.iError == old(pid.iError) + e &&
        yaw == old(yaw) + Control(pid.pGain, pid.iGain, pid.dGain, old(pid.prevError), old(pid.iError), e) &&
        outcome == Success(()) &&
        (UsFor(yaw, yawRange, 1500.0, 1000.0).None? ==> sent == old(sent) && us == old(us)) &&
        (UsFor(yaw, yawRange, 1500.0, 1000.0).Some? ==>
          var v := UsFor(yaw, yawRange, 1500.0, 1000.0).value;
          sent == old(sent) + SendLog([v]) && us == LastSent(old(us), [v]))
    {
      if target.lost || tracker.lost {
        return Success(());
      }
      var err := AngleError(target, tracker);
      if script != TrackingTest3 {
        angleErr := err;
      }
      if err.None? {
        return Failure(if script == ServoTrackerScript then NoneProduct else NoneNegation);
      }
      var control := pid.Update(direction * err.value);
      SetYaw(control);
      return Success(());
    }

    /** The run loop body of tracking_test_3.py as written: it tests body_lost, which
        MoCap never defines, so the first pass raises AttributeError before any PID
        update or send, whatever the poses, and the loop catches only
        KeyboardInterrupt. */
    method LoopBodyAsWritten(target: Pose, tracker: Pose) returns (outcome: Result<()>)
      requires Valid() && script == TrackingTest3
      ensures outcome == Failure(NoBodyLost)
    {
      return Failure(NoBodyLost);
    }

    /** store_data: one entry appended to each list, so they stay equally long. */
    method StoreData(time: real)
      requires Valid() && script != TrackingTest3
      modifies this
      ensures Valid()
      ensures yawLog == old(yawLog) + [yaw] && errorLog == old(errorLog) + [angleErr] && timeLog == old(timeLog) + [time]
      ensures sent == old(sent) && us == old(us) && yaw == old(yaw) && angleErr == old(angleErr)
      ensures minYaw == old(minYaw) && maxYaw == old(maxYaw) && yawRange == old(yawRange)
    {
      yawLog := yawLog + [yaw];
      errorLog := errorLog + [angleErr];
      timeLog := timeLog + [time];
    }

    /** empty_data (servo_tracker.py): all three lists reset to empty. */
    method EmptyData()
      requires Valid() && script == ServoTrackerScript
      modifies this
      ensures Valid()
      ensures yawLog == [] && errorLog == [] && timeLog == []
      ensures sent == old(sent) && us == old(us) && yaw == old(yaw) && angleErr == old(angleErr)
      ensures minYaw == old(minYaw) && maxYaw == old(maxYaw) && yawRange == old(yawRange)
    {
      yawLog := [];
      errorLog := [];
      timeLog := [];
    }

    /** save_data (servo_tracker.py): each list loses its first int(len * pct / 100)
        samples and the time stamps are shifted to start at 0; an empty remainder makes
        the time shift raise. */
    method SaveTrimmed(excludePercent: int) returns (r: Result<SavedData>)
      requires Valid() && script == ServoTrackerScript
      ensures var k := Trunc((|timeLog| * excludePercent) as real / 100.0);
        (SliceFrom(timeLog, k) == [] ==> r == Failure(EmptyIndex)) &&
        (SliceFrom(timeLog, k) != [] ==>
          r == Success(SavedData(SliceFrom(yawLog, k), SliceFrom(errorLog, k), Shifted(SliceFrom(timeLog, k)))))
    {
      var exclude := Trunc((|timeLog| * excludePercent) as real / 100.0);
      var times := SliceFrom(timeLog, exclude);
      if times == [] {
        return Failure(EmptyIndex);
      }
      return Success(SavedData(SliceFrom(yawLog, exclude), SliceFrom(errorLog, exclude), Shifted(times)));
    }

    /** save_data (marker_tracking.py): the stored time stamps are rewritten relative to
        the first one; with no samples the first index raises. */
    method SaveShifted() returns (r: Result<()>)
      requires Valid() && script == MarkerTracking
      modifies this
      ensures Valid()
      ensures old(timeLog) == [] ==> r == Failure(ListIndex) && timeLog == old(timeLog)
      ensures old(timeLog) != [] ==> r == Success(()) && timeLog == Shifted(old(timeLog))
      ensures yawLog == old(yawLog) && errorLog == old(errorLog)
      ensures sent == old(sent) && us == old(us) && yaw == old(yaw) && angleErr == old(angleErr)
      ensures minYaw == old(minYaw) && maxYaw == old(maxYaw) && yawRange == old(yawRange)
    {
      if timeLog == [] {
        return Failure(ListIndex);
      }
      timeLog := Shifted(timeLog);
      return Success(());
    }

    /** The start of tracking_test_3.py's run: a calibration with the default
        arguments, then the pulse width is set to 1000 without sending it. */
    method BeginRun(readings: nat -> real) returns (outcome: Result<()>)
      requires Valid() && script == TrackingTest3
      modifies this
      ensures Valid()
      ensures us == 1000.0 && outcome == Success(())
      ensures var ys := SampleYaws(Wraps(script), readings, 6);
        sent == old(sent) + [1500.0, 1000.0, 1500.0, 2000.0, 1000.0, 1500.0, 2000.0] &&
        minYaw == FoldMin(old(minYaw), ys) && maxYaw == FoldMax(old(maxYaw), ys) &&
        yawRange == RangeOf(minYaw, maxYaw) && yawRange.Fin?
    {
      DefaultCycle();
      DefaultSweep();
      outcome := Calibrate(1000, 2000, 2, 2, readings);
      FoldExtremes(old(minYaw), old(maxYaw), SampleYaws(Wraps(script), readings, 6));
      us := 1000.0;
    }
  }

  /** The sweep of tracking_test_3.py's default calibration: two cycles of 1000, 1500
      and 2000, all of them sent. */
  lemma DefaultSweep()
    ensures var sweep := Repeat([1000.0, 1500.0, 2000.0], 2);
      sweep == [1000.0, 1500.0, 2000.0, 1000.0, 1500.0, 2000.0] && SendLog(sweep) == sweep
  {
    var c := [1000.0, 1500.0, 2000.0];
    assert Repeat(c, 1) == c by {
      assert Repeat(c, 0) == [];
    }
    assert Repeat(c, 2) == c + c;
    AllInRangeSent(c);
    SendLogAppend(c, c);
    assert c + c == [1000.0, 1500.0, 2000.0, 1000.0, 1500.0, 2000.0];
  }

  /** save_data's trimming with a percentage in [0, 100]: every list keeps the same
      number of samples, len - int(len * pct / 100), and the kept time stamps start
      at 0 and keep their spacing. */
  lemma SaveTrimmedShape(yaws: seq<real>, errors: seq<Option<real>>, times: seq<real>, pct: int)
    requires |yaws| == |errors| == |times| && 0 <= pct <= 100
    ensures var k := Trunc((|times| * pct) as real / 100.0);
      0 <= k <= |times| &&
      |SliceFrom(yaws, k)| == |SliceFrom(errors, k)| == |SliceFrom(times, k)| == |times| - k &&
      (k < |times| ==>
        Shifted(SliceFrom(times, k))[0] == 0.0 &&
        forall j :: 0 <= j < |times| - k ==> Shifted(SliceFrom(times, k))[j] == times[k + j] - times[k])
  {
    var x := (|times| * pct) as real / 100.0;
    assert 0.0 <= x <= |times| as real by {
      assert |times| * pct <= |times| * 100;
    }
  }
}

=== FILE: single_controller.dfy ===
/** The single-motor Dynamixel controllers of TrackingTests: dyna_controller.py,
    DynaController2.py and DynaController.py.  They share one shape and differ in
    three places: DynaController.py converts degrees on a 4096 scale and its get_pos
    reads an undefined name; dyna_controller.py calibrates with set_pos(180) while
    the other two write a raw goal of 180 ticks; and only dyna_controller.py has
    get_torque. */
module SingleController {
  import opened Numerics
  import opened Ticks
  import opened Bus

  /** Which of the three scripts a controller is. */
  datatype Variant = Tracking | Second | Original

  /** Ticks per turn of a variant's set_pos. */
  function FullScale(v: Variant): (n: int)
    ensures n == 4095 || n == 4096
    ensures n == 4096 <==> v == Original
  {
    if v == Original then 4096 else 4095
  }

  /** The TypeError of to_signed32(None): None & 0xffffffff. */
  const NoneAnd: string := "unsupported operand type(s) for &: 'NoneType' and 'int'"

  /** The NameError of DynaController.py's get_pos. */
  const UndefinedPresPos: string := "name 'pres_pos' is not defined"

  /** DynaController of a single servo with id `servoId`: dyna_controller.py takes the
      id as an argument, the other two always address id 1. */
  class DynaController {
    const variant: Variant
    const servoId: int
    var sent: seq<Transaction>

    constructor(variant: Variant, servoId: int)
      requires variant != Tracking ==> servoId == 1
      ensures this.variant == variant && this.servoId == servoId
      ensures sent == []
    {
      this.variant := variant;
      this.servoId := servoId;
      sent := [];
    }

    /** set_pos: one 4-byte goal-position write of int(pos * scale / 360) ticks. */
    method SetPos(pos: real)
      modifies this
      ensures sent == old(sent) + [Write(servoId, GoalPosition, 4, DegToTicksOn(pos, FullScale(variant)))]
    {
      var ticks := DegToTicksOn(pos, FullScale(variant));
      sent := sent + [Write(servoId, GoalPosition, 4, ticks)];
    }

    /** get_pos: the reading reinterpreted as signed 32-bit, then 360 * (t / 4095).
        There is no None guard, so a failed read raises in to_signed32; in
        DynaController.py the method always raises NameError. */
    method GetPos(reply: Reply) returns (pos: Result<real>)
      ensures variant == Original ==> pos == Failure(UndefinedPresPos)
      ensures variant != Original && ReadData(reply).None? ==> pos == Failure(NoneAnd)
      ensures variant != Original && ReadData(reply).Some? ==>
        pos == Success(TicksToDegrees(ToSigned32(reply.data)))
    {
      if variant == Original {
        return Failure(UndefinedPresPos);
      }
      var raw := ReadData(reply);
      if raw.None? {
        return Failure(NoneAnd);
      }
      var ticks := ToSigned32(raw.value);
      return Success(TicksToDegrees(ticks));
    }

    /** set_vel: one 4-byte goal-velocity write of int(vel * 41.7). */
    method SetVel(vel: real)
      modifies this
      ensures sent == old(sent) + [Write(servoId, GoalVelocity, 4, VelToRaw(vel))]
    {
      sent := sent + [Write(servoId, GoalVelocity, 4, VelToRaw(vel))];
    }

    /** get_vel: the signed 32-bit reading divided by 41.7; a failed read raises in
        to_signed32. */
    method GetVel(reply: Reply) returns (vel: Result<real>)
      ensures ReadData(reply).None? ==> vel == Failure(NoneAnd)
      ensures ReadData(reply).Some? ==> vel == Success(RawToVel(reply.data))
    {
      var raw := ReadData(reply);
      if raw.None? {
        return Failure(NoneAnd);
      }
      return Success(RawToVel(raw.value));
    }

    /** set_torque (not in DynaController.py): write int(torque), then True exactly when
        the readback equals it. */
    method SetTorque(torque: bool, reply: Reply) returns (ok: bool)
      requires variant != Original
      modifies this
      ensures sent == old(sent) + [Write(servoId, TorqueEnable, 1, if torque then 1 else 0)]
      ensures ok <==> ReadData(reply) == Some(if torque then 1 else 0)
    {
      var value := if torque then 1 else 0;
      sent := sent + [Write(servoId, TorqueEnable, 1, value)];
      ok := ReadData(reply) == Some(value);
    }

    /** get_torque (dyna_controller.py only): True exactly when the register reads 1. */
    method GetTorque(reply: Reply) returns (on: bool)
      requires variant == Tracking
      ensures on <==> reply.comm == CommSuccess && reply.error == 0 && reply.data == 1
    {
      on := ReadData(reply) == Some(1);
    }

    /** set_op_mode (not in DynaController.py): write the mode with torque left as it
        is, then True exactly when the readback equals the mode. */
    method SetOpMode(mode: int, reply: Reply) returns (ok: bool)
      requires variant != Original
      modifies this
      ensures sent == old(sent) + [Write(servoId, OperatingMode, 1, mode)]
      ensures ok <==> ReadData(reply) == Some(mode)
    {
      sent := sent + [Write(servoId, OperatingMode, 1, mode)];
      ok := ReadData(reply) == Some(mode);
    }

    /** calibrate_position: dyna_controller.py sets 180 degrees (2047 ticks); the other
        two write the raw value 180 to the goal-position register, under 16 degrees. */
    method CalibratePosition()
      modifies this
      ensures variant == Tracking ==> sent == old(sent) + [Write(servoId, GoalPosition, 4, 2047)]
      ensures variant != Tracking ==> sent == old(sent) + [Write(servoId, GoalPosition, 4, 180)]
    {
      CalibrationTargets();
      if variant == Tracking {
        SetPos(180.0);
      } else {
        sent := sent + [Write(servoId, GoalPosition, 4, 180)];
      }
    }
  }

  /** A raw position reading of 0xffffffff is one tick below zero, a negative angle,
      rather than almost 2^32 ticks. */
  lemma GetPosAllOnes()
    ensures TicksToDegrees(ToSigned32(TwoTo32 - 1)) == -360.0 / 4095.0
    ensures TicksToDegrees(ToSigned32(TwoTo32 - 1)) < 0.0
  {
    ToSigned32AllOnes();
  }
}

=== FILE: sync_tracker.dfy ===
/** The tracking cycle of TrackingTests/sync_dyna_tracker.py.  After one centring
    command it reads back both servo positions; each cycle measures the folded angle
    of the target in the (y, z) plane of each mirror centre against the pitch
    reference calc_pitch_vec(45) and commands (servo centre - angle) % 360.  The
    helpers calc_elv_vec, calc_pitch_vec and local_to_global are not defined in
    TrackingTests/vec_math.py; the model uses those of dev/alternate/vec_math.py. */
module SyncTracking {
  import opened Numerics
  import opened Planar
  import opened Actuation

  /** (centre - angle) % 360 with Python's floored remainder. */
  function SyncAngle(centre: real, angle: real): (r: real)
    ensures 0.0 <= r < 360.0
  {
    FMod(centre - angle, 360.0)
  }

  /** The command differs from centre - angle by a whole number of turns; it is exactly
      centre - angle when that lies in [0, 360), and centre - angle + 360 when that is
      negative down to -360.  In particular a zero angle commands a centre in [0, 360). */
  lemma SyncAngleTurns(centre: real, angle: real)
    ensures var k := (centre - angle - SyncAngle(centre, angle)) / 360.0; k.Floor as real == k
    ensures 0.0 <= centre - angle < 360.0 ==> SyncAngle(centre, angle) == centre - angle
    ensures -360.0 <= centre - angle < 0.0 ==> SyncAngle(centre, angle) == centre - angle + 360.0
    ensures angle == 0.0 && 0.0 <= centre < 360.0 ==> SyncAngle(centre, angle) == centre
  {
    if 0.0 <= centre - angle < 360.0 {
      FModSmall(centre - angle, 360.0);
    } else if -360.0 <= centre - angle < 0.0 {
      FModWrap(centre - angle, 360.0);
    }
  }

  /** With the pan servo read back at its centre 225, every folded angle in [-90, 90]
      commands 225 - angle, within [135, 315]: the yaw axis never wraps.  With the tilt
      servo at 45, an angle above 45 wraps round to 405 - angle, on the far side of the
      circle. */
  lemma SyncAngleAtCentres(angle: real)
    requires -90.0 <= angle <= 90.0
    ensures SyncAngle(225.0, angle) == 225.0 - angle
    ensures 135.0 <= SyncAngle(225.0, angle) <= 315.0
    ensures angle <= 45.0 ==> SyncAngle(45.0, angle) == 45.0 - angle
    ensures angle > 45.0 ==> SyncAngle(45.0, angle) == 405.0 - angle
  {
    SyncAngleTurns(225.0, angle);
    SyncAngleTurns(45.0, angle);
  }

  /** The TypeError of subtracting the None that vec_ang_delta returns for a
      zero-length vector from a servo centre read back as a float. */
  const CentreMinusNone: string := "unsupported operand type(s) for -: 'float' and 'NoneType'"

  /** DynaTracker of TrackingTests/sync_dyna_tracker.py with the state a tracking
      cycle uses.  The servo centres are the positions read back after centring. */
  class SyncTracker {
    const m: Maths
    const globalYawCentre: Vec3
    const globalPitchCentre: Vec3
    const yawServoCentre: real
    const pitchServoCentre: real
    const refYaw: Vec2
    const refPitch: Vec2
    var targetYawAngle: Option<real>
    var targetPitchAngle: Option<real>
    var currYawAngle: Option<real>
    var currPitchAngle: Option<real>
    var sent: seq<SyncCommand>

    /** The constructor: one centring command (225, 45), the mirror centres
        (144.55, -43.33, 51) and (144.55, 64.77, 51) in global coordinates, the servo
        positions read back, calc_yaw_vec(225) and calc_pitch_vec(45) as references. */
    constructor(m: Maths, bodyMatrix: Mat3, bodyPosition: Vec3, yawRead: real, pitchRead: real)
      ensures this.m == m
      ensures globalYawCentre == LocalToGlobal(Vec3(144.55, -43.33, 51.0), bodyMatrix, bodyPosition)
      ensures globalPitchCentre == LocalToGlobal(Vec3(144.55, 64.77, 51.0), bodyMatrix, bodyPosition)
      ensures yawServoCentre == yawRead && pitchServoCentre == pitchRead
      ensures refYaw == CalcYawVec(m, 225.0) && refPitch == CalcPitchVec(m, 45.0)
      ensures targetYawAngle == None && targetPitchAngle == None
      ensures currYawAngle == None && currPitchAngle == None
      ensures sent == [SyncCommand(225.0, 45.0)]
    {
      this.m := m;
      sent := [SyncCommand(225.0, 45.0)];
      globalYawCentre := LocalToGlobal(Vec3(144.55, -43.33, 51.0), bodyMatrix, bodyPosition);
      globalPitchCentre := LocalToGlobal(Vec3(144.55, 64.77, 51.0), bodyMatrix, bodyPosition);
      yawServoCentre := yawRead;
      pitchServoCentre := pitchRead;
      refYaw := CalcYawVec(m, 225.0);
      refPitch := CalcPitchVec(m, 45.0);
      targetYawAngle := None;
      targetPitchAngle := None;
      currYawAngle := None;
      currPitchAngle := None;
    }

    /** The yaw angle: the folded vec_ang_delta of calc_elv_vec(p, yaw centre) against
        the pitch reference. */
    function YawDelta(p: Vec3): Option<real>
    {
      VecAngDeltaFolded(m, CalcElvVec(p, globalYawCentre), refPitch)
    }

    /** The pitch angle: the folded vec_ang_delta of calc_elv_vec(p, pitch centre)
        against the pitch reference. */
    function PitchDelta(p: Vec3): Option<real>
    {
      VecAngDeltaFolded(m, CalcElvVec(p, globalPitchCentre), refPitch)
    }

    /** track(): a lost target changes nothing.  Otherwise both angles are stored; an
        undefined yaw angle raises TypeError at once, an undefined pitch angle after the
        yaw command angle is stored; with both defined, exactly one command
        ((yaw centre - yaw) % 360, (pitch centre - pitch) % 360) is sent. */
    method Track(target: Target) returns (outcome: Result<()>)
      modifies this
      ensures target.lost ==>
        outcome == Success(()) && sent == old(sent) &&
        targetYawAngle == old(targetYawAngle) && targetPitchAngle == old(targetPitchAngle) &&
        currYawAngle == old(currYawAngle) && currPitchAngle == old(currPitchAngle)
      ensures !target.lost ==>
        targetYawAngle == YawDelta(target.position) && targetPitchAngle == PitchDelta(target.position)
      ensures !target.lost && YawDelta(target.position).None? ==>
        outcome == Failure(CentreMinusNone) && sent == old(sent) &&
        currYawAngle == old(currYawAngle) && currPitchAngle == old(currPitchAngle)
      ensures !target.lost && YawDelta(target.position).Some? ==>
        currYawAngle == Some(SyncAngle(yawServoCentre, YawDelta(target.position).value))
      ensures !target.lost && YawDelta(target.position).Some? && PitchDelta(target.position).None? ==>
        outcome == Failure(CentreMinusNone) && sent == old(sent) && currPitchAngle == old(currPitchAngle)
      ensures !target.lost && YawDelta(target.position).Some? && PitchDelta(target.position).Some? ==>
        var pitch := SyncAngle(pitchServoCentre, PitchDelta(target.position).value);
        outcome == Success(()) && currPitchAngle == Some(pitch) &&
        sent == old(sent) + [SyncCommand(currYawAngle.value, pitch)]
    {
      if target.lost {
        return Success(());
      }
      targetYawAngle := YawDelta(target.position);
      targetPitchAngle := PitchDelta(target.position);
      if targetYawAngle.None? {
        return Failure(CentreMinusNone);
      }
      currYawAngle := Some(SyncAngle(yawServoCentre, targetYawAngle.value));
      if targetPitchAngle.None? {
        return Failure(CentreMinusNone);
      }
      currPitchAngle := Some(SyncAngle(pitchServoCentre, targetPitchAngle.value));
      sent := sent + [SyncCommand(currYawAngle.value, currPitchAngle.value)];
      return Success(());
    }
  }
}

=== FILE: ticks.dfy ===
/** Unit conversion and encoding for the Dynamixel servos: the 32-bit two's-complement
    reinterpretation of register values, the Dynamixel SDK byte macros (defined here
    as the usual masks and shifts), degree/tick scaling with the 4095 and 4096 scales
    of the controller scripts, velocity scaling, and the 8192-ticks-per-turn scale of
    the Tinymovr test. */
module Ticks {
  import opened Numerics

  const TwoTo31: int := 0x8000_0000
  const TwoTo32: int := 0x1_0000_0000

  /** n ^ 0x80000000 for n in [0, 2^32): flip bit 31. */
  function FlipBit31(u: int): (r: int)
    requires 0 <= u < TwoTo32
    ensures 0 <= r < TwoTo32
  {
    if u < TwoTo31 then u + TwoTo31 else u - TwoTo31
  }

  /** On 32 bits, the exclusive or with 0x80000000 adds 2^31 below 2^31 and
      subtracts it above, without wrapping: the case split FlipBit31 makes. */
  lemma XorBit31(u: bv32)
    ensures u < 0x8000_0000 ==> u ^ 0x8000_0000 == u + 0x8000_0000 && u + 0x8000_0000 >= 0x8000_0000
    ensures u >= 0x8000_0000 ==> u ^ 0x8000_0000 == u - 0x8000_0000 && u - 0x8000_0000 < 0x8000_0000
  {
  }

  /** to_signed32: (n & 0xffffffff) ^ 0x80000000, minus 0x80000000.  Python's & with a
      non-negative mask is the non-negative remainder, also for negative n. */
  function ToSigned32(n: int): (r: int)
    ensures -TwoTo31 <= r < TwoTo31
    ensures (n - r) % TwoTo32 == 0
  {
    var u := n % TwoTo32;
    FlipBit31(u) - TwoTo31
  }

  /** Below 2^31 a value is kept; from 2^31 up to 2^32 it is read as negative. */
  lemma ToSigned32Piecewise(n: int)
    ensures 0 <= n < TwoTo31 ==> ToSigned32(n) == n
    ensures TwoTo31 <= n < TwoTo32 ==> ToSigned32(n) == n - TwoTo32
    ensures -TwoTo31 <= n < 0 ==> ToSigned32(n) == n
  {
  }

  /** A value already in the signed range is kept, so applying it twice is applying it once. */
  lemma ToSigned32Idempotent(n: int)
    ensures ToSigned32(ToSigned32(n)) == ToSigned32(n)
  {
    ToSigned32Piecewise(ToSigned32(n));
  }

  /** The all-ones register 0xffffffff is -1. */
  lemma ToSigned32AllOnes()
    ensures ToSigned32(TwoTo32 - 1) == -1
  {
    ToSigned32Piecewise(TwoTo32 - 1);
  }

  /** DXL_LOBYTE(w) = w & 0xFF. */
  function LoByte(w: int): int { w % 256 }

  /** DXL_HIBYTE(w) = (w >> 8) & 0xFF. */
  function HiByte(w: int): int { (w / 256) % 256 }

  /** DXL_LOWORD(l) = l & 0xFFFF. */
  function LoWord(l: int): int { l % 0x1_0000 }

  /** DXL_HIWORD(l) = (l >> 16) & 0xFFFF. */
  function HiWord(l: int): int { (l / 0x1_0000) % 0x1_0000 }

  /** DXL_MAKEWORD(a, b) = (a & 0xFF) | ((b & 0xFF) << 8); the two parts share no bits,
      so the or is a sum. */
  function MakeWord(a: int, b: int): int { a % 256 + (b % 256) * 256 }

  /** The 2-byte parameter [LOBYTE(v), HIBYTE(v)] of set_sync_current. */
  function Split2(v: int): (bytes: seq<int>)
    ensures |bytes| == 2 && forall i :: 0 <= i < 2 ==> 0 <= bytes[i] < 256
  {
    [LoByte(v), HiByte(v)]
  }

  /** The 4-byte parameter of set_sync_pos: the low word's bytes, then the high word's,
      low byte first. */
  function Split4(v: int): (bytes: seq<int>)
    ensures |bytes| == 4 && forall i :: 0 <= i < 4 ==> 0 <= bytes[i] < 256
  {
    [LoByte(LoWord(v)), HiByte(LoWord(v)), LoByte(HiWord(v)), HiByte(HiWord(v))]
  }

  /** A little-endian 4-byte register value as the servo assembles it. */
  function Join4(bytes: seq<int>): int
    requires |bytes| == 4
  {
    bytes[0] + 256 * bytes[1] + 0x1_0000 * bytes[2] + 0x100_0000 * bytes[3]
  }

  /** A value below 2^16 is its low byte plus 256 times its high byte. */
  lemma WordBytes(w: int)
    requires 0 <= w < 0x1_0000
    ensures LoByte(w) + 256 * HiByte(w) == w
  {
    assert w / 256 < 256;
  }

  /** MAKEWORD undoes the 2-byte split modulo 2^16, so exactly for 0 <= v < 65536. */
  lemma MakeWordSplit2(v: int)
    ensures MakeWord(Split2(v)[0], Split2(v)[1]) == v % 0x1_0000
    ensures 0 <= v < 0x1_0000 ==> MakeWord(Split2(v)[0], Split2(v)[1]) == v
  {
    var lo, hi := v % 256, (v / 256) % 256;
    Nested(v, 256, 256);
    ByteFits(lo);
    ByteFits(hi);
    assert MakeWord(lo, hi) == lo + hi * 256;
    if 0 <= v < 0x1_0000 {
      WordFits(v);
    }
  }

  lemma ByteFits(b: int)
    requires 0 <= b < 256
    ensures b % 256 == b
  {
  }

  lemma WordFits(w: int)
    requires 0 <= w < 0x1_0000
    ensures w % 0x1_0000 == w
  {
  }

  /** Reassembling the four bytes gives the value modulo 2^32: exactly v for
      0 <= v < 2^32, and the two's-complement bit pattern for a negative tick count. */
  lemma Join4Split4(v: int)
    ensures Join4(Split4(v)) == v % TwoTo32
    ensures 0 <= v < TwoTo32 ==> Join4(Split4(v)) == v
  {
    var lw := LoWord(v);
    var hw := HiWord(v);
    WordBytes(lw);
    WordBytes(hw);
    Nested(v, 0x1_0000, 0x1_0000);
  }

  /** (v / a) % b and v % (a * b) agree on the digits: v % (a * b) == v % a + a * ((v / a) % b). */
  lemma Nested(v: int, a: int, b: int)
    requires a > 0 && b > 0
    ensures v % (a * b) == v % a + a * ((v / a) % b)
    ensures (v % (a * b)) / a == (v / a) % b
  {
    var q := v / a;
    var r := v % a;
    var q2 := q / b;
    var r2 := q % b;
    assert v == a * (b * q2 + r2) + r;
    assert v == (a * b) * q2 + (a * r2 + r);
    assert 0 <= a * r2 + r < a * b by {
      assert r2 <= b - 1;
      assert a * r2 <= a * (b - 1);
    }
    DivModUnique(v, a * b, q2, a * r2 + r);
    DivModUnique(a * r2 + r, a, r2, r);
  }

  lemma DivMod(v: int, k: int, q: int, r: int)
    requires k > 0 && q == v / k && r == v % k
    ensures v == k * q + r && 0 <= r < k
  {
  }

  /** Two divisions of the same number whose quotients differ by d >= 1 have
      remainders k * d apart, at least k. */
  lemma Spread(k: int, q1: int, q2: int, r1: int, r2: int)
    requires k > 0 && q1 > q2 && k * q1 + r2 == k * q2 + r1
    ensures r1 - r2 >= k
  {
    var d := q1 - q2;
    Distribute(k, q2, d);
    AtLeastOnce(k, d);
  }

  lemma Distribute(k: int, a: int, d: int)
    ensures k * (a + d) == k * a + k * d
  {
  }

  lemma AtLeastOnce(k: int, d: int)
    requires k > 0 && d >= 1
    ensures k * d >= k
  {
    assert k * d == k * (d - 1) + k;
  }

  /** Division with remainder is unique. */
  lemma DivModUnique(v: int, k: int, q: int, r: int)
    requires k > 0 && v == k * q + r && 0 <= r < k
    ensures v / k == q && v % k == r
  {
    var q' := v / k;
    var r' := v % k;
    if q' > q {
      Spread(k, q', q, r, r');
    } else if q' < q {
      Spread(k, q, q', r', r);
    }
  }

  /** Degrees to ticks with fullScale ticks per turn: int(d * fullScale / 360),
      truncating toward zero. */
  function DegToTicksOn(d: real, fullScale: int): int
  {
    Trunc(d * fullScale as real / 360.0)
  }

  /** Degrees to ticks on the 4095 scale of set_pos and set_sync_pos: the whole part,
      toward zero, of d * 4095 / 360. */
  function DegToTicks(d: real): (t: int)
    ensures d >= 0.0 ==> 0 <= t && t as real <= d * 4095.0 / 360.0 < t as real + 1.0
    ensures d < 0.0 ==> t <= 0 && t as real - 1.0 < d * 4095.0 / 360.0 <= t as real
  {
    DegToTicksOn(d, 4095)
  }

  /** convert_ticks_to_degrees: 360 * (t / 4095), so that t ticks are t / 4095 of a
      turn, and the range 0..4095 covers 0..360 degrees. */
  function TicksToDegrees(t: int): (deg: real)
    ensures deg * 4095.0 == t as real * 360.0
    ensures 0 <= t <= 4095 ==> 0.0 <= deg <= 360.0
  {
    360.0 * (t as real / 4095.0)
  }

  /** Degrees to ticks on the 4096 scale of TrackingTests/DynaController.py. */
  function DegToTicks4096(d: real): int
  {
    DegToTicksOn(d, 4096)
  }

  /** Truncation of a whole number is that number. */
  lemma TruncWhole(i: int)
    ensures Trunc(i as real) == i
  {
  }

  /** Truncation is non-decreasing on the non-negative reals. */
  lemma TruncMonotone(a: real, b: real)
    requires 0.0 <= a <= b
    ensures Trunc(a) <= Trunc(b)
  {
  }

  /** 0 and 360 degrees are 0 and 4095 ticks on the 4095 scale, and back. */
  lemma DegToTicksEnds()
    ensures DegToTicks(0.0) == 0 && DegToTicks(360.0) == 4095
    ensures TicksToDegrees(0) == 0.0 && TicksToDegrees(4095) == 360.0
  {
    TruncWhole(0);
    TruncWhole(4095);
  }

  /** 0, 180 and 360 degrees are 0, 2048 and 4096 ticks on the 4096 scale. */
  lemma DegToTicks4096Ends()
    ensures DegToTicks4096(0.0) == 0 && DegToTicks4096(180.0) == 2048 && DegToTicks4096(360.0) == 4096
  {
    TruncWhole(0);
    TruncWhole(2048);
    TruncWhole(4096);
  }

  /** For non-negative angles the tick count is non-decreasing. */
  lemma DegToTicksMonotone(a: real, b: real)
    requires 0.0 <= a <= b
    ensures 0 <= DegToTicks(a) <= DegToTicks(b)
  {
    assert a * 4095.0 / 360.0 <= b * 4095.0 / 360.0;
    TruncMonotone(a * 4095.0 / 360.0, b * 4095.0 / 360.0);
  }

  /** Converting a non-negative angle to ticks and back loses less than one tick,
      360 / 4095 degrees, and never rounds up. */
  lemma DegToTicksRoundTrip(d: real)
    requires d >= 0.0
    ensures d - 360.0 / 4095.0 < TicksToDegrees(DegToTicks(d)) <= d
  {
    var x := d * 4095.0 / 360.0;
    var t := DegToTicks(d);
    assert t as real <= x < t as real + 1.0;
    assert TicksToDegrees(t) == t as real * 360.0 / 4095.0;
    assert x * 360.0 / 4095.0 == d;
  }

  /** The Tinymovr step: 0.0439453125 degrees per tick, which is 360 / 8192. */
  const DegreesPerTick: real := 0.0439453125

  /** tics_2_degs: t * 0.0439453125, so that t ticks are t / 8192 of a turn. */
  function TicsToDegs(t: int): (deg: real)
    ensures deg * 8192.0 == t as real * 360.0
  {
    t as real * DegreesPerTick
  }

  /** degs_2_tics: int(d / 0.0439453125), truncating toward zero. */
  function DegsToTics(d: real): (t: int)
    ensures d >= 0.0 ==> t as real <= d / DegreesPerTick
    ensures d < 0.0 ==> d / DegreesPerTick <= t as real
  {
    Trunc(d / DegreesPerTick)
  }

  /** 8192 ticks make one turn, 0 ticks is 0 degrees, and the scale is strictly
      increasing. */
  lemma TicsToDegsScale(s: int, t: int)
    ensures TicsToDegs(8192) == 360.0 && TicsToDegs(0) == 0.0
    ensures s < t ==> TicsToDegs(s) < TicsToDegs(t)
  {
  }

  /** Every whole tick count survives the conversion to degrees and back. */
  lemma DegsToTicsInverse(t: int)
    ensures DegsToTics(TicsToDegs(t)) == t
  {
    assert TicsToDegs(t) / DegreesPerTick == t as real;
    TruncWhole(t);
  }

  /** set_vel: int(v * 41.7) raw velocity units, truncating toward zero. */
  function VelToRaw(v: real): (raw: int)
    ensures v >= 0.0 ==> 0 <= raw && raw as real <= v * 41.7 < raw as real + 1.0
    ensures v < 0.0 ==> raw <= 0 && raw as real - 1.0 < v * 41.7 <= raw as real
  {
    Trunc(v * 41.7)
  }

  /** get_vel: the signed 32-bit reading divided by 41.7. */
  function RawToVel(raw: int): (v: real)
    ensures -TwoTo31 as real / 41.7 <= v < TwoTo31 as real / 41.7
  {
    ToSigned32(raw) as real / 41.7
  }

  /** A non-negative velocity whose raw value fits in 31 bits reads back from get_vel
      at most one raw unit (1 / 41.7) lower than it was set, never higher. */
  lemma VelToRawRoundTrip(v: real)
    requires v >= 0.0 && VelToRaw(v) < TwoTo31
    ensures v - 1.0 / 41.7 < RawToVel(VelToRaw(v)) <= v
  {
    var raw := VelToRaw(v);
    RawToVelSigned(raw);
    assert (v * 41.7) / 41.7 == v;
  }

  /** A raw reading of 0xffffffff is a small negative velocity, not a huge positive one;
      and a raw velocity below 2^31 is simply scaled. */
  lemma RawToVelSigned(raw: int)
    ensures RawToVel(TwoTo32 - 1) == -1.0 / 41.7
    ensures 0 <= raw < TwoTo31 ==> RawToVel(raw) == raw as real / 41.7
  {
    ToSigned32AllOnes();
    ToSigned32Piecewise(raw);
  }

  /** The two calibrate_position targets: 180 degrees is 2047 ticks on the 4095 scale,
      while a raw goal of 180 ticks is under 16 degrees. */
  lemma CalibrationTargets()
    ensures DegToTicks(180.0) == 2047
    ensures 15.0 < TicksToDegrees(180) < 16.0
  {
  }
}

=== FILE: tracking.dfy ===
/** The tracking cycle of dev/tracking.py.  At construction the tracker reads the
    pose of the mirror body (a rotation matrix and a position) and places the yaw
    and pitch mirror centres in global coordinates; it also takes its planar
    reference vectors from the body's x and z axes.  Each cycle measures the target's
    angles in the two planes, takes their absolute values and remaps them with the
    value-last num_to_range.  As written, both angles are measured against the pitch
    reference vector. */
module Tracking {
  import opened Numerics
  import opened Planar
  import opened Actuation
  import Remap

  /** The yaw remap num_to_range(0, 180, 270, 180, yaw). */
  function YawServo(yaw: real): real
  {
    Remap.NumToRangeLast(0.0, 180.0, 270.0, 180.0, yaw)
  }

  /** The pitch remap num_to_range(90, 0, 45, 90, pitch). */
  function PitchServo(pitch: real): real
  {
    Remap.NumToRangeLast(90.0, 0.0, 45.0, 90.0, pitch)
  }

  /** The yaw remap is yaw' = 270 - yaw / 2 and the pitch remap pitch' = 90 - pitch / 2:
      yaw 0 maps to 270 and 180 to 180, pitch 90 maps to 45 and 0 to 90, and both
      maps are strictly decreasing. */
  lemma ServoRemaps(a: real, b: real)
    ensures YawServo(a) == 270.0 - a / 2.0 && PitchServo(a) == 90.0 - a / 2.0
    ensures YawServo(0.0) == 270.0 && YawServo(180.0) == 180.0
    ensures PitchServo(90.0) == 45.0 && PitchServo(0.0) == 90.0
    ensures a < b ==> YawServo(a) > YawServo(b) && PitchServo(a) > PitchServo(b)
  {
    YawLine(a);
    YawLine(b);
    PitchLine(a);
    PitchLine(b);
    YawLine(0.0);
    YawLine(180.0);
    PitchLine(0.0);
    PitchLine(90.0);
  }

  lemma YawLine(y: real)
    ensures YawServo(y) == 270.0 - y / 2.0
  {
    assert (y - 0.0) * (180.0 - 270.0) == -90.0 * y;
  }

  lemma PitchLine(p: real)
    ensures PitchServo(p) == 90.0 - p / 2.0
  {
    assert (p - 90.0) * (90.0 - 45.0) == 45.0 * p - 4050.0;
  }

  /** The TypeError of abs() applied to the None that vec_ang_delta returns for a
      zero-length vector. */
  const AbsOfNone: string := "bad operand type for abs(): 'NoneType'"

  /** DynaTracker of dev/tracking.py with the state a tracking cycle uses. */
  class AbsoluteTracker {
    const m: Maths
    const globalYawCentre: Vec3
    const globalPitchCentre: Vec3
    const refYaw: Vec2
    const refPitch: Vec2
    var targetYawAngle: Option<real>
    var targetPitchAngle: Option<real>
    var sent: seq<SyncCommand>

    /** The constructor's geometry: the mirror centres (133.15, -32.33, 55) and
        (133.15, 23.77, 55) in the body frame mapped to global coordinates, the yaw
        reference from the (x, y) of the body's x axis and the pitch reference from the
        negated (y, z) of its z axis; and its three set_sync_pos calls: the centre
        (225, 45), then (230, 50), then (220, 40). */
    constructor(m: Maths, bodyMatrix: Mat3, bodyPosition: Vec3)
      ensures this.m == m
      ensures globalYawCentre == LocalToGlobal(Vec3(133.15, -32.33, 55.0), bodyMatrix, bodyPosition)
      ensures globalPitchCentre == LocalToGlobal(Vec3(133.15, 23.77, 55.0), bodyMatrix, bodyPosition)
      ensures refYaw == Vec2(Col0(bodyMatrix).x, Col0(bodyMatrix).y)
      ensures refPitch == Vec2(-Col2(bodyMatrix).y, -Col2(bodyMatrix).z)
      ensures targetYawAngle == None && targetPitchAngle == None
      ensures sent == [SyncCommand(225.0, 45.0), SyncCommand(230.0, 50.0), SyncCommand(220.0, 40.0)]
    {
      this.m := m;
      globalYawCentre := LocalToGlobal(Vec3(133.15, -32.33, 55.0), bodyMatrix, bodyPosition);
      globalPitchCentre := LocalToGlobal(Vec3(133.15, 23.77, 55.0), bodyMatrix, bodyPosition);
      var xAxis := Col0(bodyMatrix);
      refYaw := Vec2(xAxis.x, xAxis.y);
      var zAxis := Col2(bodyMatrix);
      refPitch := Vec2(-zAxis.y, -zAxis.z);
      targetYawAngle := None;
      targetPitchAngle := None;
      sent := [SyncCommand(225.0, 45.0), SyncCommand(230.0, 50.0), SyncCommand(220.0, 40.0)];
    }

    /** The yaw angle vec_ang_delta(calc_azi_vec(p, yaw centre), ref_pitch_vec). */
    function YawDelta(p: Vec3): Option<real>
    {
      VecAngDelta(m, CalcAziVec(p, globalYawCentre), refPitch)
    }

    /** The pitch angle vec_ang_delta(calc_elv_vec(p, pitch centre), ref_pitch_vec). */
    function PitchDelta(p: Vec3): Option<real>
    {
      VecAngDelta(m, CalcElvVec(p, globalPitchCentre), refPitch)
    }

    /** track(): a lost target changes nothing.  Otherwise abs() of a None angle raises
        TypeError (the yaw angle is stored before the pitch angle is taken); with both
        angles defined, their absolute values are stored and exactly one command with
        both remapped angles is sent. */
    method Track(target: Target) returns (outcome: Result<()>)
      modifies this
      ensures target.lost ==>
        outcome == Success(()) && sent == old(sent) &&
        targetYawAngle == old(targetYawAngle) && targetPitchAngle == old(targetPitchAngle)
      ensures !target.lost && YawDelta(target.position).None? ==>
        outcome == Failure(AbsOfNone) && sent == old(sent) &&
        targetYawAngle == old(targetYawAngle) && targetPitchAngle == old(targetPitchAngle)
      ensures !target.lost && YawDelta(target.position).Some? && PitchDelta(target.position).None? ==>
        outcome == Failure(AbsOfNone) && sent == old(sent) &&
        targetYawAngle == Some(Abs(YawDelta(target.position).value)) &&
        targetPitchAngle == old(targetPitchAngle)
      ensures !target.lost && YawDelta(target.position).Some? && PitchDelta(target.position).Some? ==>
        var yaw := Abs(YawDelta(target.position).value);
        var pitch := Abs(PitchDelta(target.position).value);
        outcome == Success(()) && targetYawAngle == Some(yaw) && targetPitchAngle == Some(pitch) &&
        sent == old(sent) + [SyncCommand(YawServo(yaw), PitchServo(pitch))]
    {
      if target.lost {
        return Success(());
      }
      var yawDelta := YawDelta(target.position);
      if yawDelta.None? {
        return Failure(AbsOfNone);
      }
      targetYawAngle := Some(Abs(yawDelta.value));
      var pitchDelta := PitchDelta(target.position);
      if pitchDelta.None? {
        return Failure(AbsOfNone);
      }
      targetPitchAngle := Some(Abs(pitchDelta.value));
      var yawAngle := YawServo(targetYawAngle.value);
      var pitchAngle := PitchServo(targetPitchAngle.value);
      sent := sent + [SyncCommand(yawAngle, pitchAngle)];
      return Success(());
    }
  }

  /** Because the angles are absolute values, a commanded yaw never exceeds 270 and a
      commanded pitch never exceeds 90, whichever side the target is on. */
  lemma CommandBounds(yawDelta: real, pitchDelta: real)
    ensures YawServo(Abs(yawDelta)) <= 270.0
    ensures PitchServo(Abs(pitchDelta)) <= 90.0
  {
    YawLine(Abs(yawDelta));
    PitchLine(Abs(pitchDelta));
  }

  /** As written, the yaw angle does not depend on the yaw reference vector: two
      trackers that differ only in refYaw measure the same yaw. */
  lemma YawIgnoresYawReference(t1: AbsoluteTracker, t2: AbsoluteTracker, p: Vec3)
    requires t1.m == t2.m && t1.globalYawCentre == t2.globalYawCentre && t1.refPitch == t2.refPitch
    ensures t1.YawDelta(p) == t2.YawDelta(p)
  {
  }
}

=== FILE: tracking_backup.dfy ===
/** The tracking cycle of dev/alternate/tracking_backup.py.  Like dev/tracking.py it
    places the mirror centres (144.55, -43.33, 51) and (144.55, 64.77, 51) in global
    coordinates and takes its reference vectors from the body's axes, but it keeps
    the SIGNED angles and remaps them with ranges centred on the servo centre
    (225, 45). */
module TrackingBackup {
  import opened Numerics
  import opened Planar
  import opened Actuation
  import Remap

  /** The yaw remap num_to_range(-90, 90, 180, 270, yaw). */
  function YawServo(yaw: real): real
  {
    Remap.NumToRangeLast(-90.0, 90.0, 180.0, 270.0, yaw)
  }

  /** The pitch remap num_to_range(-90, 0, 0, 45, pitch). */
  function PitchServo(pitch: real): real
  {
    Remap.NumToRangeLast(-90.0, 0.0, 0.0, 45.0, pitch)
  }

  lemma YawLine(y: real)
    ensures YawServo(y) == 225.0 + y / 2.0
  {
    assert (y - -90.0) * (270.0 - 180.0) == 90.0 * y + 8100.0;
  }

  lemma PitchLine(p: real)
    ensures PitchServo(p) == 45.0 + p / 2.0
  {
    assert (p - -90.0) * (45.0 - 0.0) == 45.0 * p + 4050.0;
  }

  /** The yaw remap is yaw' = 225 + yaw / 2 and the pitch remap pitch' = 45 + pitch / 2:
      a zero angle commands the servo centre (225, 45), yaw -90 and 90 map to 180 and
      270, pitch -90 maps to 0, and both maps are strictly increasing. */
  lemma ServoRemaps(a: real, b: real)
    ensures YawServo(a) == 225.0 + a / 2.0 && PitchServo(a) == 45.0 + a / 2.0
    ensures YawServo(0.0) == 225.0 && PitchServo(0.0) == 45.0
    ensures YawServo(-90.0) == 180.0 && YawServo(90.0) == 270.0 && PitchServo(-90.0) == 0.0
    ensures a < b ==> YawServo(a) < YawServo(b) && PitchServo(a) < PitchServo(b)
  {
    YawLine(a);
    YawLine(b);
    PitchLine(a);
    PitchLine(b);
    YawLine(0.0);
    YawLine(-90.0);
    YawLine(90.0);
    PitchLine(0.0);
    PitchLine(-90.0);
  }

  /** The TypeError of num_to_range's inVal - inMin when inVal is the None that
      vec_ang_delta returns for a zero-length vector and inMin is -90. */
  const NoneMinusInt: string := "unsupported operand type(s) for -: 'NoneType' and 'int'"

  /** DynaTracker of dev/alternate/tracking_backup.py with the state a tracking cycle
      uses.  The servo centres are the positions the controller reads back after the
      centring command. */
  class SignedTracker {
    const m: Maths
    const globalYawCentre: Vec3
    const globalPitchCentre: Vec3
    const yawServoCentre: Option<real>
    const pitchServoCentre: Option<real>
    const refYaw: Vec2
    const refPitch: Vec2
    var targetYawAngle: Option<real>
    var targetPitchAngle: Option<real>
    var sent: seq<SyncCommand>

    /** The constructor: one centring command (225, 45), the mirror centres in global
        coordinates, the servo positions read back, and the references from the x and
        z axes of the body. */
    constructor(m: Maths, bodyMatrix: Mat3, bodyPosition: Vec3, yawRead: Option<real>, pitchRead: Option<real>)
      ensures this.m == m
      ensures globalYawCentre == LocalToGlobal(Vec3(144.55, -43.33, 51.0), bodyMatrix, bodyPosition)
      ensures globalPitchCentre == LocalToGlobal(Vec3(144.55, 64.77, 51.0), bodyMatrix, bodyPosition)
      ensures yawServoCentre == yawRead && pitchServoCentre == pitchRead
      ensures refYaw == Vec2(Col0(bodyMatrix).x, Col0(bodyMatrix).y)
      ensures refPitch == Vec2(-Col2(bodyMatrix).y, -Col2(bodyMatrix).z)
      ensures targetYawAngle == None && targetPitchAngle == None
      ensures sent == [SyncCommand(225.0, 45.0)]
    {
      this.m := m;
      sent := [SyncCommand(225.0, 45.0)];
      globalYawCentre := LocalToGlobal(Vec3(144.55, -43.33, 51.0), bodyMatrix, bodyPosition);
      globalPitchCentre := LocalToGlobal(Vec3(144.55, 64.77, 51.0), bodyMatrix, bodyPosition);
      yawServoCentre := yawRead;
      pitchServoCentre := pitchRead;
      var xAxis := Col0(bodyMatrix);
      refYaw := Vec2(xAxis.x, xAxis.y);
      var zAxis := Col2(bodyMatrix);
      refPitch := Vec2(-zAxis.y, -zAxis.z);
      targetYawAngle := None;
      targetPitchAngle := None;
    }

    /** The yaw angle vec_ang_delta(calc_azi_vec(p, yaw centre), ref_pitch_vec). */
    function YawDelta(p: Vec3): Option<real>
    {
      VecAngDelta(m, CalcAziVec(p, globalYawCentre), refPitch)
    }

    /** The pitch angle vec_ang_delta(calc_elv_vec(p, pitch centre), ref_pitch_vec). */
    function PitchDelta(p: Vec3): Option<real>
    {
      VecAngDelta(m, CalcElvVec(p, globalPitchCentre), refPitch)
    }

    /** track(): a lost target changes nothing.  Otherwise both signed angles are
        stored, undefined ones included; an undefined angle makes the remap's
        subtraction raise TypeError before anything is sent, and two defined angles
        send exactly one command with both remapped angles. */
    method Track(target: Target) returns (outcome: Result<()>)
      modifies this
      ensures target.lost ==>
        outcome == Success(()) && sent == old(sent) &&
        targetYawAngle == old(targetYawAngle) && targetPitchAngle == old(targetPitchAngle)
      ensures !target.lost ==>
        targetYawAngle == YawDelta(target.position) && targetPitchAngle == PitchDelta(target.position)
      ensures !target.lost && (YawDelta(target.position).None? || PitchDelta(target.position).None?) ==>
        outcome == Failure(NoneMinusInt) && sent == old(sent)
      ensures !target.lost && YawDelta(target.position).Some? && PitchDelta(target.position).Some? ==>
        outcome == Success(()) &&
        sent == old(sent) + [SyncCommand(YawServo(YawDelta(target.position).value),
                                         PitchServo(PitchDelta(target.position).value))]
    {
      if target.lost {
        return Success(());
      }
      targetYawAngle := YawDelta(target.position);
      targetPitchAngle := PitchDelta(target.position);
      if targetYawAngle.None? || targetPitchAngle.None? {
        return Failure(NoneMinusInt);
      }
      var yawAngle := YawServo(targetYawAngle.value);
      var pitchAngle := PitchServo(targetPitchAngle.value);
      sent := sent + [SyncCommand(yawAngle, pitchAngle)];
      return Success(());
    }
  }

  /** The signed angles lie in [-180, 180] under the arccos law, so a command's yaw lies
      in [135, 315] and its pitch in [-45, 135]: half-turn angles cover only half of the
      servo range on either side of the centre. */
  lemma CommandRange(m: Maths, v1: Vec2, v2: Vec2)
    requires AcosLaw(m)
    requires VecAngDelta(m, v1, v2).Some?
    ensures 135.0 <= YawServo(VecAngDelta(m, v1, v2).value) <= 315.0
    ensures -45.0 <= PitchServo(VecAngDelta(m, v1, v2).value) <= 135.0
  {
    VecAngDeltaSign(m, v1, v2);
    YawLine(VecAngDelta(m, v1, v2).value);
    PitchLine(VecAngDelta(m, v1, v2).value);
  }
}
